=== FILE: README.md ===
# MagicShield telemetry-to-segment pipeline, in Dafny

MagicShield is an anti-cheat pipeline for Minecraft PvP replays. Its logic
has four parts:

- **Attack extraction.** It walks a replay tick by tick and keeps a
  last-known table of every player's position, rotation and ping. It turns
  the subject's attack events into records that carry the distance to the
  attacked player. There are three variants of this walk:
  - copy-forward with velocity;
  - in-place, keeping every attack;
  - in-place, keeping the first attack per tick.
- **Segment splitting.** It cuts the distance stream into runs of
  "too far" hits. A run counts only if it is long enough. A match is
  positive when some run is classified as hacking.
- **Metadata and file names.** Entity-id pairing, validation and routing
  of hack parameters, the nearest-tick window search, and the
  `_segment_<i>.csv` naming together with its inverse `parse_replay_id`.
- **Training aggregation.** The replay-level verdict is the maximum over
  that replay's segments.

The model is functional:

- Events, per-player state, records and segments are immutable datatypes.
- Each pass over a sequence is a pure fold.
- Where the source loops in place, the model uses a method whose
  invariants tie it to a reference fold.

Modelling choices:

- **Squared distances.** Distances and speeds are squared norms over reals,
  because Dafny has no square root. `Segments.ExceedsOnSquares` shows that
  comparing squares against a squared threshold is the same test.
- **Missing values.** A missing value (`""` in the CSV, NaN for pandas) is
  `None`, and `None` never exceeds a threshold.
- **Crashes.** A position with a missing coordinate makes Python raise a
  `TypeError` in the reach extractors and a `KeyError` in the overreach
  scan. The model returns it as a `Failure`.
- **Event order.** A tick's players are a sequence of
  `(key, events)` pairs, so the order of events is explicit.
- **The classifier.** It is a function parameter.

Modules:

| file | module | models |
|---|---|---|
| wrappers.dfy, seqs.dfy | Wrappers, Seqs | `Option`/`Result`, flatten, filter, subsequence |
| telemetry.dfy | Telemetry | events, payloads, ticks, dictionary lookup |
| tracker.dfy | Tracker | the last-known table: how each event updates it, copy-forward vs in-place |
| extract.dfy, extract_props.dfy | Extract, ExtractProperties | the three `process_attack_events` variants and how they relate |
| identity.dfy | Identity | `pair_entity_id` |
| check.dfy | ReplayCheck | `reach/check.py` |
| text.dfy | Text | string order, slicing, `basename`, `splitext`, decimal numerals |
| segments.dfy | Segments | the generic run-buffer splitter |
| predictor.dfy | Predictor | `reach/prediction/reach_predictor.py` |
| preprocess.dfy | Preprocess | `reach/training/preprocess_reach_csv.py` |
| training.dfy | Training | `parse_replay_id`, dataset labelling, replay-level aggregation |
| overreach.dfy | Overreach | `overreach/data_process.py` and `reach/utils/calculator.py` |

## Model

| member | source | states |
|---|---|---|
| Telemetry.DictLookupIsEventsInTick | reach/test_csv_for_predicting.py:26-29 | With distinct player keys in a tick, looking a player up in the tick's dictionary yields exactly the events of that player |
| Telemetry.NotPresentMeansNoEvents | reach/test_csv_for_predicting.py:46-47 | A player absent from a tick has no events in it, so nothing is recorded for them there |
| Tracker.ObserveAllHoldsLastObservation | reach/utils/convert_csv.py:37-65 | After a player's events, pos is the last position seen, rot the last yaw/pitch pair, ping the last ping event's value; velocity comes from the last two positions, including two in the same tick |
| Tracker.ObserveAllHoldsLastPosition | reach/utils/convert_csv.py:37-57 | A position event always overwrites pos; velocity is the ×20 difference of the last two positions whatever the tick gap, and absent when either lacks a coordinate |
| Tracker.ObserveAllHoldsLastRotation | reach/utils/convert_csv.py:59-61 | Rotation is the last yaw/pitch pair carried by any event type, unchanged when none |
| Tracker.ObserveAllHoldsLastPing | reach/utils/convert_csv.py:63-65 | Ping is the value of the last ping event, empty when that event has none |
| Tracker.ApplyTickPerPlayer | reach/utils/convert_csv.py:32-65 | Applying a tick changes each player's entry only by that player's own events |
| Tracker.ApplyTickLeavesOthersAlone | reach/utils/convert_csv.py:32-33 | A player with no entry in the tick keeps exactly its previous state |
| Tracker.ReplayPerPlayer | reach/test_csv_for_predicting.py:18-43 | Replaying ticks from an empty table gives each player the state of observing its own events in order; other players never interfere |
| Tracker.TickCarriesFieldsForward | reach/utils/convert_csv.py:28-65 | Copy-forward: a field with no event this tick keeps the previous tick's value, and a position event overwrites pos |
| Tracker.HeldStateIsLastObservation | reach/test_csv_for_predicting.py:18-43 | Across the whole replay every field is its last observation, and absent if never observed |
| Tracker.VelocityTrackingIsInvisible | reach/utils/convert_csv_for_training.py:21-40 | Position, rotation and ping do not depend on whether velocity is tracked, so the three variants share their update rules |
| Tracker.NoVelocityWithoutTracking | reach/utils/convert_csv_for_training.py:14 | The in-place variants never hold a velocity |
| Tracker.HeldPositionWasReported | reach/utils/convert_csv.py:37-57 | A position held for a player after any prefix of the replay was reported by one of that player's own position events; no position is invented |
| Extract.SqDistance | reach/utils/convert_csv.py:94-101 | Absent exactly when either position is unknown; a crash at that tick exactly when both are known and one lacks a coordinate; otherwise the sum of the squared coordinate differences |
| Extract.SharedColumns | reach/test_csv_for_predicting.py:52-84 | A record has the attack's tick and the resolved target, `None` if the id is unpaired. Its distance is the squared norm of the difference of the two held positions, absent iff either is unknown. Yaw and pitch are the held rotations' components, pings the held pings |
| Extract.MotionColumns | reach/utils/convert_csv.py:84-110 | Each squared speed is the squared norm of that player's held velocity, absent iff the velocity is; the relative one is the squared norm of the velocities' difference, absent iff either is |
| ExtractProperties.ExtractAllReadsReplayedState | reach/test_csv_for_predicting.py:21-84 | The in-place extractor writes, tick by tick, the records computed from the table replayed from the start of the file up to and including that tick |
| ExtractProperties.CopyForwardReadsReplayedState | reach/utils/convert_csv.py:24-129 | The copy-forward extractor writes, tick by tick, the records computed from the table replayed with velocities up to and including that tick |
| ExtractProperties.AttackMeasuresLastPositions | reach/test_csv_for_predicting.py:54-71 | An attack's distance is the squared distance between the last positions the attacker and the target reported up to that tick; it is absent when either never reported one |
| ExtractProperties.SqSpeedFromLastTwoPositions | reach/utils/convert_csv.py:37-57 | With velocity tracking, a player's squared speed is 400 times the squared displacement between its last two reported positions |
| ExtractProperties.SqDistanceSymmetric | reach/utils/convert_csv.py:94-101 | The distance is the same whichever player is the attacker |
| ExtractProperties.CopyForwardAgreesWithAll | reach/test_csv_for_predicting.py:73-84 | On the columns both write, the copy-forward extractor and the all-attacks extractor give the same records, or crash at the same point |
| ExtractProperties.OneRecordPerAttackEvent | reach/utils/convert_csv.py:68-127 | Exactly one record per attack event of the subject, in tick and event order, each with its tick and resolved target |
| ExtractProperties.NothingWrittenIffNoAttack | reach/utils/convert_csv.py:140-142 | `write_attack_events` reports failure exactly when the subject never attacks |
| ExtractProperties.FirstPerTickFiltersAll | reach/utils/convert_csv_for_training.py:42-78 | The first-attack extractor's output is the all-attacks output cut down to the first record of each tick |
| ExtractProperties.FirstRecordTicksFollowInput | reach/utils/convert_csv_for_training.py:66-78 | At most one record per tick, and the record ticks are a subsequence of the input ticks |
| ExtractProperties.ExtractionTotalWhenPositionsComplete | reach/utils/convert_csv.py:94-101 | When every position event has x, y and z, extraction never crashes |
| ExtractProperties.VelocityIgnoresTickGap | reach/utils/convert_csv.py:44-46 | A one-block move reads as 20 blocks/s (squared 400), whatever ticks the two updates fall on |
| Identity.PairEntityId | reach/utils/convert_csv.py:183-192 | The pairing's keys are exactly the players' entity ids, and each maps to the name of some player with that id |
| Identity.PairingIsLastWins | reach/test_csv_for_predicting.py:127-134 | An id maps to the name of its last occurrence |
| Identity.PairingOfDistinctIds | reach/utils/convert_csv_for_training.py:123-130 | With distinct ids, every player's id maps to that player's name |
| ReplayCheck.IsDefault | reach/check.py:9-23 | True iff every default key is absent or equal to its default |
| ReplayCheck.ExtraKeysIgnored | reach/check.py:17-23 | Keys outside the defaults do not change the verdict |
| ReplayCheck.NoneModified | reach/check.py:86-91 | No player is listed as modified iff every player's parameters are default |
| ReplayCheck.OneModified | reach/check.py:86-98 | Exactly one modified entry iff exactly one player is non-default, and that entry is that player with their mods |
| ReplayCheck.GetModificationInfo | reach/check.py:76-106 | Valid iff exactly one player is non-default. Invalid gives no player and no type. Otherwise: that player's name; "reach" if hitbox changed (even with speed), else "speed" if speed changed, else none |
| ReplayCheck.GetPlayerPair | reach/check.py:63-73 | None iff fewer than two players; otherwise the names as a sorted permutation |
| ReplayCheck.PlayerPairIgnoresOrder | reach/check.py:69-73 | The same names in any order give the same pair |
| ReplayCheck.AnyAttack | reach/check.py:47-60 | True iff some event carries an attack target |
| ReplayCheck.ContainsAttack | reach/check.py:40-60 | True iff the replay decoded and some event carries an attack target; an undecodable replay gives false |
| ReplayCheck.NoAttackMeansNoRecords | reach/check.py:203-209 | A replay filed under "no attack data" gives no records to any of the three extractors (all attacks, first per tick, copy-forward), for any subject, and nothing is written |
| ReplayCheck.AddFile | reach/check.py:146-150 | Adding a file keeps the group keys distinct, appends it to its replay-number group, or opens a new group at the end |
| ReplayCheck.GroupingPartitionsFiles | reach/check.py:146-150 | Every file lies in exactly the group of its own replay number, and every group member is one of the files |
| ReplayCheck.RouteGroup | reach/check.py:153-216 | Skip iff metadata is missing or unreadable or has fewer than two players. Then a metadata issue iff the parameters are invalid or name no hack type, a no-attack issue iff avro/avsc are missing or there are no attacks, else valid with the player and hack type `get_modification_info` reports |
| ReplayCheck.RoutedDestination | reach/check.py:153-216 | Files stay iff the metadata is missing, unreadable or has fewer than two players. Without a lone modified player they go to `metadata_error/<replay>`. A lone modified player with neither hitbox nor speed changed also goes there. Without avro, avsc or an attack they go to `no_attack_data/<replay>`. Otherwise they go to `reach/<name>` on a hitbox change, else `speed/<name>` |
| ReplayCheck.Decide | reach/check.py:152-181 | A group's route is the one its files and contents give; a group that is not skipped is counted under the sorted player names of its metadata |
| ReplayCheck.ProcessReplayFilesCounts | reach/check.py:173-218 | Per pair, every processed replay is listed exactly once, as success or invalid, in order. `valid` counts the successes, `metadataIssue` counts exactly the groups routed to the metadata folder and `noAttackIssue` exactly those routed to the no-attack folder (each against its own reference list), and a pair appears only if one of its replays was processed |
| Text.SortedUnique | reach/check.py:73 | Two sorted lists with the same contents are equal, so `sorted` is determined by its input's contents |
| Text.DropLastUndoesAppend | reach/prediction/reach_predictor.py:143 | Cutting the last n characters undoes appending an n-character suffix |
| Text.BasenameOfJoin | reach/training/train_reach_model.py:20 | The base name of `dir/name` is `name` when name has no '/' |
| Text.StemOfCsv | reach/training/preprocess_reach_csv.py:44 | `splitext` of `stem.csv` gives back the stem when the stem is not all dots |
| Text.NatToStringReads | reach/training/preprocess_reach_csv.py:45 | The decimal numeral of n reads back as n |
| Text.NatToStringInjective | reach/training/preprocess_reach_csv.py:45 | Distinct numbers have distinct numerals |
| Segments.Flush | reach/prediction/reach_predictor.py:32-33 | The end-of-stream flush emits the pending run iff it has at least the minimum length |
| Segments.Split | reach/prediction/reach_predictor.py:24-34 | Every segment has at least the minimum length, and every element passes the strict test |
| Segments.RunsPartition | reach/prediction/reach_predictor.py:23-31 | The maximal runs between breaks concatenate to exactly the passing elements; their count is one more than the number of breaks |
| Segments.SplitIsLongRuns | reach/prediction/reach_predictor.py:23-34 | The splitter returns exactly the maximal runs of at least the minimum length, in order |
| Segments.SplitKeepsOrder | reach/training/preprocess_reach_csv.py:31-40 | The segments' concatenation is a subsequence of the input |
| Segments.SplitLosslessForShortMinimum | reach/training/preprocess_reach_csv.py:35-40 | With minimum length at most 1, no passing element is lost |
| Segments.SplitAllPassing | reach/prediction/reach_predictor.py:32-33 | An input that never breaks gives one segment if long enough (the final flush), otherwise none |
| Segments.SplitAtBreak | reach/prediction/reach_predictor.py:26-31 | A break separates the input into two independently split halves |
| Segments.SplitRows | reach/training/preprocess_reach_csv.py:31-40 | Every segment has at least `min_ticks` rows, and each row has a distance strictly above the threshold |
| Segments.ExceedsOnSquares | reach/prediction/reach_predictor.py:26 | For non-negative values, d > t iff d² > t², so squared distances decide the same way |
| Segments.RunClosedByBreak | reach/prediction/reach_predictor.py:26-31 | A run closed by a break is kept iff its length is at least the minimum |
| Segments.TwoSegmentsExample | reach/prediction/reach_predictor.py:24-33 | Distances 4,4,4,4,2,4,4,4,4,4 with threshold 3 and minimum 4 give the segments of length 4 and 5 |
| Predictor.SortByTick | reach/prediction/reach_predictor.py:22 | The result is tick-ordered and a permutation of the rows |
| Predictor.TickSortIsUnique | reach/prediction/reach_predictor.py:22 | When ticks are distinct, every tick-ordered permutation is the same, so the choice of sorting algorithm does not matter |
| Predictor.ExtractSegmentsFromCsv | reach/prediction/reach_predictor.py:13-34 | Every segment has at least `min_ticks` rows, each with distance strictly above the threshold |
| Predictor.SegmentsIndependentOfSortOrder | reach/prediction/reach_predictor.py:22-34 | With distinct ticks, splitting any tick-ordered permutation gives the same segments |
| Predictor.PredictReachModule | reach/prediction/reach_predictor.py:37-74 | The verdict is 0 or 1; it is 1 iff some segment's classification has a probability at or above the threshold; no segments gives 0 |
| Predictor.MinTick | reach/prediction/reach_predictor.py:126-130 | The smallest tick of the segment, attained by a row |
| Predictor.MaxTick | reach/prediction/reach_predictor.py:126-130 | The largest tick of the segment, attained by a row |
| Predictor.PredictWithTickRange | reach/prediction/reach_predictor.py:101-131 | Hack iff some segment is positive, and iff a range is returned. The range is the min and max tick of the first positive segment, which is non-empty, with min ≤ max. An empty segment has no features and is never positive |
| Predictor.FirstOccurrencesContents | reach/prediction/reach_predictor.py:159-166 | Deduplication keeps exactly the names present, each once |
| Predictor.FirstOccurrencesOrder | reach/prediction/reach_predictor.py:159-166 | Deduplicated names keep the order of their first occurrences |
| Predictor.UniqueTargets | reach/prediction/reach_predictor.py:159-166 | The loop processes each metadata name once, in first-occurrence order, and processes every name |
| Predictor.FileNamesRoundTrip | reach/prediction/reach_predictor.py:143-195 | `replay_id` undoes appending ".avro" and `player_ecid` undoes appending ".csv" |
| Preprocess.SegmentFileName | reach/training/preprocess_reach_csv.py:43-46 | Segment files are CSV files |
| Preprocess.SegmentNumberReadsBack | reach/training/preprocess_reach_csv.py:45 | A segment name is the file's stem, `_segment_`, a decimal numeral that reads back as the segment's 1-based index, and `.csv` |
| Preprocess.NumeralOfName | reach/training/preprocess_reach_csv.py:45 | The numeral can be read back from a segment name |
| Preprocess.SegmentNamesDistinct | reach/training/preprocess_reach_csv.py:43-46 | Different segment indices of a file give different names |
| Preprocess.NamedSegmentsWellFormed | reach/training/preprocess_reach_csv.py:28-46 | The segments written for one file have pairwise distinct names, each naming its 1-based position; each has at least `min_ticks` rows, every one with a distance above the threshold |
| Training.SegmentsOfFileShareReplayId | reach/training/training_reach.py:16-24 | Every segment written for `stem.csv` parses back to the replay id `stem` |
| Preprocess.ExtractHighDistanceSegments | reach/training/preprocess_reach_csv.py:6-51 | `file_count` is the number of CSV files. The written files are, in order, every CSV file's named segments. `segment_count` is their number |
| Training.LastMatch | reach/training/train_reach_model.py:21-23 | Finds the last position where the `_segment_<digits>.csv` suffix starts with no newline before it, or reports none |
| Training.LastMatchIsUnique | reach/training/training_reach.py:22-24 | The greedy match's split point is unique |
| Training.ParseReplayIdMeaning | reach/training/train_reach_model.py:14-25 | On a match, the result is the base name up to the last match; otherwise it is the base name |
| Training.ParseReplayIdInvertsNaming | reach/training/training_reach.py:16-26 | The replay id of any segment file that the preprocessor wrote for `stem.csv`, in any directory, is `stem` |
| Training.UnmatchedNameUnchanged | reach/training/training_reach.py:25-26 | A name without the pattern is returned as its base name |
| Training.LabelFiles | reach/training/train_reach_model.py:44-57 | Every sample carries the given label and comes from one of the files; every feature row of every file is kept, tagged with its file, and the sample count is the files' total row count; no samples iff every file yields nothing |
| Training.LoadSegmentDataset | reach/training/train_reach_model.py:28-65 | Fails iff no file yields a segment. Hack files give label 1 and normal files 0, with hack samples first; every row of every hack file is present with label 1 and every row of every normal file with label 0, and nothing else is added |
| Training.MaxInt | reach/training/training_reach.py:119-123 | The maximum of the integer label columns is attained and bounds all values |
| Training.MaxReal | reach/training/train_reach_model.py:114-118 | The maximum is attained and bounds all values |
| Training.ReplayPredictionOverResults | reach/training/training_reach.py:118-123 | Over the test set, a replay id that occurs is predicted a hack iff one of its own segments reaches the threshold |
| Training.ReplayLevelIsOr | reach/training/train_reach_model.py:101-118 | A replay's predicted label is 1 iff some segment's prob reaches the threshold, i.e. the thresholded max prob |
| Overreach.EventsAt | overreach/data_process.py:50-51 | Absent iff no entry has that tick; otherwise an entry with that tick holds the events |
| Overreach.FindNearest | reach/utils/calculator.py:12-17 | Offsets 0..range are tried in order, and the first tick holding the key gives the value. None iff no tick in the window holds it |
| Overreach.ExactHitWins | reach/utils/calculator.py:13-16 | When the exact tick holds the key, its value is returned |
| Overreach.NothingFoundWithoutPlayback | overreach/data_process.py:15-20 | An unknown player or a negative range gives None |
| Overreach.Opponent | overreach/data_process.py:29-33 | The first name that differs from the target; None iff every name is the target |
| Overreach.SqDistance | overreach/data_process.py:7-12 | Defined iff both positions have x, y, z, otherwise a crash at that tick; never negative; zero for equal positions |
| Overreach.SqDistanceValue | overreach/data_process.py:7-12 | With all coordinates present, the value is the sum of the squared coordinate differences |
| Overreach.SqDistanceSymmetric | overreach/data_process.py:7-12 | The distance is the same with the two positions swapped |
| Overreach.SampleAt | overreach/data_process.py:43-56 | A sample needs an attack and both players' non-empty positions at that exact tick. A missing attack or position gives no sample |
| Overreach.SampleAtMeaning | overreach/data_process.py:15-56 | With an attack and both non-empty positions at that tick, the sample crashes iff a position lacks a coordinate. Otherwise it is the tick, the squared distance, and the target's ping and rotation nearest forward within 20 ticks |
| Overreach.RoundedExceedsThree | overreach/data_process.py:56-57 | Rounding to 3 decimals (half to even) exceeds 3 iff the distance exceeds 3.0005 |
| Overreach.ExceedsIsRoundedTest | overreach/data_process.py:56-57 | The squared test used by the model equals the source's rounded-distance test |
| Overreach.Keep | overreach/data_process.py:60-65 | A streak is kept whole iff it has at least 5 samples, otherwise dropped |
| Overreach.MissingPositionKeepsStreak | overreach/data_process.py:55 | A tick missing either position neither extends nor resets the streak |
| Overreach.WalkIsSplit | overreach/data_process.py:42-65 | The streak loop's results equal the concatenation of the generic splitter's segments (minimum 5) over the samples, crashing at the same point |
| Overreach.ProcessDataWritesStreaks | overreach/data_process.py:23-65 | No output when the target has no playback or there is no opponent. Otherwise the output is the concatenation of the qualifying streaks, and every row exceeds the distance |

## Notes on the source

- Distances 4,4,4,4,2,4,4,4,4,4 with threshold 3 and minimum 4 give two
  segments, of lengths 4 and 5 (`Segments.TwoSegmentsExample`).
- With `min_ticks` ≤ 0, the code emits an empty segment for every break.
  The model keeps that behaviour. Such a segment becomes
  `pd.DataFrame([])`, whose temporary CSV has no columns, so `read_csv`
  fails, `extract_features` returns `None`
  (`reach/utils/extract_features.py:11-15`) and the predictor skips the
  segment (`reach/prediction/reach_predictor.py:121-122`).
- In the overreach scan, ticks are integers. The source compares decimal
  strings; the two agree for canonical numerals.

## Left out

- Avro decoding, JSON/CSV reading and writing, `os.walk`/`listdir`/`makedirs`, `shutil.move`, and the temporary-segment CSV round trip: these are I/O. The model takes parsed ticks, rows and a file-content function as input.
- Feature extraction, RandomForest training, `predict_proba`, `train_test_split`, `classification_report` and model loading: floating-point statistics and library code. The classifier is a function parameter returning probabilities.
- The orchestration scripts (`reach/predict_reach.py`, `reach/reach_main.py`, the training drivers), printing and summary reports.
- `math.sqrt` in the distance, speed and relative-speed columns: the model keeps the squared values, and floats are idealised as reals. The reach extractors write the square roots unrounded. Only the overreach distance is rounded to three decimals (`overreach/data_process.py:8`); the model rounds it where it decides the comparison (`Overreach.RoundedExceedsThree`). `reach/utils/calculator.py`, which no file imports, rounds as well; its window search is the same as the overreach one.
- Extract.SharedColumns: states the squared distance, not its square root.
- `int(tick)` on a non-numeric tick string, and numerals with leading zeros or signs: ticks are integers in the model.
- `\d` in `parse_replay_id` matches every Unicode decimal digit; the model's digit class is ASCII `0`-`9`.
- Training.ParseReplayIdInvertsNaming: requires a stem free of '/' and newline characters that is not all dots, because otherwise `basename`, `re.match` or `splitext` change the name.
- Predictor.SortByTick: pandas' default sort is not stable. The model fixes one stable sort and proves (`Predictor.TickSortIsUnique`) that any tick-ordered permutation agrees with it when ticks are distinct. Rows with equal ticks may be ordered differently by pandas.
- Duplicate keys in a JSON object: a tick's players are a sequence, and a lookup takes the first entry. The agreement lemmas assume distinct keys.
- Exceptions other than the missing-coordinate `TypeError`/`KeyError` (malformed payloads, wrong value types): not modelled.
- A key present with a JSON `null` value: a payload field is `None` only when its key is absent. In the source, `"yaw": null` with a pitch still overwrites the held rotation (`reach/utils/convert_csv.py:59-61`), and `"attackTarget": null` still counts as an attack (`reach/utils/convert_csv.py:68`, `reach/check.py:55`); the model cannot express either case.
- In the overreach scan, the attack's `attackTarget` value and the found ping and rotation are carried as field dictionaries only. They affect no decision.
- `process_all_json_files` and the `hack_count` totals of `reach/predict_reach.py`: directory loops around the modelled functions.

=== FILE: check.dfy ===
/** The replay checker (reach/check.py): validates each replay's hack
    parameters, checks that its telemetry contains attacks, and decides
    where its files go and which counter it bumps. File moves and JSON or
    Avro decoding are outside the model: the decoded contents are inputs. */
module ReplayCheck {
  import opened Wrappers
  import opened Telemetry
  import opened Identity
  import Text
  import Extract
  import Tracker
  import Seqs

  // ---------------------------------------------------------------------
  // Hack parameters

  /** `DEFAULT_HACK`. */
  const DefaultHack: map<string, int> := map["kbH" := 29, "kbV" := 29, "hitbox" := 100, "speed" := 100]

  /** `hack.get(key, DEFAULT_HACK[key])`. */
  function HackValue(hack: map<string, int>, key: string): int
    requires key in DefaultHack
  {
    if key in hack then hack[key] else DefaultHack[key]
  }

  predicate Changed(hack: map<string, int>, key: string)
    requires key in DefaultHack
  {
    HackValue(hack, key) != DefaultHack[key]
  }

  /** `is_default`: every default key is absent or holds its default; other
      keys play no part. */
  function IsDefault(hack: map<string, int>): (b: bool)
    ensures b <==> forall key :: key in DefaultHack ==> key !in hack || hack[key] == DefaultHack[key]
  {
    assert DefaultHack.Keys == {"kbH", "kbV", "hitbox", "speed"};
    !Changed(hack, "kbH") && !Changed(hack, "kbV") && !Changed(hack, "hitbox") && !Changed(hack, "speed")
  }

  lemma ExtraKeysIgnored(hack: map<string, int>)
    ensures IsDefault(hack) == IsDefault(map key | key in hack && key in DefaultHack :: hack[key])
  {
  }

  /** `mods`: which of hitbox and speed differ from the default, in that order. */
  function Mods(hack: map<string, int>): seq<string>
  {
    (if Changed(hack, "hitbox") then ["hitbox"] else []) + (if Changed(hack, "speed") then ["speed"] else [])
  }

  /** `modified`: name and mods of every player whose parameters are not default. */
  function Modified(players: seq<PlayerMeta>): seq<(PlayerKey, seq<string>)>
  {
    if |players| == 0 then []
    else (if !IsDefault(players[0].hack) then [(players[0].name, Mods(players[0].hack))] else [])
         + Modified(players[1..])
  }

  /** Player `i` is the one and only player with non-default parameters. */
  ghost predicate OnlyModified(players: seq<PlayerMeta>, i: int)
  {
    0 <= i < |players| && !IsDefault(players[i].hack)
    && forall j :: 0 <= j < |players| && j != i ==> IsDefault(players[j].hack)
  }

  /** The hack a single modified player's parameters denote. */
  function HackType(mods: seq<string>): Option<string>
  {
    if "hitbox" in mods then Some("reach") else if "speed" in mods then Some("speed") else None
  }

  lemma {:induction false} NoneModified(players: seq<PlayerMeta>)
    ensures |Modified(players)| == 0 <==> forall j :: 0 <= j < |players| ==> IsDefault(players[j].hack)
    decreases |players|
  {
    if |players| > 0 {
      NoneModified(players[1..]);
      if forall j :: 0 <= j < |players[1..]| ==> IsDefault(players[1..][j].hack) {
        assert forall j :: 1 <= j < |players| ==> IsDefault(players[j].hack) by {
          forall j | 1 <= j < |players| ensures IsDefault(players[j].hack) {
            assert players[1..][j - 1] == players[j];
          }
        }
      } else {
        var j :| 0 <= j < |players[1..]| && !IsDefault(players[1..][j].hack);
        assert players[j + 1] == players[1..][j];
      }
    }
  }

  lemma {:induction false} OneModified(players: seq<PlayerMeta>)
    ensures |Modified(players)| == 1 <==> exists i :: OnlyModified(players, i)
    ensures forall i :: OnlyModified(players, i) ==> Modified(players) == [(players[i].name, Mods(players[i].hack))]
    decreases |players|
  {
    if |players| > 0 {
      var rest := players[1..];
      OneModified(rest);
      NoneModified(rest);
      if !IsDefault(players[0].hack) {
        if |Modified(players)| == 1 {
          assert OnlyModified(players, 0) by {
            forall j | 0 < j < |players| ensures IsDefault(players[j].hack) {
              assert rest[j - 1] == players[j];
            }
          }
        }
        forall i | OnlyModified(players, i)
          ensures Modified(players) == [(players[i].name, Mods(players[i].hack))]
        {
          assert i == 0;
          forall j | 0 <= j < |rest| ensures IsDefault(rest[j].hack) {
            assert rest[j] == players[j + 1];
          }
        }
      } else {
        forall i | OnlyModified(players, i)
          ensures OnlyModified(rest, i - 1)
        {
          assert i > 0;
          forall j | 0 <= j < |rest| && j != i - 1 ensures IsDefault(rest[j].hack) {
            assert rest[j] == players[j + 1];
          }
        }
        forall i | OnlyModified(rest, i)
          ensures OnlyModified(players, i + 1)
        {
          forall j | 0 <= j < |players| && j != i + 1 ensures IsDefault(players[j].hack) {
            if j > 0 {
              assert players[j] == rest[j - 1];
            }
          }
        }
      }
    }
  }

  /** `get_modification_info`. */
  datatype ModInfo = ModInfo(valid: bool, player: Option<PlayerKey>, hackType: Option<string>)

  /** Valid exactly when one player alone has non-default parameters; that
      player is named, and a hitbox change is "reach" even when speed also
      changed, a speed change alone is "speed", and a knockback-only change
      has no hack type. */
  function GetModificationInfo(players: seq<PlayerMeta>): (info: ModInfo)
    ensures info.valid <==> exists i :: OnlyModified(players, i)
    ensures !info.valid ==> info.player.None? && info.hackType.None?
    ensures forall i :: OnlyModified(players, i) ==>
              var hack := players[i].hack;
              && info.player == Some(players[i].name)
              && info.hackType == (if Changed(hack, "hitbox") then Some("reach")
                                   else if Changed(hack, "speed") then Some("speed")
                                   else None)
  {
    OneModified(players);
    var modified := Modified(players);
    if |modified| != 1 then ModInfo(false, None, None)
    else ModInfo(true, Some(modified[0].0), HackType(modified[0].1))
  }

  // ---------------------------------------------------------------------
  // Player pair

  function Names(players: seq<PlayerMeta>): (names: seq<PlayerKey>)
    ensures |names| == |players|
    ensures forall i :: 0 <= i < |players| ==> names[i] == players[i].name
  {
    seq(|players|, i requires 0 <= i < |players| => players[i].name)
  }

  /** `get_player_pair`: the sorted names, or `None` with fewer than two players. */
  function GetPlayerPair(players: seq<PlayerMeta>): (pair: Option<seq<PlayerKey>>)
    ensures pair.None? <==> |players| < 2
    ensures pair.Some? ==> Text.Sorted(pair.value) && multiset(pair.value) == multiset(Names(players))
  {
    if |players| < 2 then None else Some(Text.Sort(Names(players)))
  }

  /** The same players listed in any order give the same pair, so their
      replays are counted together. */
  lemma PlayerPairIgnoresOrder(p1: seq<PlayerMeta>, p2: seq<PlayerMeta>)
    requires multiset(Names(p1)) == multiset(Names(p2))
    ensures GetPlayerPair(p1) == GetPlayerPair(p2)
  {
    assert |Names(p1)| == |multiset(Names(p1))| == |multiset(Names(p2))| == |Names(p2)|;
    Text.SortIgnoresOrder(Names(p1), Names(p2));
  }

  // ---------------------------------------------------------------------
  // Attack scan

  function AnyAttack(evs: seq<Event>): (b: bool)
    ensures b <==> exists i :: 0 <= i < |evs| && IsAttack(evs[i])
    decreases |evs|
  {
    if |evs| == 0 then false
    else if IsAttack(evs[0]) then true
    else
      var b := AnyAttack(evs[1..]);
      assert b <==> exists i :: 1 <= i < |evs| && IsAttack(evs[i]) by {
        if b {
          var i :| 0 <= i < |evs[1..]| && IsAttack(evs[1..][i]);
          assert evs[i + 1] == evs[1..][i];
        }
        if exists i :: 1 <= i < |evs| && IsAttack(evs[i]) {
          var i :| 1 <= i < |evs| && IsAttack(evs[i]);
          assert evs[1..][i - 1] == evs[i];
        }
      }
      b
  }

  lemma AnyAttackAppend(a: seq<Event>, b: seq<Event>)
    ensures AnyAttack(a + b) == (AnyAttack(a) || AnyAttack(b))
  {
    if AnyAttack(a) {
      var i :| 0 <= i < |a| && IsAttack(a[i]);
      assert (a + b)[i] == a[i];
    }
    if AnyAttack(b) {
      var i :| 0 <= i < |b| && IsAttack(b[i]);
      assert (a + b)[|a| + i] == b[i];
    }
    if AnyAttack(a + b) {
      var i :| 0 <= i < |a + b| && IsAttack((a + b)[i]);
      if i < |a| {
        assert a[i] == (a + b)[i];
      } else {
        assert b[i - |a|] == (a + b)[i];
      }
    }
  }

  /** The inner loops over one tick's players. */
  function AnyAttackInTick(players: seq<(PlayerKey, seq<Event>)>): (b: bool)
    ensures b == AnyAttack(TickEvents(players))
    decreases |players|
  {
    if |players| == 0 then false
    else
      AnyAttackAppend(players[0].1, TickEvents(players[1..]));
      AnyAttack(players[0].1) || AnyAttackInTick(players[1..])
  }

  function AnyAttackInTicks(ticks: seq<Tick>): (b: bool)
    ensures b == AnyAttack(AllEvents(ticks))
    decreases |ticks|
  {
    if |ticks| == 0 then false
    else
      AnyAttackAppend(TickEvents(ticks[0].players), AllEvents(ticks[1..]));
      AnyAttackInTick(ticks[0].players) || AnyAttackInTicks(ticks[1..])
  }

  /** `contains_attack_in_avro`: `None` stands for a replay that could not be
      read, which the source's `except` turns into `False`. */
  function ContainsAttack(replay: Option<seq<Tick>>): (b: bool)
    ensures b <==> replay.Some? && exists i :: 0 <= i < |AllEvents(replay.value)| && IsAttack(AllEvents(replay.value)[i])
  {
    replay.Some? && AnyAttackInTicks(replay.value)
  }

  lemma {:induction false} DictLookupInTick(players: seq<(PlayerKey, seq<Event>)>, key: PlayerKey, e: Event)
    requires e in DictLookup(players, key)
    ensures e in TickEvents(players)
    decreases |players|
  {
    if players[0].0 != key {
      DictLookupInTick(players[1..], key, e);
    }
  }

  lemma {:induction false} EventsInTickInTick(players: seq<(PlayerKey, seq<Event>)>, key: PlayerKey, e: Event)
    requires e in EventsInTick(players, key)
    ensures e in TickEvents(players)
    decreases |players|
  {
    if !(players[0].0 == key && e in players[0].1) {
      EventsInTickInTick(players[1..], key, e);
    }
  }

  /** A tick without attacks gives every player, however looked up, an
      attack-free list of events. */
  lemma NoAttackForPlayer(players: seq<(PlayerKey, seq<Event>)>, key: PlayerKey)
    requires !AnyAttack(TickEvents(players))
    ensures !AnyAttack(DictLookup(players, key))
    ensures !AnyAttack(EventsInTick(players, key))
  {
    var first := DictLookup(players, key);
    var all := EventsInTick(players, key);
    if AnyAttack(first) {
      var i :| 0 <= i < |first| && IsAttack(first[i]);
      DictLookupInTick(players, key, first[i]);
    }
    if AnyAttack(all) {
      var i :| 0 <= i < |all| && IsAttack(all[i]);
      EventsInTickInTick(players, key, all[i]);
    }
  }

  lemma {:induction false} NoAttackNoRecordsInTick(evs: seq<Event>, tick: int, t: Tracker.Table, subject: PlayerKey, pairs: Extract.Pairing)
    requires !AnyAttack(evs)
    ensures Extract.RecordsFor(evs, tick, t, subject, pairs) == Success([])
    ensures Extract.FirstRecordFor(evs, tick, t, subject, pairs) == Success([])
    ensures Extract.FullRecordsFor(evs, tick, t, subject, pairs) == Success([])
    decreases |evs|
  {
    if |evs| > 0 {
      NoAttackNoRecordsInTick(evs[1..], tick, t, subject, pairs);
    }
  }

  lemma {:induction false} NoAttackNoRecordsFrom(ticks: seq<Tick>, subject: PlayerKey, pairs: Extract.Pairing, known: Tracker.Table)
    requires !AnyAttackInTicks(ticks)
    ensures Extract.ExtractAllFrom(ticks, subject, pairs, known) == Success([])
    ensures Extract.ExtractFirstFrom(ticks, subject, pairs, known) == Success([])
    decreases |ticks|
  {
    if |ticks| > 0 {
      NoAttackForPlayer(ticks[0].players, subject);
      var known' := Tracker.ApplyTick(known, ticks[0].players, false);
      NoAttackNoRecordsInTick(DictLookup(ticks[0].players, subject), ticks[0].tick, known', subject, pairs);
      NoAttackNoRecordsFrom(ticks[1..], subject, pairs, known');
      var none: seq<Extract.AttackRecord> := [];
      assert none + none == none;
    }
  }

  lemma {:induction false} NoAttackNoFullRecordsFrom(ticks: seq<Tick>, subject: PlayerKey, pairs: Extract.Pairing, prev: Tracker.Table)
    requires !AnyAttackInTicks(ticks)
    ensures Extract.ExtractCopyForwardFrom(ticks, subject, pairs, prev) == Success([])
    decreases |ticks|
  {
    if |ticks| > 0 {
      NoAttackForPlayer(ticks[0].players, subject);
      var current := Tracker.ApplyTick(prev, ticks[0].players, true);
      NoAttackNoRecordsInTick(EventsInTick(ticks[0].players, subject), ticks[0].tick, current, subject, pairs);
      NoAttackNoFullRecordsFrom(ticks[1..], subject, pairs, current);
      var none: seq<Extract.FullRecord> := [];
      assert none + none == none;
    }
  }

  /** A replay the checker files under "no attack data" gives no records to
      any subject in any of the three extractors: nothing would be written. */
  lemma NoAttackMeansNoRecords(ticks: seq<Tick>, subject: PlayerKey, pairs: Extract.Pairing)
    requires !ContainsAttack(Some(ticks))
    ensures Extract.ExtractAll(ticks, subject, pairs) == Success([])
    ensures Extract.ExtractFirst(ticks, subject, pairs) == Success([])
    ensures Extract.ExtractCopyForward(ticks, subject, pairs) == Success([])
    ensures !Extract.WriteAttackEvents(Extract.ExtractAll(ticks, subject, pairs).value)
    ensures !Extract.WriteAttackEvents(Extract.ExtractFirst(ticks, subject, pairs).value)
    ensures !Extract.WriteAttackEvents(Extract.ExtractCopyForward(ticks, subject, pairs).value)
  {
    NoAttackNoRecordsFrom(ticks, subject, pairs, map[]);
    NoAttackNoFullRecordsFrom(ticks, subject, pairs, map[]);
  }

  // ---------------------------------------------------------------------
  // Grouping files by replay number

  /** `f.split('.')[0]`. */
  function Base(f: string): string
  {
    Text.BeforeFirst(f, '.')
  }

  type Groups = seq<(string, seq<string>)>

  predicate DistinctGroupKeys(groups: Groups)
  {
    forall i, j :: 0 <= i < j < |groups| ==> groups[i].0 != groups[j].0
  }

  /** Where the group of `key` sits, if there is one. */
  function IndexOfKey(groups: Groups, key: string): (r: Option<nat>)
    ensures r.Some? ==> r.value < |groups| && groups[r.value].0 == key
    ensures r.None? ==> forall k :: 0 <= k < |groups| ==> groups[k].0 != key
    decreases |groups|
  {
    if |groups| == 0 then None
    else if groups[|groups| - 1].0 == key then Some(|groups| - 1)
    else IndexOfKey(groups[..|groups| - 1], key)
  }

  /** `base_groups.setdefault(base, []).append(f)`. */
  function AddFile(groups: Groups, f: string): (r: Groups)
    requires DistinctGroupKeys(groups)
    ensures DistinctGroupKeys(r)
    ensures (forall k :: 0 <= k < |groups| ==> groups[k].0 != Base(f)) ==> r == groups + [(Base(f), [f])]
    ensures forall k :: 0 <= k < |groups| && groups[k].0 == Base(f) ==>
              r == groups[k := (Base(f), groups[k].1 + [f])]
  {
    var i := IndexOfKey(groups, Base(f));
    if i.Some? then groups[i.value := (Base(f), groups[i.value].1 + [f])]
    else groups + [(Base(f), [f])]
  }

  function GroupFrom(groups: Groups, files: seq<string>): Groups
    requires DistinctGroupKeys(groups)
    decreases |files|
  {
    if |files| == 0 then groups else GroupFrom(AddFile(groups, files[0]), files[1..])
  }

  /** `base_groups`, in order of first appearance. */
  function GroupByBase(files: seq<string>): Groups
  {
    GroupFrom([], files)
  }

  ghost predicate WellGrouped(groups: Groups, files: seq<string>)
  {
    && DistinctGroupKeys(groups)
    && (forall k, f :: 0 <= k < |groups| && f in groups[k].1 ==> Base(f) == groups[k].0)
    && (forall f :: f in files <==> exists k :: 0 <= k < |groups| && f in groups[k].1)
  }

  lemma AddFileKeepsWellGrouped(groups: Groups, files: seq<string>, f: string)
    requires WellGrouped(groups, files)
    ensures WellGrouped(AddFile(groups, f), files + [f])
  {
    var r := AddFile(groups, f);
    var i := IndexOfKey(groups, Base(f));
    forall g | g in files + [f]
      ensures exists k :: 0 <= k < |r| && g in r[k].1
    {
      if g in files {
        var k :| 0 <= k < |groups| && g in groups[k].1;
        assert g in r[k].1;
      } else if i.Some? {
        assert g in r[i.value].1;
      } else {
        assert g in r[|groups|].1;
      }
    }
    forall g, k | 0 <= k < |r| && g in r[k].1
      ensures g in files + [f]
    {
      if k < |groups| && g != f {
        assert g in groups[k].1;
      }
    }
  }

  lemma {:induction false} GroupFromWellGrouped(groups: Groups, seen: seq<string>, files: seq<string>)
    requires WellGrouped(groups, seen)
    ensures WellGrouped(GroupFrom(groups, files), seen + files)
    decreases |files|
  {
    if |files| == 0 {
      assert seen + files == seen;
    } else {
      var next, seen' := AddFile(groups, files[0]), seen + [files[0]];
      assert WellGrouped(next, seen') by {
        AddFileKeepsWellGrouped(groups, seen, files[0]);
      }
      assert seen' + files[1..] == seen + files by {
        assert [files[0]] + files[1..] == files;
        Seqs.AppendAssociative(seen, [files[0]], files[1..]);
      }
      assert GroupFrom(groups, files) == GroupFrom(next, files[1..]);
      GroupFromWellGrouped(next, seen', files[1..]);
    }
  }

  /** Every file lands in exactly one group, the one of its own replay number. */
  lemma GroupingPartitionsFiles(files: seq<string>)
    ensures WellGrouped(GroupByBase(files), files)
  {
    assert [] + files == files;
    GroupFromWellGrouped([], [], files);
  }

  // ---------------------------------------------------------------------
  // Routing one replay

  /** What the checker reads for a replay number: the decoded metadata
      (`None` when it does not parse) and the decoded telemetry (`None`
      when it cannot be read). */
  datatype Content = Content(metadata: Option<seq<PlayerMeta>>, replay: Option<seq<Tick>>)

  datatype Route =
    | Skip
    | MetadataIssue
    | NoAttackIssue
    | Valid(hackType: string, player: PlayerKey)

  /** The checks in the source's order: metadata present and readable, at
      least two players, exactly one modified player with a known hack,
      telemetry and schema present, telemetry contains an attack. */
  function RouteGroup(base: string, files: seq<string>, c: Content): (r: Route)
    ensures r.Skip? <==> (base + ".metadata.json" !in files || c.metadata.None? || |c.metadata.value| < 2)
    ensures r.MetadataIssue? <==>
              !r.Skip? && (!(exists i :: OnlyModified(c.metadata.value, i)) || GetModificationInfo(c.metadata.value).hackType.None?)
    ensures r.NoAttackIssue? <==>
              !r.Skip? && !r.MetadataIssue?
              && !(base + ".avro" in files && base + ".avsc" in files && ContainsAttack(c.replay))
    ensures r.Valid? ==>
              && (r.hackType == "reach" || r.hackType == "speed")
              && Some(r.hackType) == GetModificationInfo(c.metadata.value).hackType
              && Some(r.player) == GetModificationInfo(c.metadata.value).player
              && exists i :: OnlyModified(c.metadata.value, i) && c.metadata.value[i].name == r.player
  {
    if base + ".metadata.json" !in files || c.metadata.None? then Skip
    else
      var players := c.metadata.value;
      if GetPlayerPair(players).None? then Skip
      else
        var info := GetModificationInfo(players);
        if !info.valid || info.hackType.None? then MetadataIssue
        else if !(base + ".avro" in files && base + ".avsc" in files) then NoAttackIssue
        else if !ContainsAttack(c.replay) then NoAttackIssue
        else Valid(info.hackType.value, info.player.value)
  }

  /** The path table of the moves: the folder, relative to the replay
      directory, that receives the group's files, or `None` when they stay.
      `RoutedDestination` states what it yields for each group. */
  function Destination(base: string, r: Route): (dest: Option<seq<string>>)
    ensures dest.None? <==> r.Skip?
    ensures r.MetadataIssue? ==> dest == Some(["metadata_error", base])
    ensures r.NoAttackIssue? ==> dest == Some(["no_attack_data", base])
    ensures r.Valid? ==> dest == Some([r.hackType, r.player])
  {
    match r
    case Skip => None
    case MetadataIssue => Some(["metadata_error", base])
    case NoAttackIssue => Some(["no_attack_data", base])
    case Valid(hackType, player) => Some([hackType, player])
  }

  /** Where a group's files end up, read off the metadata and the telemetry:
      a lone modified player with a hitbox change goes to "reach/<name>",
      one with only a speed change to "speed/<name>"; anything else that
      is not skipped goes to one of the two error folders. */
  lemma RoutedDestination(base: string, files: seq<string>, c: Content)
    ensures var d := Destination(base, RouteGroup(base, files, c));
            && (d.None? <==> base + ".metadata.json" !in files || c.metadata.None? || |c.metadata.value| < 2)
            && (d.Some? && !(exists i :: OnlyModified(c.metadata.value, i)) ==> d == Some(["metadata_error", base]))
            && (forall i :: d.Some? && OnlyModified(c.metadata.value, i) ==>
                  var hack := c.metadata.value[i].hack;
                  if !Changed(hack, "hitbox") && !Changed(hack, "speed") then d == Some(["metadata_error", base])
                  else if !(base + ".avro" in files && base + ".avsc" in files && ContainsAttack(c.replay)) then
                    d == Some(["no_attack_data", base])
                  else d == Some([if Changed(hack, "hitbox") then "reach" else "speed", c.metadata.value[i].name]))
  {
  }

  // ---------------------------------------------------------------------
  // Aggregation per player pair

  datatype Stats = Stats(valid: nat, metadataIssue: nat, noAttackIssue: nat,
                         successIds: seq<string>, invalidIds: seq<string>)

  const NoStats := Stats(0, 0, 0, [], [])

  /** One processed group's effect on its pair's statistics. */
  function Tally(s: Stats, base: string, r: Route): Stats
  {
    match r
    case Skip => s
    case MetadataIssue => s.(metadataIssue := s.metadataIssue + 1, invalidIds := s.invalidIds + [base])
    case NoAttackIssue => s.(noAttackIssue := s.noAttackIssue + 1, invalidIds := s.invalidIds + [base])
    case Valid(_, _) => s.(valid := s.valid + 1, successIds := s.successIds + [base])
  }

  /** The pair a group is counted under, once it is not skipped. */
  function PairOf(c: Content): Option<seq<PlayerKey>>
  {
    if c.metadata.Some? then GetPlayerPair(c.metadata.value) else None
  }

  /** What the checker decided for one group. */
  datatype Outcome = Outcome(base: string, route: Route, pair: Option<seq<PlayerKey>>)

  function Decide(group: (string, seq<string>), read: string -> Content): (o: Outcome)
    ensures o.base == group.0
    ensures o.route == RouteGroup(group.0, group.1, read(group.0))
    ensures !o.route.Skip? ==>
              && o.pair.Some? && Text.Sorted(o.pair.value)
              && multiset(o.pair.value) == multiset(Names(read(group.0).metadata.value))
  {
    var c := read(group.0);
    Outcome(group.0, RouteGroup(group.0, group.1, c), PairOf(c))
  }

  function Outcomes(groups: Groups, read: string -> Content): (os: seq<Outcome>)
    ensures |os| == |groups|
    ensures forall i :: 0 <= i < |groups| ==> os[i] == Decide(groups[i], read)
  {
    seq(|groups|, i requires 0 <= i < |groups| => Decide(groups[i], read))
  }

  /** One outcome tallied under its pair; skipped groups change nothing. */
  function Step(agg: map<seq<PlayerKey>, Stats>, o: Outcome): map<seq<PlayerKey>, Stats>
  {
    if o.route.Skip? || o.pair.None? then agg
    else
      var s := if o.pair.value in agg then agg[o.pair.value] else NoStats;
      agg[o.pair.value := Tally(s, o.base, o.route)]
  }

  function AggregateFrom(agg: map<seq<PlayerKey>, Stats>, os: seq<Outcome>): map<seq<PlayerKey>, Stats>
    decreases |os|
  {
    if |os| == 0 then agg else AggregateFrom(Step(agg, os[0]), os[1..])
  }

  /** `process_replay_files`: the statistics per player pair. */
  function ProcessReplayFiles(files: seq<string>, read: string -> Content): map<seq<PlayerKey>, Stats>
  {
    AggregateFrom(map[], Outcomes(GroupByBase(files), read))
  }

  predicate IsValidFor(o: Outcome, pair: seq<PlayerKey>)
  {
    o.route.Valid? && o.pair == Some(pair)
  }

  predicate IsInvalidFor(o: Outcome, pair: seq<PlayerKey>)
  {
    (o.route.MetadataIssue? || o.route.NoAttackIssue?) && o.pair == Some(pair)
  }

  /** Reference: the replay numbers routed to `Valid` under `pair`, in order. */
  function ValidIds(os: seq<Outcome>, pair: seq<PlayerKey>): seq<string>
    decreases |os|
  {
    if |os| == 0 then [] else (if IsValidFor(os[0], pair) then [os[0].base] else []) + ValidIds(os[1..], pair)
  }

  /** Reference: the replay numbers routed to either issue under `pair`, in order. */
  function InvalidIds(os: seq<Outcome>, pair: seq<PlayerKey>): seq<string>
    decreases |os|
  {
    if |os| == 0 then [] else (if IsInvalidFor(os[0], pair) then [os[0].base] else []) + InvalidIds(os[1..], pair)
  }

  /** Reference: the replay numbers routed to the metadata folder under `pair`, in order. */
  function MetadataIssueIds(os: seq<Outcome>, pair: seq<PlayerKey>): seq<string>
    decreases |os|
  {
    if |os| == 0 then []
    else (if os[0].route.MetadataIssue? && os[0].pair == Some(pair) then [os[0].base] else []) + MetadataIssueIds(os[1..], pair)
  }

  /** Reference: the replay numbers routed to the no-attack folder under `pair`, in order. */
  function NoAttackIds(os: seq<Outcome>, pair: seq<PlayerKey>): seq<string>
    decreases |os|
  {
    if |os| == 0 then []
    else (if os[0].route.NoAttackIssue? && os[0].pair == Some(pair) then [os[0].base] else []) + NoAttackIds(os[1..], pair)
  }

  ghost predicate Consistent(s: Stats)
  {
    s.valid == |s.successIds| && s.metadataIssue + s.noAttackIssue == |s.invalidIds|
  }

  function StatsOf(agg: map<seq<PlayerKey>, Stats>, pair: seq<PlayerKey>): Stats
  {
    if pair in agg then agg[pair] else NoStats
  }

  lemma StepCounts(agg: map<seq<PlayerKey>, Stats>, o: Outcome, pair: seq<PlayerKey>)
    requires forall p :: p in agg ==> Consistent(agg[p])
    requires !o.route.Skip? ==> o.pair.Some?
    ensures var out := Step(agg, o);
            && (forall p :: p in out ==> Consistent(out[p]))
            && (pair in out <==> pair in agg || IsValidFor(o, pair) || IsInvalidFor(o, pair))
            && StatsOf(out, pair).successIds == StatsOf(agg, pair).successIds + (if IsValidFor(o, pair) then [o.base] else [])
            && StatsOf(out, pair).invalidIds == StatsOf(agg, pair).invalidIds + (if IsInvalidFor(o, pair) then [o.base] else [])
  {
  }

  lemma StepIssueCounts(agg: map<seq<PlayerKey>, Stats>, o: Outcome, pair: seq<PlayerKey>)
    requires !o.route.Skip? ==> o.pair.Some?
    ensures var out := Step(agg, o);
            && StatsOf(out, pair).metadataIssue
               == StatsOf(agg, pair).metadataIssue + (if o.route.MetadataIssue? && o.pair == Some(pair) then 1 else 0)
            && StatsOf(out, pair).noAttackIssue
               == StatsOf(agg, pair).noAttackIssue + (if o.route.NoAttackIssue? && o.pair == Some(pair) then 1 else 0)
  {
  }

  lemma {:induction false} AggregateFromCounts(agg: map<seq<PlayerKey>, Stats>, os: seq<Outcome>, pair: seq<PlayerKey>)
    requires forall p :: p in agg ==> Consistent(agg[p])
    requires forall i :: 0 <= i < |os| ==> (!os[i].route.Skip? ==> os[i].pair.Some?)
    ensures var out := AggregateFrom(agg, os);
            && (forall p :: p in out ==> Consistent(out[p]))
            && (pair in out <==> pair in agg || |ValidIds(os, pair)| + |InvalidIds(os, pair)| > 0)
            && StatsOf(out, pair).successIds == StatsOf(agg, pair).successIds + ValidIds(os, pair)
            && StatsOf(out, pair).invalidIds == StatsOf(agg, pair).invalidIds + InvalidIds(os, pair)
    decreases |os|
  {
    if |os| == 0 {
      assert StatsOf(agg, pair).successIds + [] == StatsOf(agg, pair).successIds;
      assert StatsOf(agg, pair).invalidIds + [] == StatsOf(agg, pair).invalidIds;
    } else {
      StepCounts(agg, os[0], pair);
      AggregateFromCounts(Step(agg, os[0]), os[1..], pair);
      var v := if IsValidFor(os[0], pair) then [os[0].base] else [];
      var w := if IsInvalidFor(os[0], pair) then [os[0].base] else [];
      assert StatsOf(agg, pair).successIds + v + ValidIds(os[1..], pair)
          == StatsOf(agg, pair).successIds + ValidIds(os, pair);
      assert StatsOf(agg, pair).invalidIds + w + InvalidIds(os[1..], pair)
          == StatsOf(agg, pair).invalidIds + InvalidIds(os, pair);
    }
  }

  /** The two issue counters follow their own reference lists. */
  lemma {:induction false} AggregateFromIssueCounts(agg: map<seq<PlayerKey>, Stats>, os: seq<Outcome>, pair: seq<PlayerKey>)
    requires forall i :: 0 <= i < |os| ==> (!os[i].route.Skip? ==> os[i].pair.Some?)
    ensures var out := AggregateFrom(agg, os);
            && StatsOf(out, pair).metadataIssue == StatsOf(agg, pair).metadataIssue + |MetadataIssueIds(os, pair)|
            && StatsOf(out, pair).noAttackIssue == StatsOf(agg, pair).noAttackIssue + |NoAttackIds(os, pair)|
    decreases |os|
  {
    if |os| > 0 {
      StepIssueCounts(agg, os[0], pair);
      AggregateFromIssueCounts(Step(agg, os[0]), os[1..], pair);
    }
  }

  /** Per player pair: every processed replay number is listed once, as a
      success or as invalid, in processing order, and each counter matches
      its list — so every processed group bumps exactly one counter, and a
      pair appears only if one of its replays was processed. */
  lemma ProcessReplayFilesCounts(files: seq<string>, read: string -> Content, pair: seq<PlayerKey>)
    ensures var os := Outcomes(GroupByBase(files), read);
            var out := ProcessReplayFiles(files, read);
            && (pair in out <==> |ValidIds(os, pair)| + |InvalidIds(os, pair)| > 0)
            && (pair in out ==>
                  && out[pair].successIds == ValidIds(os, pair)
                  && out[pair].invalidIds == InvalidIds(os, pair)
                  && out[pair].valid == |ValidIds(os, pair)|
                  && out[pair].metadataIssue == |MetadataIssueIds(os, pair)|
                  && out[pair].noAttackIssue == |NoAttackIds(os, pair)|
                  && out[pair].metadataIssue + out[pair].noAttackIssue == |InvalidIds(os, pair)|)
  {
    var os := Outcomes(GroupByBase(files), read);
    AggregateFromCounts(map[], os, pair);
    AggregateFromIssueCounts(map[], os, pair);
    var out := ProcessReplayFiles(files, read);
    if pair in out {
      assert Consistent(out[pair]);
    }
  }
}

=== FILE: extract.dfy ===
/** Attack extraction: the three `process_attack_events` variants.

    - `ExtractCopyForward` (reach/utils/convert_csv.py) tracks velocity and
      adds speed and relative-speed columns;
    - `ExtractAll` (reach/test_csv_for_predicting.py) records every attack
      of the subject in a tick;
    - `ExtractFirst` (reach/utils/convert_csv_for_training.py) records only
      the first one (its loop ends with `break`).

    In every variant a tick's records are built only after all of that
    tick's updates have been applied, so they see same-tick positions of
    every player. Distances and speeds are SQUARED: the tools take square
    roots, which preserve absence and order. */
module Extract {
  import opened Wrappers
  import opened Telemetry
  import opened Tracker
  import Seqs

  /** `pair_dict`: entity id to player name. */
  type Pairing = map<EntityId, PlayerKey>

  /** The columns every variant writes. `None` is an empty cell. */
  datatype AttackRecord = AttackRecord(
    tick: int,
    sqDistance: Option<real>,
    attackerYaw: Option<real>, attackerPitch: Option<real>, attackerPing: Option<real>,
    targetPlayer: Option<PlayerKey>,
    targetYaw: Option<real>, targetPitch: Option<real>, targetPing: Option<real>)

  /** The extra columns of the copy-forward variant. */
  datatype Motion = Motion(attackerSqSpeed: Option<real>, targetSqSpeed: Option<real>, relativeSqSpeed: Option<real>)

  datatype FullRecord = FullRecord(shared: AttackRecord, motion: Motion)

  /** The `TypeError` raised when both positions are held but one of them
      lacks a coordinate: the whole extraction stops. */
  datatype Crash = MissingCoordinate(tick: int)

  /** `pair_dict.get(target_entity)`. */
  function Resolve(pairs: Pairing, id: EntityId): Option<PlayerKey>
  {
    if id in pairs then Some(pairs[id]) else None
  }

  /** `table.get(target_player, {})`: an unresolved target has nothing known. */
  function TargetState(t: Table, target: Option<PlayerKey>): Known
  {
    if target.Some? then Get(t, target.value) else Unknown
  }

  /** Squared distance between two held positions: the sum of the squared
      coordinate differences, empty when either position is unknown. */
  function SqDistance(a: Option<Position>, b: Option<Position>, tick: int): (r: Result<Option<real>, Crash>)
    ensures r.Failure? <==> a.Some? && b.Some? && !(a.value.Complete() && b.value.Complete())
    ensures r.Failure? ==> r.error == MissingCoordinate(tick)
    ensures r.Success? ==> (r.value.None? <==> a.None? || b.None?)
    ensures r.Success? && r.value.Some? ==>
              var p, q := a.value, b.value;
              r.value.value == (p.x.value - q.x.value) * (p.x.value - q.x.value)
                             + (p.y.value - q.y.value) * (p.y.value - q.y.value)
                             + (p.z.value - q.z.value) * (p.z.value - q.z.value)
    ensures r.Success? && r.value.Some? ==> r.value.value >= 0.0
  {
    if a.None? || b.None? then Success(None)
    else if !(a.value.Complete() && b.value.Complete()) then Failure(MissingCoordinate(tick))
    else
      var d := Sub(ToVec(a.value), ToVec(b.value));
      Success(Some(SqNorm(d)))
  }

  function Yaw(k: Known): Option<real> { if k.rot.Some? then Some(k.rot.value.0) else None }

  function Pitch(k: Known): Option<real> { if k.rot.Some? then Some(k.rot.value.1) else None }

  /** The record of one attack event, read from the table after the tick's updates. */
  function SharedColumns(tick: int, t: Table, subject: PlayerKey, pairs: Pairing, e: Event): (r: Result<AttackRecord, Crash>)
    requires IsAttack(e)
    ensures var a := Get(t, subject);
            var target := Resolve(pairs, e.updated.attackTarget.value);
            var b := TargetState(t, target);
            && (r.Failure? <==> a.pos.Some? && b.pos.Some? && !(a.pos.value.Complete() && b.pos.value.Complete()))
            && (r.Failure? ==> r.error == MissingCoordinate(tick))
            && (r.Success? ==>
                  && r.value.tick == tick
                  && r.value.targetPlayer == target
                  && (r.value.sqDistance.None? <==> a.pos.None? || b.pos.None?)
                  && (a.pos.Some? && b.pos.Some? ==>
                        a.pos.value.Complete() && b.pos.value.Complete()
                        && r.value.sqDistance == Some(SqNorm(Sub(ToVec(a.pos.value), ToVec(b.pos.value)))))
                  && (target.None? ==> r.value.sqDistance.None? && r.value.targetYaw.None? && r.value.targetPing.None?)
                  && r.value.attackerYaw == (if a.rot.Some? then Some(a.rot.value.0) else None)
                  && r.value.attackerPitch == (if a.rot.Some? then Some(a.rot.value.1) else None)
                  && r.value.targetYaw == (if b.rot.Some? then Some(b.rot.value.0) else None)
                  && r.value.targetPitch == (if b.rot.Some? then Some(b.rot.value.1) else None)
                  && r.value.attackerPing == a.ping && r.value.targetPing == b.ping)
  {
    var a := Get(t, subject);
    var target := Resolve(pairs, e.updated.attackTarget.value);
    var b := TargetState(t, target);
    var d :- SqDistance(a.pos, b.pos, tick);
    Success(AttackRecord(tick, d, Yaw(a), Pitch(a), a.ping, target, Yaw(b), Pitch(b), b.ping))
  }

  function SqSpeed(k: Known): Option<real>
  {
    if k.vel.Some? then Some(SqNorm(k.vel.value)) else None
  }

  /** The sum of the squared componentwise differences of two vectors. */
  function SqDiff(u: Vec3, v: Vec3): real
  {
    (u.x - v.x) * (u.x - v.x) + (u.y - v.y) * (u.y - v.y) + (u.z - v.z) * (u.z - v.z)
  }

  lemma SqNormOfDifference(u: Vec3, v: Vec3)
    ensures SqNorm(Sub(u, v)) == SqDiff(u, v)
  {
    var d := Sub(u, v);
    assert d.x == u.x - v.x && d.y == u.y - v.y && d.z == u.z - v.z;
  }

  /** Speed columns: the squared length of each held velocity, and of
      their difference for the relative speed; absent exactly when a
      velocity they need is. */
  function MotionColumns(a: Known, b: Known): (m: Motion)
    ensures m.attackerSqSpeed.None? <==> a.vel.None?
    ensures m.targetSqSpeed.None? <==> b.vel.None?
    ensures m.relativeSqSpeed.None? <==> a.vel.None? || b.vel.None?
    ensures a.vel.Some? ==> m.attackerSqSpeed == Some(a.vel.value.x * a.vel.value.x + a.vel.value.y * a.vel.value.y + a.vel.value.z * a.vel.value.z)
    ensures b.vel.Some? ==> m.targetSqSpeed == Some(b.vel.value.x * b.vel.value.x + b.vel.value.y * b.vel.value.y + b.vel.value.z * b.vel.value.z)
    ensures a.vel.Some? && b.vel.Some? ==>
              m.relativeSqSpeed == Some(SqDiff(a.vel.value, b.vel.value))
    ensures m.relativeSqSpeed.Some? ==> m.relativeSqSpeed.value >= 0.0
  {
    if a.vel.Some? && b.vel.Some? then
      SqNormOfDifference(a.vel.value, b.vel.value);
      Motion(SqSpeed(a), SqSpeed(b), Some(SqNorm(Sub(a.vel.value, b.vel.value))))
    else
      Motion(SqSpeed(a), SqSpeed(b), None)
  }

  // ---------------------------------------------------------------------
  // The records of one tick

  /** Every attack event among `evs`, in order (no `break`). */
  function RecordsFor(evs: seq<Event>, tick: int, t: Table, subject: PlayerKey, pairs: Pairing)
    : Result<seq<AttackRecord>, Crash>
    decreases |evs|
  {
    if |evs| == 0 then Success([])
    else if !IsAttack(evs[0]) then RecordsFor(evs[1..], tick, t, subject, pairs)
    else
      var r :- SharedColumns(tick, t, subject, pairs, evs[0]);
      var rest :- RecordsFor(evs[1..], tick, t, subject, pairs);
      Success([r] + rest)
  }

  /** Only the first attack event among `evs` (the loop `break`s after it). */
  function FirstRecordFor(evs: seq<Event>, tick: int, t: Table, subject: PlayerKey, pairs: Pairing)
    : Result<seq<AttackRecord>, Crash>
    decreases |evs|
  {
    if |evs| == 0 then Success([])
    else if !IsAttack(evs[0]) then FirstRecordFor(evs[1..], tick, t, subject, pairs)
    else
      var r :- SharedColumns(tick, t, subject, pairs, evs[0]);
      Success([r])
  }

  /** The copy-forward variant's records: the attack events it collected
      during the walk, recorded against the tick's final table. */
  function FullRecordsFor(evs: seq<Event>, tick: int, t: Table, subject: PlayerKey, pairs: Pairing)
    : Result<seq<FullRecord>, Crash>
    decreases |evs|
  {
    if |evs| == 0 then Success([])
    else if !IsAttack(evs[0]) then FullRecordsFor(evs[1..], tick, t, subject, pairs)
    else
      var r :- SharedColumns(tick, t, subject, pairs, evs[0]);
      var target := Resolve(pairs, evs[0].updated.attackTarget.value);
      var m := MotionColumns(Get(t, subject), TargetState(t, target));
      var rest :- FullRecordsFor(evs[1..], tick, t, subject, pairs);
      Success([FullRecord(r, m)] + rest)
  }

  // ---------------------------------------------------------------------
  // The three walks

  function ExtractCopyForwardFrom(ticks: seq<Tick>, subject: PlayerKey, pairs: Pairing, prev: Table)
    : Result<seq<FullRecord>, Crash>
    decreases |ticks|
  {
    if |ticks| == 0 then Success([])
    else
      var current := ApplyTick(prev, ticks[0].players, true);
      var recs :- FullRecordsFor(EventsInTick(ticks[0].players, subject), ticks[0].tick, current, subject, pairs);
      var rest :- ExtractCopyForwardFrom(ticks[1..], subject, pairs, current);
      Success(recs + rest)
  }

  function ExtractCopyForward(ticks: seq<Tick>, subject: PlayerKey, pairs: Pairing): Result<seq<FullRecord>, Crash>
  {
    ExtractCopyForwardFrom(ticks, subject, pairs, map[])
  }

  function ExtractAllFrom(ticks: seq<Tick>, subject: PlayerKey, pairs: Pairing, known: Table)
    : Result<seq<AttackRecord>, Crash>
    decreases |ticks|
  {
    if |ticks| == 0 then Success([])
    else
      var known' := ApplyTick(known, ticks[0].players, false);
      var recs :- RecordsFor(DictLookup(ticks[0].players, subject), ticks[0].tick, known', subject, pairs);
      var rest :- ExtractAllFrom(ticks[1..], subject, pairs, known');
      Success(recs + rest)
  }

  function ExtractAll(ticks: seq<Tick>, subject: PlayerKey, pairs: Pairing): Result<seq<AttackRecord>, Crash>
  {
    ExtractAllFrom(ticks, subject, pairs, map[])
  }

  function ExtractFirstFrom(ticks: seq<Tick>, subject: PlayerKey, pairs: Pairing, known: Table)
    : Result<seq<AttackRecord>, Crash>
    decreases |ticks|
  {
    if |ticks| == 0 then Success([])
    else
      var known' := ApplyTick(known, ticks[0].players, false);
      var recs :- FirstRecordFor(DictLookup(ticks[0].players, subject), ticks[0].tick, known', subject, pairs);
      var rest :- ExtractFirstFrom(ticks[1..], subject, pairs, known');
      Success(recs + rest)
  }

  function ExtractFirst(ticks: seq<Tick>, subject: PlayerKey, pairs: Pairing): Result<seq<AttackRecord>, Crash>
  {
    ExtractFirstFrom(ticks, subject, pairs, map[])
  }

  /** `write_attack_events`: nothing is written, and `False` returned,
      exactly when there are no records. */
  function WriteAttackEvents<R>(records: seq<R>): bool
  {
    |records| > 0
  }
}

=== FILE: extract_props.dfy ===
/** How the three extraction variants relate, and what their output says
    about the replay. */
module ExtractProperties {
  import opened Wrappers
  import opened Telemetry
  import opened Tracker
  import opened Extract
  import Seqs

  // ---------------------------------------------------------------------
  // Shared columns: the copy-forward variant agrees with the in-place one

  /** Two tables that hold the same positions, rotations and pings. */
  ghost predicate SameObservations(t1: Table, t2: Table)
  {
    forall k :: Get(t1, k).pos == Get(t2, k).pos && Get(t1, k).rot == Get(t2, k).rot && Get(t1, k).ping == Get(t2, k).ping
  }

  function SharedOf(rs: seq<FullRecord>): seq<AttackRecord>
  {
    seq(|rs|, i requires 0 <= i < |rs| => rs[i].shared)
  }

  function SharedResult(r: Result<seq<FullRecord>, Crash>): Result<seq<AttackRecord>, Crash>
  {
    match r
    case Success(rs) => Success(SharedOf(rs))
    case Failure(e) => Failure(e)
  }

  lemma ApplyTickKeepsSameObservations(t1: Table, t2: Table, players: seq<(PlayerKey, seq<Event>)>)
    requires SameObservations(t1, t2)
    ensures SameObservations(ApplyTick(t1, players, true), ApplyTick(t2, players, false))
  {
    forall k
      ensures Get(ApplyTick(t1, players, true), k).pos == Get(ApplyTick(t2, players, false), k).pos
      ensures Get(ApplyTick(t1, players, true), k).rot == Get(ApplyTick(t2, players, false), k).rot
      ensures Get(ApplyTick(t1, players, true), k).ping == Get(ApplyTick(t2, players, false), k).ping
    {
      ApplyTickPerPlayer(t1, players, k, true);
      ApplyTickPerPlayer(t2, players, k, false);
      VelocityTrackingIsInvisible(Get(t1, k), Get(t2, k), EventsInTick(players, k));
    }
  }

  lemma SharedColumnsSeeOnlyObservations(tick: int, t1: Table, t2: Table, subject: PlayerKey, pairs: Pairing, e: Event)
    requires SameObservations(t1, t2) && IsAttack(e)
    ensures SharedColumns(tick, t1, subject, pairs, e) == SharedColumns(tick, t2, subject, pairs, e)
  {
    var target := Resolve(pairs, e.updated.attackTarget.value);
    if target.Some? {
      assert Get(t1, target.value).pos == Get(t2, target.value).pos;
    }
    assert Get(t1, subject).pos == Get(t2, subject).pos;
  }

  lemma {:induction false} FullRecordsShareColumns(evs: seq<Event>, tick: int, t1: Table, t2: Table, subject: PlayerKey, pairs: Pairing)
    requires SameObservations(t1, t2)
    ensures SharedResult(FullRecordsFor(evs, tick, t1, subject, pairs)) == RecordsFor(evs, tick, t2, subject, pairs)
    decreases |evs|
  {
    if |evs| > 0 {
      FullRecordsShareColumns(evs[1..], tick, t1, t2, subject, pairs);
      if IsAttack(evs[0]) {
        SharedColumnsSeeOnlyObservations(tick, t1, t2, subject, pairs, evs[0]);
        var c := SharedColumns(tick, t1, subject, pairs, evs[0]);
        var rest := FullRecordsFor(evs[1..], tick, t1, subject, pairs);
        if c.Success? && rest.Success? {
          var target := Resolve(pairs, evs[0].updated.attackTarget.value);
          var m := MotionColumns(Get(t1, subject), TargetState(t1, target));
          var full := [FullRecord(c.value, m)] + rest.value;
          assert FullRecordsFor(evs, tick, t1, subject, pairs) == Success(full);
          assert SharedOf(full) == [c.value] + SharedOf(rest.value);
          assert RecordsFor(evs, tick, t2, subject, pairs) == Success([c.value] + SharedOf(rest.value));
        } else if c.Success? {
          assert FullRecordsFor(evs, tick, t1, subject, pairs) == Failure(rest.error);
          assert RecordsFor(evs[1..], tick, t2, subject, pairs) == Failure(rest.error);
          assert RecordsFor(evs, tick, t2, subject, pairs) == Failure(rest.error);
        } else {
          assert FullRecordsFor(evs, tick, t1, subject, pairs) == Failure(c.error);
          assert RecordsFor(evs, tick, t2, subject, pairs) == Failure(c.error);
        }
      } else {
        assert FullRecordsFor(evs, tick, t1, subject, pairs) == FullRecordsFor(evs[1..], tick, t1, subject, pairs);
        assert RecordsFor(evs, tick, t2, subject, pairs) == RecordsFor(evs[1..], tick, t2, subject, pairs);
      }
    } else {
      assert SharedOf([]) == [];
    }
  }

  lemma SharedOfAppend(a: seq<FullRecord>, b: seq<FullRecord>)
    ensures SharedOf(a + b) == SharedOf(a) + SharedOf(b)
  {
  }

  lemma {:induction false} CopyForwardFromAgrees(ticks: seq<Tick>, subject: PlayerKey, pairs: Pairing, t1: Table, t2: Table)
    requires SameObservations(t1, t2)
    requires forall i :: 0 <= i < |ticks| ==> DistinctKeys(ticks[i].players)
    ensures SharedResult(ExtractCopyForwardFrom(ticks, subject, pairs, t1)) == ExtractAllFrom(ticks, subject, pairs, t2)
    decreases |ticks|
  {
    if |ticks| > 0 {
      var c1 := ApplyTick(t1, ticks[0].players, true);
      var c2 := ApplyTick(t2, ticks[0].players, false);
      ApplyTickKeepsSameObservations(t1, t2, ticks[0].players);
      DictLookupIsEventsInTick(ticks[0].players, subject);
      FullRecordsShareColumns(EventsInTick(ticks[0].players, subject), ticks[0].tick, c1, c2, subject, pairs);
      CopyForwardFromAgrees(ticks[1..], subject, pairs, c1, c2);
      var full := FullRecordsFor(EventsInTick(ticks[0].players, subject), ticks[0].tick, c1, subject, pairs);
      var rest := ExtractCopyForwardFrom(ticks[1..], subject, pairs, c1);
      assert DictLookup(ticks[0].players, subject) == EventsInTick(ticks[0].players, subject);
      if full.Success? && rest.Success? {
        SharedOfAppend(full.value, rest.value);
        assert ExtractCopyForwardFrom(ticks, subject, pairs, t1) == Success(full.value + rest.value);
      }
    } else {
      assert SharedOf([]) == [];
    }
  }

  /** On the columns both write, the copy-forward extractor and the
      all-attacks extractor produce the same records, or fail at the same
      tick. */
  lemma CopyForwardAgreesWithAll(ticks: seq<Tick>, subject: PlayerKey, pairs: Pairing)
    requires forall i :: 0 <= i < |ticks| ==> DistinctKeys(ticks[i].players)
    ensures SharedResult(ExtractCopyForward(ticks, subject, pairs)) == ExtractAll(ticks, subject, pairs)
  {
    CopyForwardFromAgrees(ticks, subject, pairs, map[], map[]);
  }

  // ---------------------------------------------------------------------
  // One record per attack event, in order

  /** (tick, resolved target) of every attack event in `evs`. */
  function AttackSummaryIn(evs: seq<Event>, tick: int, pairs: Pairing): seq<(int, Option<PlayerKey>)>
  {
    if |evs| == 0 then []
    else (if IsAttack(evs[0]) then [(tick, Resolve(pairs, evs[0].updated.attackTarget.value))] else [])
         + AttackSummaryIn(evs[1..], tick, pairs)
  }

  /** (tick, resolved target) of every attack the subject makes, in replay order. */
  function AttackSummary(ticks: seq<Tick>, subject: PlayerKey, pairs: Pairing): seq<(int, Option<PlayerKey>)>
  {
    if |ticks| == 0 then []
    else AttackSummaryIn(DictLookup(ticks[0].players, subject), ticks[0].tick, pairs)
         + AttackSummary(ticks[1..], subject, pairs)
  }

  function Summary(rs: seq<AttackRecord>): seq<(int, Option<PlayerKey>)>
  {
    seq(|rs|, i requires 0 <= i < |rs| => (rs[i].tick, rs[i].targetPlayer))
  }

  lemma SummaryAppend(a: seq<AttackRecord>, b: seq<AttackRecord>)
    ensures Summary(a + b) == Summary(a) + Summary(b)
  {
  }

  lemma {:induction false} RecordsForSummary(evs: seq<Event>, tick: int, t: Table, subject: PlayerKey, pairs: Pairing)
    ensures RecordsFor(evs, tick, t, subject, pairs).Success? ==>
              Summary(RecordsFor(evs, tick, t, subject, pairs).value) == AttackSummaryIn(evs, tick, pairs)
    decreases |evs|
  {
    if |evs| > 0 {
      RecordsForSummary(evs[1..], tick, t, subject, pairs);
      var r := RecordsFor(evs, tick, t, subject, pairs);
      if IsAttack(evs[0]) && r.Success? {
        var rest := RecordsFor(evs[1..], tick, t, subject, pairs);
        SummaryAppend([r.value[0]], rest.value);
        assert r.value == [r.value[0]] + rest.value;
      }
    }
  }

  lemma {:induction false} ExtractAllFromSummary(ticks: seq<Tick>, subject: PlayerKey, pairs: Pairing, known: Table)
    ensures ExtractAllFrom(ticks, subject, pairs, known).Success? ==>
              Summary(ExtractAllFrom(ticks, subject, pairs, known).value) == AttackSummary(ticks, subject, pairs)
    decreases |ticks|
  {
    if |ticks| > 0 {
      var known' := ApplyTick(known, ticks[0].players, false);
      var evs := DictLookup(ticks[0].players, subject);
      RecordsForSummary(evs, ticks[0].tick, known', subject, pairs);
      ExtractAllFromSummary(ticks[1..], subject, pairs, known');
      var recs := RecordsFor(evs, ticks[0].tick, known', subject, pairs);
      var rest := ExtractAllFrom(ticks[1..], subject, pairs, known');
      if recs.Success? && rest.Success? {
        SummaryAppend(recs.value, rest.value);
      }
    }
  }

  /** Exactly one record per attack event of the subject, in tick order and
      event order, each carrying its tick and its resolved target (`None`
      when the id is not in the pairing): nothing dropped, nothing merged. */
  lemma OneRecordPerAttackEvent(ticks: seq<Tick>, subject: PlayerKey, pairs: Pairing)
    ensures ExtractAll(ticks, subject, pairs).Success? ==>
              var rs := ExtractAll(ticks, subject, pairs).value;
              var expected := AttackSummary(ticks, subject, pairs);
              && |rs| == |expected|
              && forall i :: 0 <= i < |rs| ==> rs[i].tick == expected[i].0 && rs[i].targetPlayer == expected[i].1
  {
    ExtractAllFromSummary(ticks, subject, pairs, map[]);
    if ExtractAll(ticks, subject, pairs).Success? {
      var rs := ExtractAll(ticks, subject, pairs).value;
      assert |Summary(rs)| == |rs|;
      forall i | 0 <= i < |rs|
        ensures rs[i].tick == AttackSummary(ticks, subject, pairs)[i].0
      {
        assert Summary(rs)[i] == (rs[i].tick, rs[i].targetPlayer);
      }
    }
  }

  /** `write_attack_events` reports "no attack event data" exactly when the
      subject never attacks in the replay. */
  lemma NothingWrittenIffNoAttack(ticks: seq<Tick>, subject: PlayerKey, pairs: Pairing)
    requires ExtractAll(ticks, subject, pairs).Success?
    ensures !WriteAttackEvents(ExtractAll(ticks, subject, pairs).value) <==> |AttackSummary(ticks, subject, pairs)| == 0
  {
    ExtractAllFromSummary(ticks, subject, pairs, map[]);
    assert |Summary(ExtractAll(ticks, subject, pairs).value)| == |ExtractAll(ticks, subject, pairs).value|;
  }

  // ---------------------------------------------------------------------
  // First attack per tick

  /** The all-attacks records, kept per tick. */
  function GroupsFrom(ticks: seq<Tick>, subject: PlayerKey, pairs: Pairing, known: Table)
    : Result<seq<seq<AttackRecord>>, Crash>
    decreases |ticks|
  {
    if |ticks| == 0 then Success([])
    else
      var known' := ApplyTick(known, ticks[0].players, false);
      var g :- RecordsFor(DictLookup(ticks[0].players, subject), ticks[0].tick, known', subject, pairs);
      var rest :- GroupsFrom(ticks[1..], subject, pairs, known');
      Success([g] + rest)
  }

  /** The first record of each non-empty group. */
  function Heads<T>(gs: seq<seq<T>>): seq<T>
  {
    if |gs| == 0 then []
    else (if |gs[0]| == 0 then [] else [gs[0][0]]) + Heads(gs[1..])
  }

  lemma {:induction false} FirstRecordIsHead(evs: seq<Event>, tick: int, t: Table, subject: PlayerKey, pairs: Pairing)
    requires RecordsFor(evs, tick, t, subject, pairs).Success?
    ensures var rs := RecordsFor(evs, tick, t, subject, pairs).value;
            FirstRecordFor(evs, tick, t, subject, pairs) == Success(if |rs| == 0 then [] else [rs[0]])
    decreases |evs|
  {
    if |evs| > 0 && !IsAttack(evs[0]) {
      FirstRecordIsHead(evs[1..], tick, t, subject, pairs);
    }
  }

  lemma {:induction false} GroupsFromFlatten(ticks: seq<Tick>, subject: PlayerKey, pairs: Pairing, known: Table)
    ensures var g := GroupsFrom(ticks, subject, pairs, known);
            ExtractAllFrom(ticks, subject, pairs, known)
              == (if g.Success? then Success(Seqs.Flatten(g.value)) else Failure(g.error))
    ensures GroupsFrom(ticks, subject, pairs, known).Success? ==>
              ExtractFirstFrom(ticks, subject, pairs, known) == Success(Heads(GroupsFrom(ticks, subject, pairs, known).value))
    decreases |ticks|
  {
    if |ticks| > 0 {
      var known' := ApplyTick(known, ticks[0].players, false);
      var evs := DictLookup(ticks[0].players, subject);
      GroupsFromFlatten(ticks[1..], subject, pairs, known');
      var g := RecordsFor(evs, ticks[0].tick, known', subject, pairs);
      var rest := GroupsFrom(ticks[1..], subject, pairs, known');
      if g.Success? {
        FirstRecordIsHead(evs, ticks[0].tick, known', subject, pairs);
        if rest.Success? {
          var gs := [g.value] + rest.value;
          assert gs[1..] == rest.value;
          assert Seqs.Flatten(gs) == g.value + Seqs.Flatten(rest.value);
          assert Heads(gs) == (if |g.value| == 0 then [] else [g.value[0]]) + Heads(rest.value);
        }
      }
    }
  }

  /** The first-attack extractor's output is the all-attacks output cut
      down to the first record of each tick; both fail together unless only
      a later attack of a tick crashes. */
  lemma FirstPerTickFiltersAll(ticks: seq<Tick>, subject: PlayerKey, pairs: Pairing)
    ensures var g := GroupsFrom(ticks, subject, pairs, map[]);
            && (ExtractAll(ticks, subject, pairs).Success? <==> g.Success?)
            && (g.Success? ==>
                  ExtractAll(ticks, subject, pairs) == Success(Seqs.Flatten(g.value))
                  && ExtractFirst(ticks, subject, pairs) == Success(Heads(g.value)))
  {
    GroupsFromFlatten(ticks, subject, pairs, map[]);
  }

  function TicksOf(rs: seq<AttackRecord>): seq<int>
  {
    seq(|rs|, i requires 0 <= i < |rs| => rs[i].tick)
  }

  function InputTicks(ticks: seq<Tick>): seq<int>
  {
    seq(|ticks|, i requires 0 <= i < |ticks| => ticks[i].tick)
  }

  lemma {:induction false} FirstRecordForTick(evs: seq<Event>, tick: int, t: Table, subject: PlayerKey, pairs: Pairing)
    ensures var r := FirstRecordFor(evs, tick, t, subject, pairs);
            r.Success? ==> |r.value| <= 1 && (|r.value| == 1 ==> r.value[0].tick == tick)
    decreases |evs|
  {
    if |evs| > 0 && !IsAttack(evs[0]) {
      FirstRecordForTick(evs[1..], tick, t, subject, pairs);
    }
  }

  /** At most one record per tick, and record ticks are a subsequence of
      the input ticks. */
  lemma {:induction false} FirstRecordTicksFollowInput(ticks: seq<Tick>, subject: PlayerKey, pairs: Pairing, known: Table)
    ensures var r := ExtractFirstFrom(ticks, subject, pairs, known);
            r.Success? ==> Seqs.IsSubsequence(TicksOf(r.value), InputTicks(ticks)) && |r.value| <= |ticks|
    decreases |ticks|
  {
    if |ticks| > 0 {
      var known' := ApplyTick(known, ticks[0].players, false);
      var evs := DictLookup(ticks[0].players, subject);
      FirstRecordForTick(evs, ticks[0].tick, known', subject, pairs);
      FirstRecordTicksFollowInput(ticks[1..], subject, pairs, known');
      var head := FirstRecordFor(evs, ticks[0].tick, known', subject, pairs);
      var rest := ExtractFirstFrom(ticks[1..], subject, pairs, known');
      if head.Success? && rest.Success? {
        var all := head.value + rest.value;
        assert InputTicks(ticks) == [ticks[0].tick] + InputTicks(ticks[1..]);
        if |head.value| == 0 {
          assert all == rest.value;
          Seqs.SubsequencePrepend(TicksOf(rest.value), InputTicks(ticks[1..]), ticks[0].tick);
        } else {
          assert TicksOf(all) == [ticks[0].tick] + TicksOf(rest.value);
          assert TicksOf(all)[1..] == TicksOf(rest.value);
          assert InputTicks(ticks)[1..] == InputTicks(ticks[1..]);
        }
      }
    }
  }

  // ---------------------------------------------------------------------
  // When extraction cannot fail

  ghost predicate HeldPositionsComplete(t: Table)
  {
    forall k :: Get(t, k).pos.Some? ==> Get(t, k).pos.value.Complete()
  }

  ghost predicate PositionEventsComplete(evs: seq<Event>)
  {
    forall i :: 0 <= i < |evs| && IsPositionEvent(evs[i]) ==> NewPosition(evs[i]).Complete()
  }

  lemma {:induction false} EventsInTickAreTickEvents(players: seq<(PlayerKey, seq<Event>)>, k: PlayerKey, e: Event)
    requires e in EventsInTick(players, k)
    ensures e in TickEvents(players)
    decreases |players|
  {
    if |players| > 0 {
      if players[0].0 == k && e in players[0].1 {
      } else {
        EventsInTickAreTickEvents(players[1..], k, e);
      }
    }
  }

  lemma ApplyTickKeepsPositionsComplete(t: Table, players: seq<(PlayerKey, seq<Event>)>, tv: bool)
    requires HeldPositionsComplete(t)
    requires PositionEventsComplete(TickEvents(players))
    ensures HeldPositionsComplete(ApplyTick(t, players, tv))
  {
    forall k | Get(ApplyTick(t, players, tv), k).pos.Some?
      ensures Get(ApplyTick(t, players, tv), k).pos.value.Complete()
    {
      var evs := EventsInTick(players, k);
      ApplyTickPerPlayer(t, players, k, tv);
      ObserveAllHoldsLastObservation(Get(t, k), evs, tv);
      var ps := Positions(evs);
      if |ps| > 0 {
        PositionsComeFromEvents(evs, ps[|ps| - 1]);
        var i :| 0 <= i < |evs| && IsPositionEvent(evs[i]) && NewPosition(evs[i]) == ps[|ps| - 1];
        EventsInTickAreTickEvents(players, k, evs[i]);
        var j :| 0 <= j < |TickEvents(players)| && TickEvents(players)[j] == evs[i];
      }
    }
  }

  lemma {:induction false} RecordsForSucceed(evs: seq<Event>, tick: int, t: Table, subject: PlayerKey, pairs: Pairing)
    requires HeldPositionsComplete(t)
    ensures RecordsFor(evs, tick, t, subject, pairs).Success?
    decreases |evs|
  {
    if |evs| > 0 {
      RecordsForSucceed(evs[1..], tick, t, subject, pairs);
      if IsAttack(evs[0]) {
        var target := Resolve(pairs, evs[0].updated.attackTarget.value);
        assert Get(t, subject).pos.Some? ==> Get(t, subject).pos.value.Complete();
        if target.Some? {
          assert Get(t, target.value).pos.Some? ==> Get(t, target.value).pos.value.Complete();
        }
      }
    }
  }

  lemma {:induction false} ExtractAllFromSucceeds(ticks: seq<Tick>, subject: PlayerKey, pairs: Pairing, known: Table)
    requires HeldPositionsComplete(known)
    requires PositionEventsComplete(AllEvents(ticks))
    ensures ExtractAllFrom(ticks, subject, pairs, known).Success?
    decreases |ticks|
  {
    if |ticks| > 0 {
      var here := TickEvents(ticks[0].players);
      assert AllEvents(ticks) == here + AllEvents(ticks[1..]);
      assert PositionEventsComplete(here) by {
        forall i | 0 <= i < |here| && IsPositionEvent(here[i])
          ensures NewPosition(here[i]).Complete()
        {
          assert AllEvents(ticks)[i] == here[i];
        }
      }
      assert PositionEventsComplete(AllEvents(ticks[1..])) by {
        forall i | 0 <= i < |AllEvents(ticks[1..])| && IsPositionEvent(AllEvents(ticks[1..])[i])
          ensures NewPosition(AllEvents(ticks[1..])[i]).Complete()
        {
          assert AllEvents(ticks)[|here| + i] == AllEvents(ticks[1..])[i];
        }
      }
      var known' := ApplyTick(known, ticks[0].players, false);
      ApplyTickKeepsPositionsComplete(known, ticks[0].players, false);
      RecordsForSucceed(DictLookup(ticks[0].players, subject), ticks[0].tick, known', subject, pairs);
      ExtractAllFromSucceeds(ticks[1..], subject, pairs, known');
    }
  }

  /** The only failure is a position with a missing coordinate: a replay
      whose position events all carry x, y and z is always extracted. */
  lemma ExtractionTotalWhenPositionsComplete(ticks: seq<Tick>, subject: PlayerKey, pairs: Pairing)
    requires PositionEventsComplete(AllEvents(ticks))
    ensures ExtractAll(ticks, subject, pairs).Success?
    ensures ExtractFirst(ticks, subject, pairs).Success?
  {
    ExtractAllFromSucceeds(ticks, subject, pairs, map[]);
    FirstPerTickFiltersAll(ticks, subject, pairs);
  }

  // ---------------------------------------------------------------------
  // Velocity scale

  /** A one-block move between two position updates reads as a speed of 20
      blocks per second (squared: 400) whatever ticks the updates fall on:
      the velocity assumes one update per 1/20 s. */
  lemma VelocityIgnoresTickGap(k: PlayerKey, tick0: int, tick1: int, x: real, y: real, z: real)
    ensures var at0 := Event(PositionEventType, Payload(Some(x), Some(y), Some(z), None, None, None, None));
            var at1 := Event(PositionEventType, Payload(Some(x + 1.0), Some(y), Some(z), None, None, None, None));
            var t := Replay(map[], [Tick(tick0, [(k, [at0])]), Tick(tick1, [(k, [at1])])], true);
            Get(t, k).vel == Some(Vec3(20.0, 0.0, 0.0)) && SqSpeed(Get(t, k)) == Some(400.0)
  {
    var at0 := Event(PositionEventType, Payload(Some(x), Some(y), Some(z), None, None, None, None));
    var at1 := Event(PositionEventType, Payload(Some(x + 1.0), Some(y), Some(z), None, None, None, None));
    var ticks := [Tick(tick0, [(k, [at0])]), Tick(tick1, [(k, [at1])])];
    TwoUpdatesOfOnePlayer(ticks, k, at0, at1);
    HeldStateIsLastObservation(ticks, k, true);
    TwoPositions(at0, at1);
  }

  lemma TwoUpdatesOfOnePlayer(ticks: seq<Tick>, k: PlayerKey, e0: Event, e1: Event)
    requires |ticks| == 2 && ticks[0].players == [(k, [e0])] && ticks[1].players == [(k, [e1])]
    ensures EventsOfPlayer(ticks, k) == [e0, e1]
  {
    assert ticks[1..][1..] == [];
    assert EventsInTick(ticks[0].players, k) == [e0];
    assert EventsInTick(ticks[1].players, k) == [e1];
    assert EventsOfPlayer(ticks[1..], k) == [e1] + EventsOfPlayer([], k);
  }

  lemma TwoPositions(e0: Event, e1: Event)
    requires IsPositionEvent(e0) && IsPositionEvent(e1)
    ensures Positions([e0, e1]) == [NewPosition(e0), NewPosition(e1)]
  {
    assert [e0, e1][1..] == [e1] && [e1][1..] == [];
    assert Positions([e1]) == [NewPosition(e1)] + Positions([]);
  }

  // ---------------------------------------------------------------------
  // What the records read: the table replayed from the start of the file

  /** The records of tick `i` of the in-place variant, computed from the
      table replayed over `ticks[..i+1]` afresh. */
  function TickRecords(ticks: seq<Tick>, subject: PlayerKey, pairs: Pairing, i: nat): Result<seq<AttackRecord>, Crash>
    requires i < |ticks|
  {
    RecordsFor(DictLookup(ticks[i].players, subject), ticks[i].tick, Replay(map[], ticks[..i + 1], false), subject, pairs)
  }

  /** Reference definition of the in-place variant: every tick from `i` on
      reads its own replayed table; the first crash ends the file. */
  function AllRecordsFromScratch(ticks: seq<Tick>, subject: PlayerKey, pairs: Pairing, i: nat): Result<seq<AttackRecord>, Crash>
    requires i <= |ticks|
    decreases |ticks| - i
  {
    if i == |ticks| then Success([])
    else
      var recs :- TickRecords(ticks, subject, pairs, i);
      var rest :- AllRecordsFromScratch(ticks, subject, pairs, i + 1);
      Success(recs + rest)
  }

  /** The records of tick `i` of the copy-forward variant, from the table
      replayed with velocities over `ticks[..i+1]`. */
  function TickFullRecords(ticks: seq<Tick>, subject: PlayerKey, pairs: Pairing, i: nat): Result<seq<FullRecord>, Crash>
    requires i < |ticks|
  {
    FullRecordsFor(EventsInTick(ticks[i].players, subject), ticks[i].tick, Replay(map[], ticks[..i + 1], true), subject, pairs)
  }

  function FullRecordsFromScratch(ticks: seq<Tick>, subject: PlayerKey, pairs: Pairing, i: nat): Result<seq<FullRecord>, Crash>
    requires i <= |ticks|
    decreases |ticks| - i
  {
    if i == |ticks| then Success([])
    else
      var recs :- TickFullRecords(ticks, subject, pairs, i);
      var rest :- FullRecordsFromScratch(ticks, subject, pairs, i + 1);
      Success(recs + rest)
  }

  lemma ReplayPrefixStep(ticks: seq<Tick>, i: nat, tv: bool)
    requires i < |ticks|
    ensures Replay(map[], ticks[..i + 1], tv) == ApplyTick(Replay(map[], ticks[..i], tv), ticks[i].players, tv)
  {
    assert ticks[..i + 1] == ticks[..i] + [ticks[i]];
    ReplayAppend(map[], ticks[..i], ticks[i], tv);
  }

  lemma {:induction false} ExtractAllFromIsScratch(ticks: seq<Tick>, subject: PlayerKey, pairs: Pairing, i: nat)
    requires i <= |ticks|
    ensures ExtractAllFrom(ticks[i..], subject, pairs, Replay(map[], ticks[..i], false)) == AllRecordsFromScratch(ticks, subject, pairs, i)
    decreases |ticks| - i
  {
    if i == |ticks| {
      assert ticks[i..] == [];
    } else {
      ReplayPrefixStep(ticks, i, false);
      assert ticks[i..][0] == ticks[i];
      assert ticks[i..][1..] == ticks[i + 1..];
      ExtractAllFromIsScratch(ticks, subject, pairs, i + 1);
    }
  }

  lemma {:induction false} CopyForwardFromIsScratch(ticks: seq<Tick>, subject: PlayerKey, pairs: Pairing, i: nat)
    requires i <= |ticks|
    ensures ExtractCopyForwardFrom(ticks[i..], subject, pairs, Replay(map[], ticks[..i], true)) == FullRecordsFromScratch(ticks, subject, pairs, i)
    decreases |ticks| - i
  {
    if i == |ticks| {
      assert ticks[i..] == [];
    } else {
      ReplayPrefixStep(ticks, i, true);
      assert ticks[i..][0] == ticks[i];
      assert ticks[i..][1..] == ticks[i + 1..];
      CopyForwardFromIsScratch(ticks, subject, pairs, i + 1);
    }
  }

  /** The in-place variant writes, tick by tick, the records computed from
      the table replayed up to and including that tick. */
  lemma ExtractAllReadsReplayedState(ticks: seq<Tick>, subject: PlayerKey, pairs: Pairing)
    ensures ExtractAll(ticks, subject, pairs) == AllRecordsFromScratch(ticks, subject, pairs, 0)
  {
    ExtractAllFromIsScratch(ticks, subject, pairs, 0);
    assert ticks[0..] == ticks;
    assert ticks[..0] == [];
  }

  /** The same for the copy-forward variant, whose table also carries
      velocities. */
  lemma CopyForwardReadsReplayedState(ticks: seq<Tick>, subject: PlayerKey, pairs: Pairing)
    ensures ExtractCopyForward(ticks, subject, pairs) == FullRecordsFromScratch(ticks, subject, pairs, 0)
  {
    CopyForwardFromIsScratch(ticks, subject, pairs, 0);
    assert ticks[0..] == ticks;
    assert ticks[..0] == [];
  }

  /** An attack read against the table replayed up to its tick measures the
      distance between the last positions the two players reported. */
  lemma AttackMeasuresLastPositions(ticks: seq<Tick>, i: nat, subject: PlayerKey, pairs: Pairing, e: Event, tv: bool)
    requires i < |ticks| && IsAttack(e)
    ensures var t := Replay(map[], ticks[..i + 1], tv);
            var target := Resolve(pairs, e.updated.attackTarget.value);
            var a := HeldPosition(EventsOfPlayer(ticks[..i + 1], subject), None);
            var b := if target.Some? then HeldPosition(EventsOfPlayer(ticks[..i + 1], target.value), None) else None;
            var r := SharedColumns(ticks[i].tick, t, subject, pairs, e);
            && (a.Some? && b.Some? && a.value.Complete() && b.value.Complete() ==>
                  r.Success? && r.value.sqDistance == Some(SqDiff(ToVec(a.value), ToVec(b.value))))
            && (a.None? || b.None? ==> r.Success? && r.value.sqDistance.None?)
  {
    var pre := ticks[..i + 1];
    var target := Resolve(pairs, e.updated.attackTarget.value);
    HeldStateIsLastObservation(pre, subject, tv);
    if target.Some? {
      HeldStateIsLastObservation(pre, target.value, tv);
    }
    var a := HeldPosition(EventsOfPlayer(pre, subject), None);
    var b := if target.Some? then HeldPosition(EventsOfPlayer(pre, target.value), None) else None;
    if a.Some? && b.Some? && a.value.Complete() && b.value.Complete() {
      SqNormOfDifference(ToVec(a.value), ToVec(b.value));
    }
  }

  lemma SqNormOfScale(c: real, v: Vec3)
    ensures SqNorm(Scale(c, v)) == c * c * SqNorm(v)
  {
    calc {
      SqNorm(Scale(c, v));
      (c * v.x) * (c * v.x) + (c * v.y) * (c * v.y) + (c * v.z) * (c * v.z);
      c * c * (v.x * v.x) + c * c * (v.y * v.y) + c * c * (v.z * v.z);
    }
  }

  /** With velocity tracking, the squared speed is 400 times the squared
      displacement between a player's last two reported positions (20 ticks
      per second). */
  lemma SqSpeedFromLastTwoPositions(ticks: seq<Tick>, k: PlayerKey)
    ensures var ps := Positions(EventsOfPlayer(ticks, k));
            |ps| >= 2 && ps[|ps| - 2].Complete() && ps[|ps| - 1].Complete() ==>
              SqSpeed(Get(Replay(map[], ticks, true), k)) == Some(400.0 * SqDiff(ToVec(ps[|ps| - 1]), ToVec(ps[|ps| - 2])))
  {
    var ps := Positions(EventsOfPlayer(ticks, k));
    HeldStateIsLastObservation(ticks, k, true);
    if |ps| >= 2 && ps[|ps| - 2].Complete() && ps[|ps| - 1].Complete() {
      var d := Sub(ToVec(ps[|ps| - 1]), ToVec(ps[|ps| - 2]));
      SqNormOfScale(TickRate, d);
      SqNormOfDifference(ToVec(ps[|ps| - 1]), ToVec(ps[|ps| - 2]));
    }
  }

  /** The distance column does not depend on which player is the attacker. */
  lemma SqDistanceSymmetric(a: Option<Position>, b: Option<Position>, tick: int)
    ensures SqDistance(a, b, tick) == SqDistance(b, a, tick)
  {
    if a.Some? && b.Some? && a.value.Complete() && b.value.Complete() {
      var u, v := ToVec(a.value), ToVec(b.value);
      SqNormOfDifference(u, v);
      SqNormOfDifference(v, u);
    }
  }
}

=== FILE: identity.dfy ===
/** Replay metadata and `pair_entity_id`, identical in the three extraction
    scripts. */
module Identity {
  import opened Telemetry

  /** One entry of the metadata's `players` list: its `entityID`, `name`
      and `hack` parameters (a missing `hack` is the empty map). */
  datatype PlayerMeta = PlayerMeta(entityId: EntityId, name: PlayerKey, hack: map<string, int>)

  function Ids(players: seq<PlayerMeta>): set<EntityId>
  {
    set i | 0 <= i < |players| :: players[i].entityId
  }

  /** `pair_entity_id`: one assignment per player, in list order. */
  function PairEntityId(players: seq<PlayerMeta>): (pairs: map<EntityId, PlayerKey>)
    ensures pairs.Keys == Ids(players)
    ensures forall id :: id in pairs ==>
              exists i :: 0 <= i < |players| && players[i].entityId == id && pairs[id] == players[i].name
    decreases |players|
  {
    if |players| == 0 then map[]
    else
      var prefix := players[..|players| - 1];
      var last := players[|players| - 1];
      var earlier := PairEntityId(prefix);
      assert Ids(players) == Ids(prefix) + {last.entityId} by {
        forall id | id in Ids(players)
          ensures id in Ids(prefix) + {last.entityId}
        {
          var i :| 0 <= i < |players| && players[i].entityId == id;
          if i < |players| - 1 {
            assert prefix[i] == players[i];
          }
        }
        forall id | id in Ids(prefix)
          ensures id in Ids(players)
        {
          var i :| 0 <= i < |prefix| && prefix[i].entityId == id;
          assert players[i] == prefix[i];
        }
      }
      var pairs := earlier[last.entityId := last.name];
      assert forall id :: id in pairs && id != last.entityId ==>
               exists i :: 0 <= i < |players| && players[i].entityId == id && pairs[id] == players[i].name by {
        forall id | id in pairs && id != last.entityId
          ensures exists i :: 0 <= i < |players| && players[i].entityId == id && pairs[id] == players[i].name
        {
          var i :| 0 <= i < |prefix| && prefix[i].entityId == id && earlier[id] == prefix[i].name;
          assert players[i] == prefix[i];
        }
      }
      pairs
  }

  /** A later player with the same id overwrites an earlier one: an id maps
      to the name of the LAST player carrying it. */
  lemma {:induction false} PairingIsLastWins(players: seq<PlayerMeta>, i: nat)
    requires i < |players|
    requires forall j :: i < j < |players| ==> players[j].entityId != players[i].entityId
    ensures PairEntityId(players)[players[i].entityId] == players[i].name
    decreases |players|
  {
    var prefix := players[..|players| - 1];
    if i < |players| - 1 {
      assert prefix[i] == players[i];
      forall j | i < j < |prefix|
        ensures prefix[j].entityId != prefix[i].entityId
      {
        assert prefix[j] == players[j];
      }
      PairingIsLastWins(prefix, i);
    }
  }

  /** With distinct ids no entry is lost: every player's id maps to its own name. */
  lemma PairingOfDistinctIds(players: seq<PlayerMeta>)
    requires forall i, j :: 0 <= i < j < |players| ==> players[i].entityId != players[j].entityId
    ensures forall i :: 0 <= i < |players| ==> PairEntityId(players)[players[i].entityId] == players[i].name
  {
    forall i | 0 <= i < |players|
      ensures PairEntityId(players)[players[i].entityId] == players[i].name
    {
      PairingIsLastWins(players, i);
    }
  }
}

=== FILE: overreach.dfy ===
/** The overreach data preparation (overreach/data_process.py, with the
    window search shared by reach/utils/calculator.py): from a replay's
    per-player playback, the target's attack ticks that have both players'
    positions at that exact tick become samples, and the samples whose
    distance exceeds 3 blocks are kept in streaks of at least 5. Ticks are
    integers (the JSON keys are their decimal strings); every event value is
    a dictionary of numeric fields. */
module Overreach {
  import opened Wrappers
  import Seqs
  import Segments

  type Fields = map<string, real>
  /** The events of one tick, by event name. */
  type Events = map<string, Fields>
  /** A player's playback: ticks with their events, in the JSON object's order. */
  type Timeline = seq<(int, Events)>
  type Playback = map<string, Timeline>

  const AttackEvent := "PlayerUpdatedAttack"
  const PositionEvent := "PlayerUpdatedPositionXYZ"
  const PingEvent := "PlayerUpdatedPing"
  const RotationEvent := "PlayerUpdatedRotation"
  const SearchRange := 20
  const MinStreak := 5

  // ---------------------------------------------------------------------
  // find_nearest_value

  /** The events at `tick` (the first entry for it). */
  function EventsAt(tl: Timeline, tick: int): (r: Option<Events>)
    ensures r.None? <==> forall k :: 0 <= k < |tl| ==> tl[k].0 != tick
    ensures r.Some? ==> exists k :: 0 <= k < |tl| && tl[k] == (tick, r.value)
    decreases |tl|
  {
    if |tl| == 0 then None
    else if tl[0].0 == tick then Some(tl[0].1)
    else
      assert forall k :: 1 <= k < |tl| ==> tl[k] == tl[1..][k - 1];
      EventsAt(tl[1..], tick)
  }

  /** `check_tick in playback.get(player, {}) and key in playback[player][check_tick]`. */
  predicate HoldsAt(pb: Playback, player: string, tick: int, key: string)
  {
    player in pb && EventsAt(pb[player], tick).Some? && key in EventsAt(pb[player], tick).value
  }

  function ValueAt(pb: Playback, player: string, tick: int, key: string): Fields
    requires HoldsAt(pb, player, tick, key)
  {
    EventsAt(pb[player], tick).value[key]
  }

  /** The tick examined at `offset`: `int(tick) + offset * direction`. */
  function Probe(tick: int, offset: int, direction: int): int
  {
    tick + offset * direction
  }

  function FindFrom(pb: Playback, player: string, tick: int, key: string, searchRange: int, direction: int, offset: nat)
    : (r: Option<Fields>)
    ensures r.Some? ==> exists o :: (offset <= o <= searchRange && HoldsAt(pb, player, Probe(tick, o, direction), key)
              && r.value == ValueAt(pb, player, Probe(tick, o, direction), key)
              && forall o' :: offset <= o' < o ==> !HoldsAt(pb, player, Probe(tick, o', direction), key))
    ensures r.None? ==> forall o :: offset <= o <= searchRange ==> !HoldsAt(pb, player, Probe(tick, o, direction), key)
    decreases if offset <= searchRange then searchRange - offset + 1 else 0
  {
    if offset > searchRange then None
    else if HoldsAt(pb, player, Probe(tick, offset, direction), key) then
      Some(ValueAt(pb, player, Probe(tick, offset, direction), key))
    else FindFrom(pb, player, tick, key, searchRange, direction, offset + 1)
  }

  /** `find_nearest_value`: offsets `0..searchRange` are tried in order and
      the first tick holding `key` gives the value; `None` when no tick of
      the window holds it. */
  function FindNearest(pb: Playback, player: string, tick: int, key: string, searchRange: int, direction: int)
    : (r: Option<Fields>)
    ensures r.Some? ==> exists o :: (0 <= o <= searchRange && HoldsAt(pb, player, Probe(tick, o, direction), key)
              && r.value == ValueAt(pb, player, Probe(tick, o, direction), key)
              && forall o' :: 0 <= o' < o ==> !HoldsAt(pb, player, Probe(tick, o', direction), key))
    ensures r.None? <==> forall o :: 0 <= o <= searchRange ==> !HoldsAt(pb, player, Probe(tick, o, direction), key)
  {
    FindFrom(pb, player, tick, key, searchRange, direction, 0)
  }

  /** An exact hit wins over every other tick of the window. */
  lemma ExactHitWins(pb: Playback, player: string, tick: int, key: string, searchRange: int, direction: int)
    requires searchRange >= 0 && HoldsAt(pb, player, tick, key)
    ensures FindNearest(pb, player, tick, key, searchRange, direction) == Some(ValueAt(pb, player, tick, key))
  {
    assert Probe(tick, 0, direction) == tick;
  }

  /** A player without playback, or a negative range, finds nothing. */
  lemma NothingFoundWithoutPlayback(pb: Playback, player: string, tick: int, key: string, searchRange: int, direction: int)
    requires player !in pb || searchRange < 0
    ensures FindNearest(pb, player, tick, key, searchRange, direction) == None
  {
  }

  // ---------------------------------------------------------------------
  // Opponent selection

  /** The first player whose name differs from the target's. */
  function Opponent(players: seq<string>, target: string): (o: Option<string>)
    ensures o.Some? ==> exists i :: (0 <= i < |players| && players[i] == o.value &&
              forall j :: 0 <= j < i ==> players[j] == target)
    ensures o.Some? ==> o.value != target
    ensures o.None? <==> forall i :: 0 <= i < |players| ==> players[i] == target
    decreases |players|
  {
    if |players| == 0 then None
    else if players[0] != target then Some(players[0])
    else
      assert forall i :: 1 <= i < |players| ==> players[i] == players[1..][i - 1];
      var o := Opponent(players[1..], target);
      if o.Some? then
        var i :| 0 <= i < |players[1..]| && players[1..][i] == o.value &&
                 forall j :: 0 <= j < i ==> players[1..][j] == target;
        assert players[i + 1] == o.value;
        o
      else o
  }

  // ---------------------------------------------------------------------
  // Samples of attack ticks

  /** A row of the output: the tick, the squared distance between the two
      players, and the target's nearest ping and rotation. */
  datatype Sample = Sample(tick: int, sqDistance: real, ping: Option<Fields>, rotation: Option<Fields>)

  /** `calculate_distance` on a dictionary without `x`, `y` or `z` raises
      `KeyError`. */
  datatype Crash = MissingCoordinate(tick: int)

  /** Python truthiness of an optional dictionary: present and non-empty. */
  predicate Truthy(p: Option<Fields>)
  {
    p.Some? && |p.value| > 0
  }

  predicate HasCoordinates(p: Fields)
  {
    "x" in p && "y" in p && "z" in p
  }

  function Square(a: real): (r: real)
    ensures r >= 0.0
  {
    a * a
  }

  /** The squared distance `calculate_distance` takes the root of. */
  function SqDistance(tick: int, p: Fields, q: Fields): (r: Result<real, Crash>)
    ensures r.Success? <==> HasCoordinates(p) && HasCoordinates(q)
    ensures r.Failure? ==> r.error == MissingCoordinate(tick)
    ensures r.Success? ==> r.value >= 0.0
    ensures r.Success? && p == q ==> r.value == 0.0
  {
    if HasCoordinates(p) && HasCoordinates(q) then
      Success(Square(p["x"] - q["x"]) + Square(p["y"] - q["y"]) + Square(p["z"] - q["z"]))
    else Failure(MissingCoordinate(tick))
  }

  /** The value `calculate_distance` takes the root of: the sum of the
      squared coordinate differences. */
  lemma SqDistanceValue(tick: int, p: Fields, q: Fields)
    requires HasCoordinates(p) && HasCoordinates(q)
    ensures SqDistance(tick, p, q) == Success((p["x"] - q["x"]) * (p["x"] - q["x"])
                                            + (p["y"] - q["y"]) * (p["y"] - q["y"])
                                            + (p["z"] - q["z"]) * (p["z"] - q["z"]))
  {
  }

  /** The distance does not depend on which player is the target. */
  lemma SqDistanceSymmetric(tick: int, p: Fields, q: Fields)
    ensures SqDistance(tick, p, q) == SqDistance(tick, q, p)
  {
  }

  /** The position event of a player at exactly `tick`, if any. */
  function PositionAt(pb: Playback, player: string, tick: int): Option<Fields>
  {
    if HoldsAt(pb, player, tick, PositionEvent) then Some(ValueAt(pb, player, tick, PositionEvent)) else None
  }

  /** The body of the loop of `process_data` for one of the target's
      ticks: nothing unless the tick has an attack and both players have a
      non-empty position at that very tick. */
  function SampleAt(pb: Playback, target: string, opponent: string, tick: int, events: Events)
    : (r: Result<Option<Sample>, Crash>)
    ensures r.Success? && r.value.Some? ==>
              AttackEvent in events && PositionEvent in events && Truthy(Some(events[PositionEvent])) &&
              Truthy(PositionAt(pb, opponent, tick)) && r.value.value.tick == tick
    ensures AttackEvent !in events ==> r == Success(None)
    ensures !Truthy(if PositionEvent in events then Some(events[PositionEvent]) else None) ==> r == Success(None)
    ensures !Truthy(PositionAt(pb, opponent, tick)) ==> r == Success(None)
  {
    if AttackEvent !in events then Success(None)
    else
      var targetPosition := if PositionEvent in events then Some(events[PositionEvent]) else None;
      var ping := FindNearest(pb, target, tick, PingEvent, SearchRange, 1);
      var rotation := FindNearest(pb, target, tick, RotationEvent, SearchRange, 1);
      var opponentPosition := PositionAt(pb, opponent, tick);
      if Truthy(targetPosition) && Truthy(opponentPosition) then
        var d :- SqDistance(tick, targetPosition.value, opponentPosition.value);
        Success(Some(Sample(tick, d, ping, rotation)))
      else Success(None)
  }

  /** With an attack and both positions present, the sample crashes exactly
      when a position lacks a coordinate; otherwise it is the tick, the
      squared distance, and the target's ping and rotation nearest to the
      tick, searching forward at most 20 ticks. */
  lemma SampleAtMeaning(pb: Playback, target: string, opponent: string, tick: int, events: Events)
    requires AttackEvent in events && PositionEvent in events && Truthy(Some(events[PositionEvent]))
    requires Truthy(PositionAt(pb, opponent, tick))
    ensures var r := SampleAt(pb, target, opponent, tick, events);
            var here, there := events[PositionEvent], PositionAt(pb, opponent, tick).value;
            && (r.Failure? <==> !(HasCoordinates(here) && HasCoordinates(there)))
            && (r.Failure? ==> r.error == MissingCoordinate(tick))
            && (r.Success? ==>
                  r == Success(Some(Sample(tick, SqDistance(tick, here, there).value,
                                           FindNearest(pb, target, tick, PingEvent, SearchRange, 1),
                                           FindNearest(pb, target, tick, RotationEvent, SearchRange, 1)))))
  {
  }

  /** Reference: the samples of every attack tick of a timeline, in order;
      the first tick whose distance cannot be computed stops everything. */
  function Samples(pb: Playback, target: string, opponent: string, tl: Timeline): (r: Result<seq<Sample>, Crash>)
    decreases |tl|
  {
    if |tl| == 0 then Success([])
    else
      var here :- SampleAt(pb, target, opponent, tl[0].0, tl[0].1);
      var rest :- Samples(pb, target, opponent, tl[1..]);
      Success(if here.Some? then [here.value] + rest else rest)
  }

  // ---------------------------------------------------------------------
  // Rounding and the streak test

  /** Python's `round(d, 3)` on an exact real: to the nearest multiple of
      0.001, ties to the even multiple. */
  function Round3(d: real): real
  {
    var scaled := d * 1000.0;
    var k := scaled.Floor;
    var frac := scaled - k as real;
    var n := if frac > 0.5 then k + 1 else if frac < 0.5 then k else if k % 2 == 0 then k else k + 1;
    n as real / 1000.0
  }

  /** The rounded distance exceeds 3 exactly when the distance exceeds
      3.0005 (3.0005 itself rounds to 3.000, the even neighbour). */
  lemma RoundedExceedsThree(d: real)
    requires d >= 0.0
    ensures Round3(d) > 3.0 <==> d > 3.0005
  {
    var scaled := d * 1000.0;
    var k := scaled.Floor;
    var frac := scaled - k as real;
    var n := if frac > 0.5 then k + 1 else if frac < 0.5 then k else if k % 2 == 0 then k else k + 1;
    assert Round3(d) == n as real / 1000.0;
    assert Round3(d) > 3.0 <==> n > 3000;
    assert d > 3.0005 <==> scaled > 3000.5;
    if scaled > 3000.5 {
      assert k >= 3000;
    } else {
      assert k <= 3000;
      if k == 3000 {
        assert frac <= 0.5;
      }
    }
  }

  const SqThreshold: real := 3.0005 * 3.0005

  /** `distance > 3` on the rounded root of the squared distance. */
  predicate Exceeds(s: Sample)
  {
    s.sqDistance > SqThreshold
  }

  /** The streak test on squared distances is the source's test on the
      rounded distance. */
  lemma ExceedsIsRoundedTest(s: Sample, d: real)
    requires d >= 0.0 && d * d == s.sqDistance
    ensures Exceeds(s) <==> Round3(d) > 3.0
  {
    RoundedExceedsThree(d);
    Segments.ExceedsOnSquares(d, 3.0005);
  }

  // ---------------------------------------------------------------------
  // The streak loop

  function Keep(streak: seq<Sample>): (kept: seq<Sample>)
    ensures kept == streak || kept == []
    ensures kept == streak <==> |streak| >= MinStreak || |streak| == 0
  {
    if |streak| >= MinStreak then streak else []
  }

  /** The loop of `process_data` over the target's ticks, with the
      current streak and the results so far. A tick without a sample
      leaves the streak alone. */
  function Walk(pb: Playback, target: string, opponent: string, tl: Timeline, streak: seq<Sample>, results: seq<Sample>)
    : (r: Result<seq<Sample>, Crash>)
    decreases |tl|
  {
    if |tl| == 0 then Success(results + Keep(streak))
    else
      var here :- SampleAt(pb, target, opponent, tl[0].0, tl[0].1);
      if here.None? then Walk(pb, target, opponent, tl[1..], streak, results)
      else if Exceeds(here.value) then Walk(pb, target, opponent, tl[1..], streak + [here.value], results)
      else Walk(pb, target, opponent, tl[1..], [], results + Keep(streak))
  }

  lemma FlattenFlush(streak: seq<Sample>)
    ensures Seqs.Flatten(Segments.Flush(streak, MinStreak)) == Keep(streak)
  {
    if |streak| >= MinStreak {
      assert Seqs.Flatten([streak]) == streak + Seqs.Flatten([]);
    }
  }

  /** An attack tick where either position is missing (or empty) at that
      exact tick neither extends nor resets the streak. */
  lemma MissingPositionKeepsStreak(pb: Playback, target: string, opponent: string, tick: int, events: Events,
                                   rest: Timeline, streak: seq<Sample>, results: seq<Sample>)
    requires PositionEvent !in events || |events[PositionEvent]| == 0 || !Truthy(PositionAt(pb, opponent, tick))
    ensures Walk(pb, target, opponent, [(tick, events)] + rest, streak, results)
              == Walk(pb, target, opponent, rest, streak, results)
  {
    assert ([(tick, events)] + rest)[1..] == rest;
  }

  /** The walk from a given streak agrees with the splitter run from the
      same streak on the samples: both crash together, with the same
      error, and otherwise the walk's rows are the results so far followed
      by the kept runs. */
  ghost predicate WalkAgrees(pb: Playback, target: string, opponent: string, tl: Timeline,
                             streak: seq<Sample>, results: seq<Sample>)
    requires forall i :: 0 <= i < |streak| ==> Exceeds(streak[i])
  {
    var w := Walk(pb, target, opponent, tl, streak, results);
    var s := Samples(pb, target, opponent, tl);
    (w.Failure? <==> s.Failure?) &&
    (s.Failure? ==> w.error == s.error) &&
    (s.Success? ==> w.value == results + Seqs.Flatten(Segments.SplitFrom(Exceeds, s.value, MinStreak, streak)))
  }

  /** The streak loop is the generic splitter on the samples: skipping the
      ticks without a sample, it keeps the maximal runs of exceeding samples
      that are at least 5 long, and it crashes exactly when collecting the
      samples does. */
  lemma {:induction false} WalkIsSplit(pb: Playback, target: string, opponent: string, tl: Timeline,
                                       streak: seq<Sample>, results: seq<Sample>)
    requires forall i :: 0 <= i < |streak| ==> Exceeds(streak[i])
    ensures WalkAgrees(pb, target, opponent, tl, streak, results)
    decreases |tl|, 1
  {
    if |tl| == 0 {
      FlattenFlush(streak);
    } else {
      var here := SampleAt(pb, target, opponent, tl[0].0, tl[0].1);
      if here.Success? {
        if here.value.None? {
          WalkIsSplit(pb, target, opponent, tl[1..], streak, results);
        } else if Exceeds(here.value.value) {
          WalkExtends(pb, target, opponent, tl, streak, results, here.value.value);
        } else {
          WalkBreaks(pb, target, opponent, tl, streak, results, here.value.value);
        }
      }
    }
  }

  /** An exceeding sample extends the streak. */
  lemma {:induction false} WalkExtends(pb: Playback, target: string, opponent: string, tl: Timeline,
                                       streak: seq<Sample>, results: seq<Sample>, x: Sample)
    requires forall i :: 0 <= i < |streak| ==> Exceeds(streak[i])
    requires |tl| > 0 && SampleAt(pb, target, opponent, tl[0].0, tl[0].1) == Success(Some(x)) && Exceeds(x)
    ensures WalkAgrees(pb, target, opponent, tl, streak, results)
    decreases |tl|, 0
  {
    WalkIsSplit(pb, target, opponent, tl[1..], streak + [x], results);
    var rest := Samples(pb, target, opponent, tl[1..]);
    if rest.Success? {
      var xs := [x] + rest.value;
      assert xs[1..] == rest.value;
    }
  }

  /** A sample within the threshold closes the streak, keeping it when it
      is at least 5 long. */
  lemma {:induction false} WalkBreaks(pb: Playback, target: string, opponent: string, tl: Timeline,
                                      streak: seq<Sample>, results: seq<Sample>, x: Sample)
    requires forall i :: 0 <= i < |streak| ==> Exceeds(streak[i])
    requires |tl| > 0 && SampleAt(pb, target, opponent, tl[0].0, tl[0].1) == Success(Some(x)) && !Exceeds(x)
    ensures WalkAgrees(pb, target, opponent, tl, streak, results)
    decreases |tl|, 0
  {
    WalkIsSplit(pb, target, opponent, tl[1..], [], results + Keep(streak));
    WalkStepBreaks(pb, target, opponent, tl, streak, results, x);
    SamplesStep(pb, target, opponent, tl, x);
    var rest := Samples(pb, target, opponent, tl[1..]);
    if rest.Success? {
      BreakSplits(streak, x, rest.value);
      var later := Seqs.Flatten(Segments.SplitFrom(Exceeds, rest.value, MinStreak, []));
      Seqs.AppendAssociative(results, Keep(streak), later);
    }
  }

  lemma WalkStepBreaks(pb: Playback, target: string, opponent: string, tl: Timeline,
                       streak: seq<Sample>, results: seq<Sample>, x: Sample)
    requires |tl| > 0 && SampleAt(pb, target, opponent, tl[0].0, tl[0].1) == Success(Some(x)) && !Exceeds(x)
    ensures Walk(pb, target, opponent, tl, streak, results) == Walk(pb, target, opponent, tl[1..], [], results + Keep(streak))
  {
  }

  lemma SamplesStep(pb: Playback, target: string, opponent: string, tl: Timeline, x: Sample)
    requires |tl| > 0 && SampleAt(pb, target, opponent, tl[0].0, tl[0].1) == Success(Some(x))
    ensures var rest := Samples(pb, target, opponent, tl[1..]);
            Samples(pb, target, opponent, tl) == if rest.Success? then Success([x] + rest.value) else rest
  {
  }

  /** Splitting after a sample within the threshold: the buffered streak is
      flushed and the scan restarts with an empty buffer. */
  lemma BreakSplits(streak: seq<Sample>, x: Sample, rest: seq<Sample>)
    requires forall i :: 0 <= i < |streak| ==> Exceeds(streak[i])
    requires !Exceeds(x)
    ensures Seqs.Flatten(Segments.SplitFrom(Exceeds, [x] + rest, MinStreak, streak))
              == Keep(streak) + Seqs.Flatten(Segments.SplitFrom(Exceeds, rest, MinStreak, []))
  {
    var xs := [x] + rest;
    assert xs[0] == x && xs[1..] == rest;
    var later := Segments.SplitFrom(Exceeds, rest, MinStreak, []);
    FlattenFlush(streak);
    Seqs.FlattenAppend(Segments.Flush(streak, MinStreak), later);
  }

  // ---------------------------------------------------------------------
  // process_data

  /** `process_data`: `None` when the target has no playback or there is no
      (non-empty) opponent name, otherwise the rows written. */
  function ProcessData(players: seq<string>, target: string, pb: Playback): (r: Result<Option<seq<Sample>>, Crash>)
  {
    var opponent := Opponent(players, target);
    if target !in pb || opponent.None? || opponent.value == "" then Success(None)
    else
      var rows :- Walk(pb, target, opponent.value, pb[target], [], []);
      Success(Some(rows))
  }

  /** What `process_data` writes: nothing when the target has no playback
      or no other player exists; otherwise the streaks of at least 5
      exceeding samples of the target's attack ticks, laid end to end, each
      row exceeding the threshold. */
  lemma ProcessDataWritesStreaks(players: seq<string>, target: string, pb: Playback)
    ensures (target !in pb || forall i :: 0 <= i < |players| ==> players[i] == target) ==>
              ProcessData(players, target, pb) == Success(None)
    ensures var opponent := Opponent(players, target);
            target in pb && opponent.Some? && opponent.value != "" ==>
              var s := Samples(pb, target, opponent.value, pb[target]);
              var r := ProcessData(players, target, pb);
              (r.Failure? <==> s.Failure?) &&
              (s.Success? ==> r == Success(Some(Seqs.Flatten(Segments.Split(Exceeds, s.value, MinStreak)))))
    ensures var r := ProcessData(players, target, pb);
            r.Success? && r.value.Some? ==> forall k :: 0 <= k < |r.value.value| ==> Exceeds(r.value.value[k])
  {
    var opponent := Opponent(players, target);
    if target in pb && opponent.Some? && opponent.value != "" {
      var none: seq<Sample> := [];
      WalkIsSplit(pb, target, opponent.value, pb[target], none, none);
      var s := Samples(pb, target, opponent.value, pb[target]);
      if s.Success? {
        var segs := Segments.Split(Exceeds, s.value, MinStreak);
        assert none + Seqs.Flatten(segs) == Seqs.Flatten(segs);
        FlattenPasses(segs);
      }
    }
  }

  lemma {:induction false} FlattenPasses(segs: seq<seq<Sample>>)
    requires forall k, i :: 0 <= k < |segs| && 0 <= i < |segs[k]| ==> Exceeds(segs[k][i])
    ensures forall j :: 0 <= j < |Seqs.Flatten(segs)| ==> Exceeds(Seqs.Flatten(segs)[j])
    decreases |segs|
  {
    if |segs| > 0 {
      FlattenPasses(segs[1..]);
      var f := Seqs.Flatten(segs);
      assert f == segs[0] + Seqs.Flatten(segs[1..]);
      forall j | 0 <= j < |f| ensures Exceeds(f[j]) {
        if j < |segs[0]| {
          assert f[j] == segs[0][j];
        } else {
          assert f[j] == Seqs.Flatten(segs[1..])[j - |segs[0]|];
          assert segs[1..][0..] == segs[1..];
        }
      }
    }
  }
}

=== FILE: predictor.dfy ===
/** Replay-level prediction (reach/prediction/reach_predictor.py): sort a
    player's attack rows by tick, cut them into segments, and call the
    replay a hack when some segment's classifier probability reaches the
    decision threshold. The classifier (feature extraction plus the trained
    forest) is a parameter: a segment maps to `None` when no features can
    be extracted, or to the probabilities of its feature rows. */
module Predictor {
  import opened Wrappers
  import opened Segments
  import Seqs
  import Text

  // ---------------------------------------------------------------------
  // Sorting by tick

  predicate TickSorted<C>(rows: seq<Row<C>>)
  {
    forall i, j :: 0 <= i < j < |rows| ==> rows[i].tick <= rows[j].tick
  }

  predicate DistinctTicks<C>(rows: seq<Row<C>>)
  {
    forall i, j :: 0 <= i < j < |rows| ==> rows[i].tick != rows[j].tick
  }

  function InsertByTick<C(==)>(r: Row<C>, rows: seq<Row<C>>): (out: seq<Row<C>>)
    requires TickSorted(rows)
    ensures TickSorted(out)
    ensures multiset(out) == multiset(rows) + multiset{r}
    decreases |rows|
  {
    if |rows| == 0 || r.tick <= rows[0].tick then [r] + rows
    else
      var rest := InsertByTick(r, rows[1..]);
      InsertBelowHead(r, rows, rest);
      [rows[0]] + rest
  }

  /** Putting the head back in front of the tail with `r` inserted keeps the
      rows sorted and adds exactly `r`. */
  lemma InsertBelowHead<C>(r: Row<C>, rows: seq<Row<C>>, rest: seq<Row<C>>)
    requires |rows| > 0 && TickSorted(rows) && rows[0].tick < r.tick
    requires TickSorted(rest) && multiset(rest) == multiset(rows[1..]) + multiset{r}
    ensures TickSorted([rows[0]] + rest)
    ensures multiset([rows[0]] + rest) == multiset(rows) + multiset{r}
  {
    assert rows == [rows[0]] + rows[1..];
    forall j | 0 <= j < |rest| ensures rows[0].tick <= rest[j].tick {
      assert rest[j] in multiset(rest);
      if rest[j] != r {
        assert rest[j] in rows[1..];
        var k :| 0 <= k < |rows[1..]| && rows[1..][k] == rest[j];
        assert rows[k + 1] == rest[j];
      }
    }
  }

  /** `df.sort_values(by='tick')`, as one particular tick-ordered arrangement. */
  function SortByTick<C(==)>(rows: seq<Row<C>>): (out: seq<Row<C>>)
    ensures TickSorted(out)
    ensures multiset(out) == multiset(rows)
    decreases |rows|
  {
    if |rows| == 0 then []
    else
      assert rows == [rows[0]] + rows[1..];
      InsertByTick(rows[0], SortByTick(rows[1..]))
  }

  lemma {:induction false} CountInDistinct<C>(a: seq<Row<C>>, x: Row<C>)
    requires DistinctTicks(a)
    ensures multiset(a)[x] <= 1
    decreases |a|
  {
    if |a| > 0 {
      assert a == [a[0]] + a[1..];
      DistinctTail(a);
      CountInDistinct(a[1..], x);
      assert a[0] == x ==> x !in a[1..] by {
        forall k | 0 <= k < |a[1..]| ensures a[1..][k].tick != a[0].tick {
          assert a[1..][k] == a[k + 1];
        }
      }
    }
  }

  lemma CountOfRepeat<C>(b: seq<Row<C>>, i: int, j: int)
    requires 0 <= i < j < |b|
    ensures b[i] == b[j] ==> multiset(b)[b[i]] >= 2
  {
    assert b == b[..j] + [b[j]] + b[j + 1..];
    assert b[i] == b[..j][i];
  }

  /** Rearranging rows keeps their ticks distinct. */
  lemma DistinctTicksOfPermutation<C>(a: seq<Row<C>>, b: seq<Row<C>>)
    requires multiset(a) == multiset(b) && DistinctTicks(a)
    ensures DistinctTicks(b)
  {
    forall i, j | 0 <= i < j < |b|
      ensures b[i].tick != b[j].tick
    {
      assert b[i] in multiset(a) && b[j] in multiset(a);
      var i' :| 0 <= i' < |a| && a[i'] == b[i];
      var j' :| 0 <= j' < |a| && a[j'] == b[j];
      CountOfRepeat(b, i, j);
      CountInDistinct(a, b[i]);
      assert b[i] != b[j];
      assert i' != j';
      assert a[i'].tick != a[j'].tick;
    }
  }

  lemma SortedTailOf<C>(a: seq<Row<C>>)
    requires |a| > 0 && TickSorted(a)
    ensures TickSorted(a[1..])
  {
    forall i, j | 0 <= i < j < |a[1..]| ensures a[1..][i].tick <= a[1..][j].tick {
      assert a[1..][i] == a[i + 1] && a[1..][j] == a[j + 1];
    }
  }

  /** Two tick-ordered arrangements of rows with distinct ticks start with
      the same row. */
  lemma SameHead<C>(a: seq<Row<C>>, b: seq<Row<C>>)
    requires |a| > 0 && |b| > 0
    requires TickSorted(a) && TickSorted(b) && multiset(a) == multiset(b) && DistinctTicks(a)
    ensures a[0] == b[0]
  {
    assert a[0] in multiset(b) && b[0] in multiset(a);
    var j :| 0 <= j < |b| && b[j] == a[0];
    var i :| 0 <= i < |a| && a[i] == b[0];
    assert b[0].tick <= b[j].tick;
    assert a[0].tick <= a[i].tick;
    assert i == 0;
  }

  lemma DistinctTail<C>(a: seq<Row<C>>)
    requires |a| > 0 && DistinctTicks(a)
    ensures DistinctTicks(a[1..])
  {
    forall i, j | 0 <= i < j < |a[1..]| ensures a[1..][i].tick != a[1..][j].tick {
      assert a[1..][i] == a[i + 1] && a[1..][j] == a[j + 1];
    }
  }

  lemma SameTailContents<C>(a: seq<Row<C>>, b: seq<Row<C>>)
    requires |a| > 0 && |b| > 0 && a[0] == b[0] && multiset(a) == multiset(b)
    ensures multiset(a[1..]) == multiset(b[1..])
  {
    assert a == [a[0]] + a[1..] && b == [b[0]] + b[1..];
    assert multiset(a[1..]) == multiset(a) - multiset{a[0]};
    assert multiset(b[1..]) == multiset(b) - multiset{b[0]};
  }

  /** The sort the source relies on is not stable, but with distinct ticks
      every tick-ordered arrangement of the rows is the same sequence. */
  lemma {:induction false} TickSortIsUnique<C>(a: seq<Row<C>>, b: seq<Row<C>>)
    requires TickSorted(a) && TickSorted(b) && multiset(a) == multiset(b) && DistinctTicks(a)
    ensures a == b
    decreases |a|
  {
    assert |a| == |multiset(a)| == |multiset(b)| == |b|;
    if |a| > 0 {
      SameHead(a, b);
      SameTailContents(a, b);
      SortedTailOf(a);
      SortedTailOf(b);
      DistinctTail(a);
      TickSortIsUnique(a[1..], b[1..]);
      assert a == [a[0]] + a[1..] && b == [b[0]] + b[1..];
    }
  }

  /** `extract_segments_from_csv`. */
  function ExtractSegmentsFromCsv<C(==)>(rows: seq<Row<C>>, minTicks: int, distanceThreshold: real)
    : (segs: seq<seq<Row<C>>>)
    ensures forall k :: 0 <= k < |segs| ==> |segs[k]| >= minTicks
    ensures forall k, i :: 0 <= k < |segs| && 0 <= i < |segs[k]| ==>
              segs[k][i].distance.Some? && segs[k][i].distance.value > distanceThreshold
  {
    SplitRows(SortByTick(rows), distanceThreshold, minTicks)
  }

  /** Whatever order the sort leaves rows with distinct ticks in, the
      segments are the same. */
  lemma SegmentsIndependentOfSortOrder<C>(rows: seq<Row<C>>, sorted: seq<Row<C>>, minTicks: int, distanceThreshold: real)
    requires DistinctTicks(rows)
    requires TickSorted(sorted) && multiset(sorted) == multiset(rows)
    ensures SplitRows(sorted, distanceThreshold, minTicks) == ExtractSegmentsFromCsv(rows, minTicks, distanceThreshold)
  {
    DistinctTicksOfPermutation(rows, SortByTick(rows));
    TickSortIsUnique(SortByTick(rows), sorted);
  }

  // ---------------------------------------------------------------------
  // Verdicts

  /** `extract_features` on the segment's temporary CSV, then the
      classifier. An empty segment is `pd.DataFrame([])`, written as a file
      without columns that `read_csv` rejects, so it has no features;
      `classify` stands for the rest (`None` when the features are missing
      or empty, otherwise `predict_proba`'s positive-class column). */
  function SegmentProbs<C>(classify: seq<Row<C>> -> Option<seq<real>>, seg: seq<Row<C>>): Option<seq<real>>
  {
    if |seg| == 0 then None else classify(seg)
  }

  /** `(y_prob >= threshold).any()` on a segment whose features exist. */
  predicate Positive<C>(classify: seq<Row<C>> -> Option<seq<real>>, seg: seq<Row<C>>, threshold: real)
  {
    var probs := SegmentProbs(classify, seg);
    probs.Some? && exists i :: 0 <= i < |probs.value| && probs.value[i] >= threshold
  }

  function AnyProbAtLeast(probs: seq<real>, threshold: real): (b: bool)
    ensures b <==> exists i :: 0 <= i < |probs| && probs[i] >= threshold
    decreases |probs|
  {
    if |probs| == 0 then false
    else if probs[0] >= threshold then true
    else
      assert forall i :: 1 <= i < |probs| ==> probs[i] == probs[1..][i - 1];
      AnyProbAtLeast(probs[1..], threshold)
  }

  /** The verdict loop of `predict_reach_module`: 1 as soon as a segment is
      positive, 0 when none is; segments without features are skipped, and
      no segments at all means 0. */
  method PredictReachModule<C>(segs: seq<seq<Row<C>>>, classify: seq<Row<C>> -> Option<seq<real>>, threshold: real)
    returns (verdict: int)
    ensures verdict == 0 || verdict == 1
    ensures verdict == 1 <==> exists k :: 0 <= k < |segs| && Positive(classify, segs[k], threshold)
    ensures |segs| == 0 ==> verdict == 0
  {
    if |segs| == 0 {
      return 0;
    }
    var isHack := false;
    var i := 0;
    while i < |segs|
      invariant 0 <= i <= |segs|
      invariant !isHack
      invariant forall k :: 0 <= k < i ==> !Positive(classify, segs[k], threshold)
    {
      var feats := SegmentProbs(classify, segs[i]);
      if feats.None? {
        i := i + 1;
        continue;
      }
      if AnyProbAtLeast(feats.value, threshold) {
        isHack := true;
        break;
      }
      i := i + 1;
    }
    verdict := if isHack then 1 else 0;
  }

  function MinTick<C>(seg: seq<Row<C>>): (m: int)
    requires |seg| > 0
    ensures exists i :: 0 <= i < |seg| && seg[i].tick == m
    ensures forall i :: 0 <= i < |seg| ==> m <= seg[i].tick
    decreases |seg|
  {
    if |seg| == 1 then seg[0].tick
    else
      var rest := MinTick(seg[1..]);
      assert forall i :: 1 <= i < |seg| ==> seg[i] == seg[1..][i - 1];
      if seg[0].tick <= rest then seg[0].tick else rest
  }

  function MaxTick<C>(seg: seq<Row<C>>): (m: int)
    requires |seg| > 0
    ensures exists i :: 0 <= i < |seg| && seg[i].tick == m
    ensures forall i :: 0 <= i < |seg| ==> seg[i].tick <= m
    decreases |seg|
  {
    if |seg| == 1 then seg[0].tick
    else
      var rest := MaxTick(seg[1..]);
      assert forall i :: 1 <= i < |seg| ==> seg[i] == seg[1..][i - 1];
      if seg[0].tick >= rest then seg[0].tick else rest
  }

  /** `predict_with_tick_range`: the tick range of the FIRST positive
      segment, and no range exactly when no segment is positive (an empty
      segment, possible only with `minTicks <= 0`, has no features and is
      never positive). */
  method PredictWithTickRange<C>(segs: seq<seq<Row<C>>>, classify: seq<Row<C>> -> Option<seq<real>>, threshold: real)
    returns (isHack: bool, range: Option<(int, int)>)
    ensures isHack <==> exists k :: 0 <= k < |segs| && Positive(classify, segs[k], threshold)
    ensures isHack <==> range.Some?
    ensures isHack ==>
              exists k :: 0 <= k < |segs| && Positive(classify, segs[k], threshold)
                && (forall j :: 0 <= j < k ==> !Positive(classify, segs[j], threshold))
                && |segs[k]| > 0 && range == Some((MinTick(segs[k]), MaxTick(segs[k])))
    ensures range.Some? ==> range.value.0 <= range.value.1
  {
    if |segs| == 0 {
      return false, None;
    }
    var i := 0;
    while i < |segs|
      invariant 0 <= i <= |segs|
      invariant forall k :: 0 <= k < i ==> !Positive(classify, segs[k], threshold)
    {
      var feats := SegmentProbs(classify, segs[i]);
      if feats.Some? && AnyProbAtLeast(feats.value, threshold) {
        var seg := segs[i];
        var lo, hi := MinTick(seg), MaxTick(seg);
        assert lo <= seg[0].tick <= hi;
        return true, Some((lo, hi));
      }
      i := i + 1;
    }
    return false, None;
  }

  // ---------------------------------------------------------------------
  // Players of a replay and file names

  /** Reference definition: the names in order of first appearance, each once. */
  function FirstOccurrences(names: seq<string>): (r: seq<string>)
    decreases |names|
  {
    if |names| == 0 then []
    else
      var prefix := FirstOccurrences(names[..|names| - 1]);
      var last := names[|names| - 1];
      if last in names[..|names| - 1] then prefix else prefix + [last]
  }

  lemma {:induction false} FirstOccurrencesContents(names: seq<string>)
    ensures forall x :: x in FirstOccurrences(names) <==> x in names
    ensures forall i, j :: 0 <= i < j < |FirstOccurrences(names)| ==>
              FirstOccurrences(names)[i] != FirstOccurrences(names)[j]
    decreases |names|
  {
    if |names| > 0 {
      var init := names[..|names| - 1];
      FirstOccurrencesContents(init);
      assert names == init + [names[|names| - 1]];
    }
  }

  /** Appearing earlier in the result means appearing first earlier in
      the input. */
  lemma {:induction false} FirstOccurrencesOrder(names: seq<string>, i: int, j: int)
    requires 0 <= i < j < |FirstOccurrences(names)|
    ensures exists p :: 0 <= p < |names| && names[p] == FirstOccurrences(names)[i]
              && FirstOccurrences(names)[j] !in names[..p + 1]
    decreases |names|
  {
    var init := names[..|names| - 1];
    var last := names[|names| - 1];
    FirstOccurrencesContents(init);
    if j < |FirstOccurrences(init)| {
      FirstOccurrencesOrder(init, i, j);
      var p :| 0 <= p < |init| && init[p] == FirstOccurrences(init)[i]
                && FirstOccurrences(init)[j] !in init[..p + 1];
      assert init[..p + 1] == names[..p + 1];
    } else {
      assert FirstOccurrences(names)[j] == last && last !in init;
      var x := FirstOccurrences(names)[i];
      assert x in init;
      var p :| 0 <= p < |init| && init[p] == x;
      assert names[..p + 1] == init[..p + 1];
    }
  }

  /** The `processed_ecids` loop of `process_predict_replay_file`: each
      player name is handled once, in order of first appearance. */
  method UniqueTargets(names: seq<string>) returns (targets: seq<string>)
    ensures targets == FirstOccurrences(names)
    ensures forall i, j :: 0 <= i < j < |targets| ==> targets[i] != targets[j]
    ensures forall x :: x in targets <==> x in names
  {
    var processed: set<string> := {};
    targets := [];
    var n := 0;
    while n < |names|
      invariant 0 <= n <= |names|
      invariant targets == FirstOccurrences(names[..n])
      invariant forall x :: x in processed <==> x in names[..n]
    {
      FirstOccurrencesContents(names[..n]);
      var target := names[n];
      assert names[..n + 1][..n] == names[..n];
      if target !in processed {
        processed := processed + {target};
        targets := targets + [target];
      }
      assert names[..n + 1] == names[..n] + [target];
      n := n + 1;
    }
    assert names[..n] == names;
    FirstOccurrencesContents(names);
  }

  /** `filename[:-5]`: the replay id of a `.avro` file. */
  function ReplayIdOf(filename: string): string
  {
    Text.DropLast(filename, 5)
  }

  /** `f"{train_target}.csv"`: the per-player output file. */
  function PlayerCsvName(target: string): string
  {
    target + ".csv"
  }

  /** `csv_file[:-4]`: the player name read back from an output file. */
  function PlayerOfCsv(csvFile: string): string
  {
    Text.DropLast(csvFile, 4)
  }

  /** The replay id is the `.avro` name without its extension, and the
      player read back from an output file is the player it was written for. */
  lemma FileNamesRoundTrip(replayId: string, target: string)
    ensures ReplayIdOf(replayId + ".avro") == replayId
    ensures PlayerOfCsv(PlayerCsvName(target)) == target
  {
    Text.DropLastUndoesAppend(replayId, ".avro");
    Text.DropLastUndoesAppend(target, ".csv");
  }
}

=== FILE: preprocess.dfy ===
/** The training preprocessor (reach/training/preprocess_reach_csv.py):
    every `.csv` file under a folder is sorted by tick and cut into
    segments by the same scan as the predictor, and segment `i` (0-based)
    of `F.csv` is written as `F_segment_<i+1>.csv`. The folder walk and the
    CSV reading and writing are I/O; the folder is given as its list of
    file names with their rows. */
module Preprocess {
  import Seqs
  import Text
  import opened Segments
  import Predictor

  const SegmentInfix := "_segment_"

  /** `f"{os.path.splitext(filename)[0]}_segment_{i + 1}.csv"`. */
  function SegmentFileName(filename: string, i: nat): (name: string)
    ensures Text.EndsWith(name, ".csv")
  {
    var name := Text.SplitextStem(filename) + SegmentInfix + Text.NatToString(i + 1) + ".csv";
    assert name[|name| - 4..] == ".csv";
    name
  }

  lemma NumeralOfName(stem: string, digits: string)
    ensures var name := stem + SegmentInfix + digits + ".csv";
            |name| == |stem| + 9 + |digits| + 4 && name[|stem| + 9..|name| - 4] == digits
  {
  }

  /** The names given to the segments of one file are pairwise distinct:
      they differ in their 1-based index. */
  lemma SegmentNamesDistinct(filename: string, i: nat, j: nat)
    requires i != j
    ensures SegmentFileName(filename, i) != SegmentFileName(filename, j)
  {
    var stem := Text.SplitextStem(filename);
    var di, dj := Text.NatToString(i + 1), Text.NatToString(j + 1);
    Text.NatToStringInjective(i + 1, j + 1);
    NumeralOfName(stem, di);
    NumeralOfName(stem, dj);
  }

  /** `name` reads as the segment name of `filename` with 1-based index
      `n`: the stem, the infix, a decimal numeral denoting `n`, `.csv`. */
  ghost predicate NamesSegment(name: string, filename: string, n: nat)
  {
    var stem := Text.SplitextStem(filename);
    && |name| >= |stem| + 9 + 4
    && name[..|stem|] == stem
    && name[|stem|..|stem| + 9] == SegmentInfix
    && name[|name| - 4..] == ".csv"
    && (forall k :: |stem| + 9 <= k < |name| - 4 ==> Text.IsDigit(name[k]))
    && Text.DigitsValue(name[|stem| + 9..|name| - 4]) == n
  }

  /** The index in a segment's name reads back as the segment's 1-based
      position. */
  lemma SegmentNumberReadsBack(filename: string, i: nat)
    ensures NamesSegment(SegmentFileName(filename, i), filename, i + 1)
  {
    var stem := Text.SplitextStem(filename);
    var digits := Text.NatToString(i + 1);
    var name := SegmentFileName(filename, i);
    NumeralOfName(stem, digits);
    assert name[..|stem|] == stem;
    assert name[|stem|..|stem| + 9] == SegmentInfix;
    assert forall k :: |stem| + 9 <= k < |name| - 4 ==> name[k] == digits[k - |stem| - 9];
    Text.NatToStringReads(i + 1);
  }

  /** A named file of the folder with its rows. */
  datatype CsvFile<C> = CsvFile(name: string, rows: seq<Row<C>>)

  predicate IsCsv<C>(f: CsvFile<C>)
  {
    Text.EndsWith(f.name, ".csv")
  }

  function CsvFiles<C>(files: seq<CsvFile<C>>): seq<CsvFile<C>>
  {
    Seqs.Filter((f: CsvFile<C>) => IsCsv(f), files)
  }

  /** The segments of one file, each with the name it is written under. */
  function NamedSegments<C(==)>(f: CsvFile<C>, threshold: real, minTicks: int): (out: seq<CsvFile<C>>)
    ensures var segs := Predictor.ExtractSegmentsFromCsv(f.rows, minTicks, threshold);
            |out| == |segs| &&
            forall i :: 0 <= i < |out| ==> out[i] == CsvFile(SegmentFileName(f.name, i), segs[i])
  {
    var segs := Predictor.ExtractSegmentsFromCsv(f.rows, minTicks, threshold);
    seq(|segs|, i requires 0 <= i < |segs| => CsvFile(SegmentFileName(f.name, i), segs[i]))
  }

  /** What is written for one file: pairwise distinct names, each naming
      its own 1-based position; every segment at least `minTicks` rows
      long, each row with a distance above the threshold. */
  lemma NamedSegmentsWellFormed<C>(f: CsvFile<C>, threshold: real, minTicks: int)
    ensures var out := NamedSegments(f, threshold, minTicks);
            && (forall i, j :: 0 <= i < j < |out| ==> out[i].name != out[j].name)
            && (forall i :: 0 <= i < |out| ==> NamesSegment(out[i].name, f.name, i + 1) && |out[i].rows| >= minTicks)
            && (forall i, k :: 0 <= i < |out| && 0 <= k < |out[i].rows| ==>
                  out[i].rows[k].distance.Some? && out[i].rows[k].distance.value > threshold)
  {
    var out := NamedSegments(f, threshold, minTicks);
    forall i, j | 0 <= i < j < |out|
      ensures out[i].name != out[j].name
    {
      SegmentNamesDistinct(f.name, i, j);
    }
    forall i | 0 <= i < |out|
      ensures NamesSegment(out[i].name, f.name, i + 1)
    {
      SegmentNumberReadsBack(f.name, i);
    }
  }

  /** Reference: everything written for a list of files, in walk order. */
  function Written<C(==)>(files: seq<CsvFile<C>>, threshold: real, minTicks: int): seq<CsvFile<C>>
    decreases |files|
  {
    if |files| == 0 then []
    else NamedSegments(files[0], threshold, minTicks) + Written(files[1..], threshold, minTicks)
  }

  lemma {:induction false} WrittenAppend<C>(a: seq<CsvFile<C>>, f: CsvFile<C>, threshold: real, minTicks: int)
    ensures Written(a + [f], threshold, minTicks) == Written(a, threshold, minTicks) + NamedSegments(f, threshold, minTicks)
    decreases |a|
  {
    if |a| == 0 {
      assert a + [f] == [f];
    } else {
      assert (a + [f])[1..] == a[1..] + [f];
      WrittenAppend(a[1..], f, threshold, minTicks);
    }
  }

  lemma CsvFilesAppend<C>(a: seq<CsvFile<C>>, f: CsvFile<C>)
    ensures CsvFiles(a + [f]) == CsvFiles(a) + (if IsCsv(f) then [f] else [])
  {
    Seqs.FilterAppend((g: CsvFile<C>) => IsCsv(g), a, [f]);
  }

  /** One more file of the walk adds its named segments when it is a
      `.csv` file and nothing otherwise. */
  lemma WalkStep<C>(files: seq<CsvFile<C>>, n: nat, threshold: real, minTicks: int)
    requires n < |files|
    ensures IsCsv(files[n]) ==>
              |CsvFiles(files[..n + 1])| == |CsvFiles(files[..n])| + 1 &&
              Written(CsvFiles(files[..n + 1]), threshold, minTicks)
                == Written(CsvFiles(files[..n]), threshold, minTicks) + NamedSegments(files[n], threshold, minTicks)
    ensures !IsCsv(files[n]) ==> CsvFiles(files[..n + 1]) == CsvFiles(files[..n])
  {
    assert files[..n + 1] == files[..n] + [files[n]];
    CsvFilesAppend(files[..n], files[n]);
    WrittenAppend(CsvFiles(files[..n]), files[n], threshold, minTicks);
  }

  /** The inner loop: name each segment of one file. */
  method NameSegments<C(==)>(f: CsvFile<C>, threshold: real, minTicks: int) returns (named: seq<CsvFile<C>>)
    ensures named == NamedSegments(f, threshold, minTicks)
  {
    var segments := Predictor.ExtractSegmentsFromCsv(f.rows, minTicks, threshold);
    named := [];
    var i := 0;
    while i < |segments|
      invariant 0 <= i <= |segments|
      invariant named == NamedSegments(f, threshold, minTicks)[..i]
    {
      named := named + [CsvFile(SegmentFileName(f.name, i), segments[i])];
      i := i + 1;
    }
  }

  /** One file of the walk: a `.csv` file yields its named segments,
      any other file nothing. */
  method VisitFile<C(==)>(f: CsvFile<C>, threshold: real, minTicks: int) returns (isCsv: bool, named: seq<CsvFile<C>>)
    ensures isCsv == IsCsv(f)
    ensures named == if isCsv then NamedSegments(f, threshold, minTicks) else []
  {
    isCsv := Text.EndsWith(f.name, ".csv");
    named := [];
    if isCsv {
      named := NameSegments(f, threshold, minTicks);
    }
  }

  /** `extract_high_distance_segments_recursive`: `fileCount` counts the
      `.csv` files, `written` is every segment of every `.csv` file under
      its segment name, in walk order, and `segmentCount` counts them. */
  method ExtractHighDistanceSegments<C(==)>(files: seq<CsvFile<C>>, threshold: real, minTicks: int)
    returns (fileCount: nat, segmentCount: nat, written: seq<CsvFile<C>>)
    ensures fileCount == |CsvFiles(files)|
    ensures written == Written(CsvFiles(files), threshold, minTicks)
    ensures segmentCount == |written|
  {
    fileCount, segmentCount, written := 0, 0, [];
    var n := 0;
    while n < |files|
      invariant 0 <= n <= |files|
      invariant fileCount == |CsvFiles(files[..n])|
      invariant written == Written(CsvFiles(files[..n]), threshold, minTicks)
      invariant segmentCount == |written|
    {
      var isCsv, named := VisitFile(files[n], threshold, minTicks);
      WalkStep(files, n, threshold, minTicks);
      if isCsv {
        fileCount := fileCount + 1;
      }
      written := written + named;
      segmentCount := segmentCount + |named|;
      n := n + 1;
    }
    assert files[..n] == files;
  }
}

=== FILE: segments.dfy ===
/** The run-buffer splitter shared by the prediction scan
    (`extract_segments_from_csv`), the training preprocessor and the
    overreach streak logic: one left-to-right pass that extends the current
    run while rows pass a test, closes it at the first row that fails, keeps
    a closed run when it is at least `minLen` long, and closes the last run
    at the end of the input. The test is a parameter; `RowExceeds` is the
    reach tools' strict `distance > threshold` with an empty cell (NaN)
    failing. */
module Segments {
  import opened Wrappers
  import Seqs

  /** `if len(current_segment) >= min_ticks: segments.append(current_segment)`. */
  function Flush<T>(run: seq<T>, minLen: int): (segs: seq<seq<T>>)
    ensures |segs| <= 1
    ensures |segs| == 1 <==> |run| >= minLen
    ensures |segs| == 1 ==> segs[0] == run
  {
    if |run| >= minLen then [run] else []
  }

  /** The scan, with `run` the buffer carried in from rows already read. */
  function SplitFrom<T>(pass: T -> bool, xs: seq<T>, minLen: int, run: seq<T>): (segs: seq<seq<T>>)
    requires forall i :: 0 <= i < |run| ==> pass(run[i])
    ensures forall k :: 0 <= k < |segs| ==> |segs[k]| >= minLen
    ensures forall k, i :: 0 <= k < |segs| && 0 <= i < |segs[k]| ==> pass(segs[k][i])
    decreases |xs|
  {
    if |xs| == 0 then Flush(run, minLen)
    else if pass(xs[0]) then SplitFrom(pass, xs[1..], minLen, run + [xs[0]])
    else Flush(run, minLen) + SplitFrom(pass, xs[1..], minLen, [])
  }

  /** The segments of `xs`: every row of every segment passes, and every
      segment is at least `minLen` long (so a run of exactly `minLen` is kept). */
  function Split<T>(pass: T -> bool, xs: seq<T>, minLen: int): (segs: seq<seq<T>>)
    ensures forall k :: 0 <= k < |segs| ==> |segs[k]| >= minLen
    ensures forall k, i :: 0 <= k < |segs| && 0 <= i < |segs[k]| ==> pass(segs[k][i])
  {
    SplitFrom(pass, xs, minLen, [])
  }

  // ---------------------------------------------------------------------
  // Reference: the maximal runs between failing rows

  /** `xs` cut at every failing row, failing rows dropped: one piece more
      than there are failing rows, empty pieces included. */
  function Runs<T>(pass: T -> bool, xs: seq<T>): (rs: seq<seq<T>>)
    ensures |rs| >= 1
    decreases |xs|
  {
    if |xs| == 0 then [[]]
    else
      var rest := Runs(pass, xs[1..]);
      if pass(xs[0]) then [[xs[0]] + rest[0]] + rest[1..] else [[]] + rest
  }

  function LongEnough<T>(minLen: int): seq<T> -> bool
  {
    s => |s| >= minLen
  }

  function Negate<T>(pass: T -> bool): T -> bool
  {
    x => !pass(x)
  }

  /** The runs are a decomposition of `xs`: laid end to end they are exactly
      its passing rows, every row of a run passes, and there is one run
      more than there are failing rows. */
  lemma {:induction false} RunsPartition<T>(pass: T -> bool, xs: seq<T>)
    ensures Seqs.Flatten(Runs(pass, xs)) == Seqs.Filter(pass, xs)
    ensures forall k, i :: 0 <= k < |Runs(pass, xs)| && 0 <= i < |Runs(pass, xs)[k]| ==> pass(Runs(pass, xs)[k][i])
    ensures |Runs(pass, xs)| == 1 + |Seqs.Filter(Negate(pass), xs)|
    decreases |xs|
  {
    if |xs| > 0 {
      RunsPartition(pass, xs[1..]);
      var rest := Runs(pass, xs[1..]);
      var rs := Runs(pass, xs);
      assert rest == [rest[0]] + rest[1..];
      if pass(xs[0]) {
        assert rs[1..] == rest[1..];
        assert Seqs.Flatten(rest) == rest[0] + Seqs.Flatten(rest[1..]);
        assert Seqs.Flatten(rs) == ([xs[0]] + rest[0]) + Seqs.Flatten(rest[1..]);
        forall k, i | 0 <= k < |rs| && 0 <= i < |rs[k]|
          ensures pass(rs[k][i])
        {
          if k == 0 && i > 0 {
            assert rs[k][i] == rest[0][i - 1];
          } else if k > 0 {
            assert rs[k] == rest[k];
          }
        }
      } else {
        assert rs[1..] == rest;
        assert Seqs.Flatten(rs) == [] + Seqs.Flatten(rest);
        forall k, i | 0 <= k < |rs| && 0 <= i < |rs[k]|
          ensures pass(rs[k][i])
        {
          assert rs[k] == rest[k - 1];
        }
      }
    }
  }

  lemma {:induction false} SplitFromIsLongRuns<T>(pass: T -> bool, xs: seq<T>, minLen: int, run: seq<T>)
    requires forall i :: 0 <= i < |run| ==> pass(run[i])
    ensures var rs := Runs(pass, xs);
            SplitFrom(pass, xs, minLen, run) == Seqs.Filter(LongEnough(minLen), [run + rs[0]] + rs[1..])
    decreases |xs|
  {
    var rs := Runs(pass, xs);
    var long := LongEnough<T>(minLen);
    if |xs| == 0 {
      assert run + rs[0] == run;
      assert [run][1..] == [];
    } else {
      var rest := Runs(pass, xs[1..]);
      if pass(xs[0]) {
        assert SplitFrom(pass, xs, minLen, run) == SplitFrom(pass, xs[1..], minLen, run + [xs[0]]);
        SplitFromIsLongRuns(pass, xs[1..], minLen, run + [xs[0]]);
        assert rs == [[xs[0]] + rest[0]] + rest[1..];
        assert run + rs[0] == (run + [xs[0]]) + rest[0];
        assert rs[1..] == rest[1..];
      } else {
        assert SplitFrom(pass, xs, minLen, run) == Flush(run, minLen) + SplitFrom(pass, xs[1..], minLen, []);
        SplitFromIsLongRuns(pass, xs[1..], minLen, []);
        assert [] + rest[0] == rest[0];
        assert [[] + rest[0]] + rest[1..] == rest;
        assert rs == [[]] + rest;
        assert run + rs[0] == run;
        Seqs.FilterCons(long, run, rest);
      }
    }
  }

  /** The segments are exactly the maximal runs of passing rows that are
      long enough, in order: runs are disjoint, contiguous and never merged
      across a failing row. */
  lemma SplitIsLongRuns<T>(pass: T -> bool, xs: seq<T>, minLen: int)
    ensures Split(pass, xs, minLen) == Seqs.Filter(LongEnough(minLen), Runs(pass, xs))
  {
    var rs := Runs(pass, xs);
    SplitFromIsLongRuns(pass, xs, minLen, []);
    assert [] + rs[0] == rs[0];
    assert [rs[0]] + rs[1..] == rs;
  }

  // ---------------------------------------------------------------------
  // Consequences

  lemma {:induction false} SplitFromKeepsOrder<T>(pass: T -> bool, xs: seq<T>, minLen: int, run: seq<T>)
    requires forall i :: 0 <= i < |run| ==> pass(run[i])
    ensures Seqs.IsSubsequence(Seqs.Flatten(SplitFrom(pass, xs, minLen, run)), run + xs)
    decreases |xs|
  {
    var flushed := Seqs.Flatten(Flush(run, minLen));
    assert Seqs.IsSubsequence(flushed, run) by {
      Seqs.SubsequenceReflexive(run);
      if |run| < minLen {
        assert flushed == [];
      } else {
        var none: seq<seq<T>> := [];
        assert [run][1..] == none;
        assert flushed == run + Seqs.Flatten(none);
        assert flushed == run;
      }
    }
    if |xs| == 0 {
      assert run + xs == run;
    } else if pass(xs[0]) {
      SplitFromKeepsOrder(pass, xs[1..], minLen, run + [xs[0]]);
      assert (run + [xs[0]]) + xs[1..] == run + xs;
    } else {
      SplitFromKeepsOrder(pass, xs[1..], minLen, []);
      assert [] + xs[1..] == xs[1..];
      Seqs.SubsequenceExtendFront(Seqs.Flatten(SplitFrom(pass, xs[1..], minLen, [])), xs[1..], [xs[0]]);
      Seqs.FlattenAppend(Flush(run, minLen), SplitFrom(pass, xs[1..], minLen, []));
      Seqs.SubsequenceConcat(flushed, run, Seqs.Flatten(SplitFrom(pass, xs[1..], minLen, [])), [xs[0]] + xs[1..]);
      assert run + ([xs[0]] + xs[1..]) == run + xs;
    }
  }

  /** Laid end to end, the segments are a subsequence of the input. */
  lemma SplitKeepsOrder<T>(pass: T -> bool, xs: seq<T>, minLen: int)
    ensures Seqs.IsSubsequence(Seqs.Flatten(Split(pass, xs, minLen)), xs)
  {
    SplitFromKeepsOrder(pass, xs, minLen, []);
    assert [] + xs == xs;
  }

  lemma {:induction false} FlattenDropsNothingLong<T>(rs: seq<seq<T>>, minLen: int)
    requires minLen <= 1
    ensures Seqs.Flatten(Seqs.Filter(LongEnough(minLen), rs)) == Seqs.Flatten(rs)
    decreases |rs|
  {
    if |rs| > 0 {
      FlattenDropsNothingLong(rs[1..], minLen);
      var kept := if LongEnough<T>(minLen)(rs[0]) then [rs[0]] else [];
      Seqs.FlattenAppend(kept, Seqs.Filter(LongEnough(minLen), rs[1..]));
      if kept == [] {
        assert rs[0] == [];
      } else {
        assert Seqs.Flatten(kept) == rs[0] + [];
      }
    }
  }

  /** With `minLen <= 1` nothing is dropped: the segments hold every passing row. */
  lemma SplitLosslessForShortMinimum<T>(pass: T -> bool, xs: seq<T>, minLen: int)
    requires minLen <= 1
    ensures Seqs.Flatten(Split(pass, xs, minLen)) == Seqs.Filter(pass, xs)
  {
    SplitIsLongRuns(pass, xs, minLen);
    FlattenDropsNothingLong(Runs(pass, xs), minLen);
    RunsPartition(pass, xs);
  }

  /** Input with no failing row is one run, flushed at the end of the input. */
  lemma {:induction false} SplitFromAllPassing<T>(pass: T -> bool, xs: seq<T>, minLen: int, run: seq<T>)
    requires forall i :: 0 <= i < |run| ==> pass(run[i])
    requires forall i :: 0 <= i < |xs| ==> pass(xs[i])
    ensures SplitFrom(pass, xs, minLen, run) == Flush(run + xs, minLen)
    decreases |xs|
  {
    if |xs| == 0 {
      assert run + xs == run;
    } else {
      SplitFromAllPassing(pass, xs[1..], minLen, run + [xs[0]]);
      assert (run + [xs[0]]) + xs[1..] == run + xs;
    }
  }

  lemma SplitAllPassing<T>(pass: T -> bool, xs: seq<T>, minLen: int)
    requires forall i :: 0 <= i < |xs| ==> pass(xs[i])
    ensures Split(pass, xs, minLen) == Flush(xs, minLen)
  {
    SplitFromAllPassing(pass, xs, minLen, []);
    assert [] + xs == xs;
  }

  lemma {:induction false} SplitFromAtBreak<T>(pass: T -> bool, xs: seq<T>, b: T, ys: seq<T>, minLen: int, run: seq<T>)
    requires forall i :: 0 <= i < |run| ==> pass(run[i])
    requires !pass(b)
    ensures SplitFrom(pass, xs + [b] + ys, minLen, run) == SplitFrom(pass, xs, minLen, run) + Split(pass, ys, minLen)
    decreases |xs|
  {
    var all := xs + [b] + ys;
    if |xs| == 0 {
      assert all[0] == b && all[1..] == ys;
    } else {
      assert all[0] == xs[0] && all[1..] == xs[1..] + [b] + ys;
      if pass(xs[0]) {
        SplitFromAtBreak(pass, xs[1..], b, ys, minLen, run + [xs[0]]);
      } else {
        SplitFromAtBreak(pass, xs[1..], b, ys, minLen, []);
      }
    }
  }

  /** A failing row separates the input into two independent scans. */
  lemma SplitAtBreak<T>(pass: T -> bool, xs: seq<T>, b: T, ys: seq<T>, minLen: int)
    requires !pass(b)
    ensures Split(pass, xs + [b] + ys, minLen) == Split(pass, xs, minLen) + Split(pass, ys, minLen)
  {
    SplitFromAtBreak(pass, xs, b, ys, minLen, []);
  }

  // ---------------------------------------------------------------------
  // The reach tools' rows and test

  /** A row of an attack CSV: its tick, its distance cell (`None` when the
      cell is empty, which pandas reads as NaN) and the remaining columns. */
  datatype Row<C> = Row(tick: int, distance: Option<real>, cols: C)

  /** `row['distance'] > distance_threshold`: false for NaN and for equality. */
  function RowExceeds<C>(threshold: real): Row<C> -> bool
  {
    (r: Row<C>) => r.distance.Some? && r.distance.value > threshold
  }

  /** The loop of `extract_segments_from_csv` and of the preprocessor, on
      rows already sorted by tick. */
  function SplitRows<C>(rows: seq<Row<C>>, threshold: real, minTicks: int): (segs: seq<seq<Row<C>>>)
    ensures forall k :: 0 <= k < |segs| ==> |segs[k]| >= minTicks
    ensures forall k, i :: 0 <= k < |segs| && 0 <= i < |segs[k]| ==>
              segs[k][i].distance.Some? && segs[k][i].distance.value > threshold
  {
    var segs := Split(RowExceeds(threshold), rows, minTicks);
    assert forall k, i :: 0 <= k < |segs| && 0 <= i < |segs[k]| ==> RowExceeds<C>(threshold)(segs[k][i]);
    segs
  }

  /** The extractor writes squared distances; for non-negative values the
      strict test reads the same on squares. */
  lemma ExceedsOnSquares(d: real, t: real)
    requires d >= 0.0 && t >= 0.0
    ensures d > t <==> d * d > t * t
  {
    if d > t {
      assert d * d - t * t == (d - t) * (d + t);
      var a, b := d - t, d + t;
      assert a > 0.0 && b > 0.0;
      assert a * b > 0.0;
    } else {
      assert t * t - d * d == (t - d) * (t + d);
      assert (t - d) * (t + d) >= 0.0;
    }
  }

  // ---------------------------------------------------------------------
  // Boundaries

  /** A run closed by a failing row is kept exactly when it is at least
      `minLen` long: a run of `minLen` is kept, one of `minLen - 1` dropped. */
  lemma RunClosedByBreak<T>(pass: T -> bool, xs: seq<T>, b: T, minLen: int)
    requires minLen >= 1
    requires forall i :: 0 <= i < |xs| ==> pass(xs[i])
    requires !pass(b)
    ensures Split(pass, xs + [b], minLen) == (if |xs| >= minLen then [xs] else [])
  {
    var none: seq<T> := [];
    assert xs + [b] == xs + [b] + none;
    SplitAtBreak(pass, xs, b, none, minLen);
    SplitAllPassing(pass, xs, minLen);
  }

  /** The example [4,4,4,4,2,4,4,4,4,4] with threshold 3 and minimum 4 gives
      two segments, of 4 and 5 rows: the run before the 2 is exactly long
      enough, and the run reaching the end of the input is flushed. */
  lemma TwoSegmentsExample<C>(rows: seq<Row<C>>)
    requires |rows| == 10
    requires forall i :: 0 <= i < 10 ==> rows[i].distance == Some(if i == 4 then 2.0 else 4.0)
    ensures SplitRows(rows, 3.0, 4) == [rows[..4], rows[5..]]
  {
    var pass := RowExceeds<C>(3.0);
    assert rows == rows[..4] + [rows[4]] + rows[5..];
    SplitAtBreak(pass, rows[..4], rows[4], rows[5..], 4);
    SplitAllPassing(pass, rows[..4], 4);
    SplitAllPassing(pass, rows[5..], 4);
  }
}

=== FILE: seqs.dfy ===
/** Sequence helpers: concatenation of a list of runs, order-preserving
    selection, and the subsequence relation used to state that a scan keeps
    the order of its input. */
module Seqs {

  /** The runs laid end to end, in order. */
  function Flatten<T>(ss: seq<seq<T>>): seq<T>
  {
    if |ss| == 0 then [] else ss[0] + Flatten(ss[1..])
  }

  /** The elements of `s` that satisfy `p`, in their original order. */
  function Filter<T>(p: T -> bool, s: seq<T>): seq<T>
  {
    if |s| == 0 then []
    else (if p(s[0]) then [s[0]] else []) + Filter(p, s[1..])
  }

  /** `a` can be obtained from `b` by deleting elements (greedy leftmost matching). */
  predicate IsSubsequence<T(==)>(a: seq<T>, b: seq<T>)
    decreases |b|
  {
    if |a| == 0 then true
    else if |b| == 0 then false
    else if a[0] == b[0] then IsSubsequence(a[1..], b[1..])
    else IsSubsequence(a, b[1..])
  }

  lemma {:induction false} FlattenAppend<T>(a: seq<seq<T>>, b: seq<seq<T>>)
    ensures Flatten(a + b) == Flatten(a) + Flatten(b)
    decreases |a|
  {
    if |a| == 0 {
      assert a + b == b;
    } else {
      assert (a + b)[1..] == a[1..] + b;
      FlattenAppend(a[1..], b);
    }
  }

  lemma {:induction false} FilterAppend<T>(p: T -> bool, a: seq<T>, b: seq<T>)
    ensures Filter(p, a + b) == Filter(p, a) + Filter(p, b)
    decreases |a|
  {
    if |a| == 0 {
      assert a + b == b;
    } else {
      var head := if p(a[0]) then [a[0]] else [];
      assert (a + b)[0] == a[0] && (a + b)[1..] == a[1..] + b;
      assert Filter(p, a + b) == head + Filter(p, a[1..] + b);
      FilterAppend(p, a[1..], b);
      assert Filter(p, a) == head + Filter(p, a[1..]);
    }
  }

  /** Concatenation is associative. */
  lemma AppendAssociative<T>(a: seq<T>, b: seq<T>, c: seq<T>)
    ensures a + (b + c) == a + b + c
  {
  }

  /** The filter keeps exactly the elements that satisfy `p`. */
  lemma {:induction false} FilterMembers<T>(p: T -> bool, s: seq<T>)
    ensures forall x :: x in Filter(p, s) <==> x in s && p(x)
    decreases |s|
  {
    if |s| > 0 {
      FilterMembers(p, s[1..]);
      assert s == [s[0]] + s[1..];
    }
  }

  /** One step of `Filter`, for a sequence built by prepending. */
  lemma FilterCons<T>(p: T -> bool, x: T, s: seq<T>)
    ensures Filter(p, [x] + s) == (if p(x) then [x] else []) + Filter(p, s)
  {
    assert ([x] + s)[0] == x && ([x] + s)[1..] == s;
  }

  lemma {:induction false} SubsequenceReflexive<T>(a: seq<T>)
    ensures IsSubsequence(a, a)
    decreases |a|
  {
    if |a| > 0 {
      SubsequenceReflexive(a[1..]);
    }
  }

  /** Dropping the first element of a subsequence keeps it a subsequence. */
  lemma {:induction false} SubsequenceTail<T>(a: seq<T>, b: seq<T>)
    requires |a| > 0 && IsSubsequence(a, b)
    ensures IsSubsequence(a[1..], b)
    decreases |b|, 1
  {
    if |a[1..]| == 0 {
    } else if a[0] == b[0] {
      SubsequenceTail(a[1..], b[1..]);
      if a[1] != b[0] {
        assert a[1..][0] != b[0];
      }
      SubsequencePrepend(a[1..], b[1..], b[0]);
    } else {
      SubsequenceTail(a, b[1..]);
      SubsequencePrepend(a[1..], b[1..], b[0]);
    }
  }

  /** A subsequence of `b` is a subsequence of `b` with one more element in front. */
  lemma {:induction false} SubsequencePrepend<T>(a: seq<T>, b: seq<T>, x: T)
    requires IsSubsequence(a, b)
    ensures IsSubsequence(a, [x] + b)
    decreases |b| + 1, 0
  {
    var xb := [x] + b;
    assert xb[1..] == b;
    if |a| == 0 {
    } else if a[0] == x {
      SubsequenceTail(a, b);
    }
  }

  lemma {:induction false} SubsequenceExtendFront<T>(a: seq<T>, b: seq<T>, x: seq<T>)
    requires IsSubsequence(a, b)
    ensures IsSubsequence(a, x + b)
    decreases |x|
  {
    if |x| > 0 {
      SubsequenceExtendFront(a, b, x[1..]);
      assert x + b == [x[0]] + (x[1..] + b);
      SubsequencePrepend(a, x[1..] + b, x[0]);
    } else {
      assert x + b == b;
    }
  }

  /** Subsequences of consecutive pieces combine into a subsequence of the whole. */
  lemma {:induction false} SubsequenceConcat<T>(a: seq<T>, b: seq<T>, c: seq<T>, d: seq<T>)
    requires IsSubsequence(a, b) && IsSubsequence(c, d)
    ensures IsSubsequence(a + c, b + d)
    decreases |b|
  {
    if |a| == 0 {
      assert a + c == c;
      SubsequenceExtendFront(c, d, b);
    } else {
      assert (a + c)[0] == a[0];
      assert (b + d)[0] == b[0];
      assert (b + d)[1..] == b[1..] + d;
      if a[0] == b[0] {
        assert (a + c)[1..] == a[1..] + c;
        SubsequenceConcat(a[1..], b[1..], c, d);
      } else {
        SubsequenceConcat(a, b[1..], c, d);
      }
    }
  }

  lemma SubsequenceExtendBack<T>(a: seq<T>, b: seq<T>, x: seq<T>)
    requires IsSubsequence(a, b)
    ensures IsSubsequence(a, b + x)
  {
    assert a + [] == a;
    SubsequenceConcat(a, b, [], x);
  }
}

=== FILE: telemetry.dfy ===
/** The decoded replay as the extractors see it: an ordered list of ticks,
    each holding, per player key, the list of that player's events in that
    tick. The Avro decoding that produces it is not part of this model. */
module Telemetry {
  import opened Wrappers

  /** Keys of the per-tick `players` table, and the names `attackTarget`
      resolves to through the metadata pairing. */
  type PlayerKey = string
  /** The transient `entityID` of a player, as it appears in `attackTarget`. */
  type EntityId = string

  const PositionEventType: string := "PlayerUpdatedPositionXYZ"
  const PingEventType: string := "PlayerUpdatedPing"

  /** The `updated` dictionary of an event: `Some` means the key is present. */
  datatype Payload = Payload(
    x: Option<real>, y: Option<real>, z: Option<real>,
    yaw: Option<real>, pitch: Option<real>,
    ping: Option<real>,
    attackTarget: Option<EntityId>)

  /** One event: its `type` tag (the empty string when the tag is missing)
      and its payload. */
  datatype Event = Event(kind: string, updated: Payload)

  /** One tick entry; `players` keeps the dictionary's iteration order. */
  datatype Tick = Tick(tick: int, players: seq<(PlayerKey, seq<Event>)>)

  /** A position as stored by the tools: each coordinate read with `.get`,
      so each may be missing. */
  datatype Position = Position(x: Option<real>, y: Option<real>, z: Option<real>) {
    predicate Complete() {
      x.Some? && y.Some? && z.Some?
    }
  }

  datatype Vec3 = Vec3(x: real, y: real, z: real)

  function Sub(a: Vec3, b: Vec3): Vec3 {
    Vec3(a.x - b.x, a.y - b.y, a.z - b.z)
  }

  function Scale(k: real, v: Vec3): Vec3 {
    Vec3(k * v.x, k * v.y, k * v.z)
  }

  /** The squared Euclidean norm; the tools take its square root. */
  function SqNorm(v: Vec3): (r: real)
    ensures r >= 0.0
  {
    v.x * v.x + v.y * v.y + v.z * v.z
  }

  function ToVec(p: Position): Vec3
    requires p.Complete()
  {
    Vec3(p.x.value, p.y.value, p.z.value)
  }

  predicate IsPositionEvent(e: Event) {
    e.kind == PositionEventType
  }

  predicate IsPingEvent(e: Event) {
    e.kind == PingEventType
  }

  /** Rotation is taken from any event whose payload has both angles. */
  predicate CarriesRotation(e: Event) {
    e.updated.yaw.Some? && e.updated.pitch.Some?
  }

  predicate IsAttack(e: Event) {
    e.updated.attackTarget.Some?
  }

  function NewPosition(e: Event): Position {
    Position(e.updated.x, e.updated.y, e.updated.z)
  }

  /** No key occurs twice, as in the decoded dictionary. */
  predicate DistinctKeys(players: seq<(PlayerKey, seq<Event>)>) {
    forall i, j :: 0 <= i < j < |players| ==> players[i].0 != players[j].0
  }

  /** `players_data[key]` when `key in players_data`, else no events. */
  function DictLookup(players: seq<(PlayerKey, seq<Event>)>, key: PlayerKey): seq<Event>
  {
    if |players| == 0 then []
    else if players[0].0 == key then players[0].1
    else DictLookup(players[1..], key)
  }

  /** Every event filed under `key` in one tick, in iteration order. */
  function EventsInTick(players: seq<(PlayerKey, seq<Event>)>, key: PlayerKey): seq<Event>
  {
    if |players| == 0 then []
    else (if players[0].0 == key then players[0].1 else []) + EventsInTick(players[1..], key)
  }

  /** Every event of `key` over a list of ticks, in replay order. */
  function EventsOfPlayer(ticks: seq<Tick>, key: PlayerKey): seq<Event>
  {
    if |ticks| == 0 then []
    else EventsInTick(ticks[0].players, key) + EventsOfPlayer(ticks[1..], key)
  }

  /** Every event of one tick, whoever it belongs to. */
  function TickEvents(players: seq<(PlayerKey, seq<Event>)>): seq<Event>
  {
    if |players| == 0 then [] else players[0].1 + TickEvents(players[1..])
  }

  /** Every event of the replay, in walk order. */
  function AllEvents(ticks: seq<Tick>): seq<Event>
  {
    if |ticks| == 0 then [] else TickEvents(ticks[0].players) + AllEvents(ticks[1..])
  }

  /** With distinct keys the dictionary lookup sees every event of the key. */
  lemma {:induction false} DictLookupIsEventsInTick(players: seq<(PlayerKey, seq<Event>)>, key: PlayerKey)
    requires DistinctKeys(players)
    ensures DictLookup(players, key) == EventsInTick(players, key)
  {
    if |players| > 0 {
      assert DistinctKeys(players[1..]) by {
        forall i, j | 0 <= i < j < |players[1..]|
          ensures players[1..][i].0 != players[1..][j].0
        {
          assert players[1..][i] == players[i + 1] && players[1..][j] == players[j + 1];
        }
      }
      DictLookupIsEventsInTick(players[1..], key);
      if players[0].0 == key {
        NoOtherEntryForKey(players[1..], key, players);
        assert players[0].1 + [] == players[0].1;
      }
    }
  }

  lemma {:induction false} NoOtherEntryForKey(rest: seq<(PlayerKey, seq<Event>)>, key: PlayerKey,
                                              players: seq<(PlayerKey, seq<Event>)>)
    requires |players| > 0 && players[0].0 == key && rest == players[1..] && DistinctKeys(players)
    ensures EventsInTick(rest, key) == []
  {
    NotPresentMeansNoEvents(rest, key);
  }

  lemma {:induction false} NotPresentMeansNoEvents(players: seq<(PlayerKey, seq<Event>)>, key: PlayerKey)
    requires forall i :: 0 <= i < |players| ==> players[i].0 != key
    ensures EventsInTick(players, key) == []
  {
    if |players| > 0 {
      NotPresentMeansNoEvents(players[1..], key);
    }
  }
}

=== FILE: text.dfy ===
/** String helpers with Python's meaning: code-point ordering as used by
    `sorted`, negative-index slicing, `str.split`, `os.path.basename`,
    `os.path.splitext` and decimal `str(n)`. */
module Text {
  import opened Wrappers

  // ---------------------------------------------------------------------
  // Ordering of strings (Python compares `str` by code points)

  predicate LexLe(a: string, b: string)
    decreases |a|
  {
    |a| == 0 || (|b| > 0 && (a[0] < b[0] || (a[0] == b[0] && LexLe(a[1..], b[1..]))))
  }

  lemma {:induction false} LexLeReflexive(a: string)
    ensures LexLe(a, a)
    decreases |a|
  {
    if |a| > 0 {
      LexLeReflexive(a[1..]);
    }
  }

  lemma {:induction false} LexLeAntisymmetric(a: string, b: string)
    requires LexLe(a, b) && LexLe(b, a)
    ensures a == b
    decreases |a|
  {
    if |a| > 0 {
      LexLeAntisymmetric(a[1..], b[1..]);
      assert a == [a[0]] + a[1..] && b == [b[0]] + b[1..];
    }
  }

  lemma {:induction false} LexLeTransitive(a: string, b: string, c: string)
    requires LexLe(a, b) && LexLe(b, c)
    ensures LexLe(a, c)
    decreases |a|
  {
    if |a| > 0 && a[0] == b[0] && b[0] == c[0] {
      LexLeTransitive(a[1..], b[1..], c[1..]);
    }
  }

  lemma {:induction false} LexLeTotal(a: string, b: string)
    ensures LexLe(a, b) || LexLe(b, a)
    decreases |a|
  {
    if |a| > 0 && |b| > 0 && a[0] == b[0] {
      LexLeTotal(a[1..], b[1..]);
    }
  }

  predicate Sorted(s: seq<string>)
  {
    forall i, j :: 0 <= i < j < |s| ==> LexLe(s[i], s[j])
  }

  function Insert(x: string, s: seq<string>): (r: seq<string>)
    requires Sorted(s)
    ensures Sorted(r)
    ensures multiset(r) == multiset(s) + multiset{x}
    decreases |s|
  {
    if |s| == 0 then [x]
    else if LexLe(x, s[0]) then
      InsertAtFront(x, s);
      [x] + s
    else
      var rest := Insert(x, s[1..]);
      assert s == [s[0]] + s[1..];
      InsertBehindHead(x, s, rest);
      [s[0]] + rest
  }

  lemma InsertAtFront(x: string, s: seq<string>)
    requires Sorted(s) && |s| > 0 && LexLe(x, s[0])
    ensures Sorted([x] + s)
  {
    var r := [x] + s;
    forall i, j | 0 <= i < j < |r|
      ensures LexLe(r[i], r[j])
    {
      if i == 0 && j > 1 {
        LexLeTransitive(x, s[0], r[j]);
      }
    }
  }

  lemma InsertBehindHead(x: string, s: seq<string>, rest: seq<string>)
    requires Sorted(s) && |s| > 0 && !LexLe(x, s[0])
    requires Sorted(rest) && multiset(rest) == multiset(s[1..]) + multiset{x}
    ensures Sorted([s[0]] + rest)
  {
    LexLeTotal(x, s[0]);
    forall y | y in multiset(rest)
      ensures LexLe(s[0], y)
    {
      if y != x {
        assert y in s[1..];
      }
    }
    forall j | 0 <= j < |rest|
      ensures LexLe(s[0], rest[j])
    {
      assert rest[j] in multiset(rest);
    }
  }

  /** `sorted(names)`. */
  function Sort(s: seq<string>): (r: seq<string>)
    ensures Sorted(r)
    ensures multiset(r) == multiset(s)
    decreases |s|
  {
    if |s| == 0 then []
    else
      assert s == [s[0]] + s[1..];
      Insert(s[0], Sort(s[1..]))
  }

  lemma SortedHeadIsLeast(a: seq<string>, y: string)
    requires Sorted(a) && y in a
    ensures LexLe(a[0], y)
  {
    var j :| 0 <= j < |a| && a[j] == y;
    if j == 0 {
      LexLeReflexive(y);
    }
  }

  lemma SortedTail(a: seq<string>)
    requires Sorted(a) && |a| > 0
    ensures Sorted(a[1..])
    ensures multiset(a[1..]) == multiset(a) - multiset{a[0]}
  {
    assert a == [a[0]] + a[1..];
  }

  /** There is only one sorted arrangement of a multiset of strings. */
  lemma {:induction false} SortedUnique(a: seq<string>, b: seq<string>)
    requires Sorted(a) && Sorted(b) && multiset(a) == multiset(b)
    ensures a == b
    decreases |a|
  {
    assert |a| == |multiset(a)| == |multiset(b)| == |b|;
    if |a| > 0 {
      assert a[0] in multiset(b) && b[0] in multiset(a);
      SortedHeadIsLeast(b, a[0]);
      SortedHeadIsLeast(a, b[0]);
      LexLeAntisymmetric(a[0], b[0]);
      SortedTail(a);
      SortedTail(b);
      SortedUnique(a[1..], b[1..]);
      assert a == [a[0]] + a[1..] && b == [b[0]] + b[1..];
    }
  }

  /** Sorting forgets the order it was given. */
  lemma SortIgnoresOrder(s: seq<string>, t: seq<string>)
    requires multiset(s) == multiset(t)
    ensures Sort(s) == Sort(t)
  {
    SortedUnique(Sort(s), Sort(t));
  }

  // ---------------------------------------------------------------------
  // Slicing and splitting

  /** Python's `s[:-n]` for `n >= 1`: the empty string when `s` is shorter. */
  function DropLast(s: string, n: nat): (r: string)
    requires n >= 1
    ensures |s| >= n ==> s == r + s[|s| - n..]
    ensures |s| < n ==> r == ""
  {
    if |s| >= n then s[..|s| - n] else ""
  }

  lemma DropLastUndoesAppend(x: string, suffix: string)
    requires |suffix| >= 1
    ensures DropLast(x + suffix, |suffix|) == x
  {
    assert (x + suffix)[..|x|] == x;
  }

  predicate EndsWith(s: string, suffix: string)
  {
    |suffix| <= |s| && s[|s| - |suffix|..] == suffix
  }

  /** `s.split(c)[0]`: everything before the first `c`, or all of `s`. */
  function BeforeFirst(s: string, c: char): (r: string)
    ensures c !in r
    ensures |r| <= |s| && r == s[..|r|]
    ensures |r| < |s| ==> s[|r|] == c
    decreases |s|
  {
    if |s| == 0 || s[0] == c then "" else [s[0]] + BeforeFirst(s[1..], c)
  }

  /** `os.path.basename` with `/` as the separator. */
  function Basename(path: string): (r: string)
    ensures '/' !in r
    ensures |r| <= |path| && r == path[|path| - |r|..]
    ensures |r| < |path| ==> path[|path| - |r| - 1] == '/'
    decreases |path|
  {
    if |path| == 0 || path[|path| - 1] == '/' then ""
    else Basename(path[..|path| - 1]) + [path[|path| - 1]]
  }

  lemma BasenameOfJoin(dir: string, name: string)
    requires '/' !in name
    ensures Basename(dir + "/" + name) == name
  {
    var r := Basename(dir + "/" + name);
    var p := dir + "/" + name;
    assert p[|p| - |name|..] == name;
    assert p[|p| - |name| - 1] == '/';
  }

  /** `os.path.splitext(name)[0]` of a name with no directory part: the text
      before the last `.`, unless only dots precede that `.` (a leading-dot
      name such as `.csv` has no extension). */
  function SplitextStem(name: string): (r: string)
  {
    var i := LastIndexOf(name, '.');
    if i.Some? && exists k :: 0 <= k < i.value && name[k] != '.' then name[..i.value] else name
  }

  function LastIndexOf(s: string, c: char): (r: Option<nat>)
    ensures r.Some? ==> r.value < |s| && s[r.value] == c && c !in s[r.value + 1..]
    ensures r.None? ==> c !in s
    decreases |s|
  {
    if |s| == 0 then None
    else if s[|s| - 1] == c then Some(|s| - 1)
    else
      var r := LastIndexOf(s[..|s| - 1], c);
      assert s == s[..|s| - 1] + [s[|s| - 1]];
      r
  }

  /** A `.csv` name whose text before the extension is not all dots loses
      exactly its `.csv`. */
  lemma StemOfCsv(base: string)
    requires exists k :: 0 <= k < |base| && base[k] != '.'
    ensures SplitextStem(base + ".csv") == base
  {
    var name := base + ".csv";
    var r := LastIndexOf(name, '.');
    assert name[|base|] == '.';
    assert r.Some?;
    var k :| 0 <= k < |base| && base[k] != '.';
    assert name[k] == base[k];
    assert name[..|base|] == base;
  }

  // ---------------------------------------------------------------------
  // Decimal numerals

  predicate IsDigit(c: char)
  {
    '0' <= c <= '9'
  }

  function DigitChar(d: nat): (c: char)
    requires d < 10
    ensures IsDigit(c)
  {
    ['0', '1', '2', '3', '4', '5', '6', '7', '8', '9'][d]
  }

  function DigitValue(c: char): nat
    requires IsDigit(c)
  {
    (c as int - '0' as int) as nat
  }

  /** `str(n)` for a non-negative integer. */
  function NatToString(n: nat): (r: string)
    ensures |r| > 0
    ensures forall i :: 0 <= i < |r| ==> IsDigit(r[i])
    decreases n
  {
    if n < 10 then [DigitChar(n)] else NatToString(n / 10) + [DigitChar(n % 10)]
  }

  /** The number a string of digits denotes. */
  function DigitsValue(s: string): nat
    requires forall i :: 0 <= i < |s| ==> IsDigit(s[i])
    decreases |s|
  {
    if |s| == 0 then 0 else DigitsValue(s[..|s| - 1]) * 10 + DigitValue(s[|s| - 1])
  }

  lemma DigitRoundTrip(d: nat)
    requires d < 10
    ensures DigitValue(DigitChar(d)) == d
  {
  }

  lemma {:induction false} NatToStringReads(n: nat)
    ensures DigitsValue(NatToString(n)) == n
    decreases n
  {
    var r := NatToString(n);
    if n < 10 {
      DigitRoundTrip(n);
      assert r[..0] == [];
    } else {
      NatToStringReads(n / 10);
      DigitRoundTrip(n % 10);
      assert r[..|r| - 1] == NatToString(n / 10);
    }
  }

  /** Different numbers print differently. */
  lemma NatToStringInjective(m: nat, n: nat)
    requires m != n
    ensures NatToString(m) != NatToString(n)
  {
    NatToStringReads(m);
    NatToStringReads(n);
  }
}

=== FILE: tracker.dfy ===
/** The per-player last-known table the extractors keep while walking the
    ticks (`prev_known`/`current_known` in reach/utils/convert_csv.py,
    `last_known` in the other two extractors).

    The copy-forward variant copies the table at the start of every tick and
    saves it back at the end; the in-place variants mutate one table. As
    immutable values both are the same fold over the ticks. The only
    difference is that the copy-forward variant also derives a velocity
    from consecutive positions: `trackVelocity` selects it. */
module Tracker {
  import opened Wrappers
  import opened Telemetry

  /** Positions are sampled 20 times a second. */
  const TickRate: real := 20.0

  /** What is held for one player. `ping` is `None` both when no ping event
      was seen and when the last one had no `ping` field: both are written
      as an empty cell. The speed column is derived from `vel`, which the
      source always sets together with it. */
  datatype Known = Known(
    pos: Option<Position>,
    rot: Option<(real, real)>,
    ping: Option<real>,
    vel: Option<Vec3>)

  const Unknown: Known := Known(None, None, None, None)

  type Table = map<PlayerKey, Known>

  /** `table.get(key, {})`: a player never seen has nothing known. */
  function Get(t: Table, k: PlayerKey): Known
  {
    if k in t then t[k] else Unknown
  }

  /** Velocity of a position event against the held position: only when a
      position is held and neither tuple has a missing coordinate; the gap
      between the two ticks plays no part. */
  function Velocity(held: Option<Position>, next: Position): Option<Vec3>
  {
    if held.Some? && held.value.Complete() && next.Complete()
    then Some(Scale(TickRate, Sub(ToVec(next), ToVec(held.value))))
    else None
  }

  /** One event applied to its own player's entry. */
  function Observe(k: Known, e: Event, trackVelocity: bool): Known
  {
    var afterPos :=
      if IsPositionEvent(e) then
        k.(pos := Some(NewPosition(e)),
           vel := if trackVelocity then Velocity(k.pos, NewPosition(e)) else k.vel)
      else k;
    var afterRot :=
      if CarriesRotation(e) then afterPos.(rot := Some((e.updated.yaw.value, e.updated.pitch.value)))
      else afterPos;
    if IsPingEvent(e) then afterRot.(ping := e.updated.ping) else afterRot
  }

  function ObserveAll(k: Known, evs: seq<Event>, trackVelocity: bool): Known
    decreases |evs|
  {
    if |evs| == 0 then k else ObserveAll(Observe(k, evs[0], trackVelocity), evs[1..], trackVelocity)
  }

  /** All of one tick's updates, player by player in iteration order. */
  function ApplyTick(t: Table, players: seq<(PlayerKey, seq<Event>)>, trackVelocity: bool): Table
    decreases |players|
  {
    if |players| == 0 then t
    else
      var key := players[0].0;
      ApplyTick(t[key := ObserveAll(Get(t, key), players[0].1, trackVelocity)], players[1..], trackVelocity)
  }

  /** The table after walking `ticks` from `t`. */
  function Replay(t: Table, ticks: seq<Tick>, trackVelocity: bool): Table
    decreases |ticks|
  {
    if |ticks| == 0 then t else Replay(ApplyTick(t, ticks[0].players, trackVelocity), ticks[1..], trackVelocity)
  }

  /** The table after one more tick is that tick applied to the table
      before it. */
  lemma {:induction false} ReplayAppend(t: Table, ticks: seq<Tick>, x: Tick, tv: bool)
    ensures Replay(t, ticks + [x], tv) == ApplyTick(Replay(t, ticks, tv), x.players, tv)
    decreases |ticks|
  {
    if |ticks| == 0 {
      assert ticks + [x] == [x];
      assert [x][1..] == [];
    } else {
      assert (ticks + [x])[0] == ticks[0];
      assert (ticks + [x])[1..] == ticks[1..] + [x];
      ReplayAppend(ApplyTick(t, ticks[0].players, tv), ticks[1..], x, tv);
    }
  }

  // ---------------------------------------------------------------------
  // Reference definitions: what was last observed in a list of events.

  function Positions(evs: seq<Event>): seq<Position>
  {
    if |evs| == 0 then []
    else (if IsPositionEvent(evs[0]) then [NewPosition(evs[0])] else []) + Positions(evs[1..])
  }

  function Rotations(evs: seq<Event>): seq<(real, real)>
  {
    if |evs| == 0 then []
    else (if CarriesRotation(evs[0]) then [(evs[0].updated.yaw.value, evs[0].updated.pitch.value)] else [])
         + Rotations(evs[1..])
  }

  function Pings(evs: seq<Event>): seq<Option<real>>
  {
    if |evs| == 0 then []
    else (if IsPingEvent(evs[0]) then [evs[0].updated.ping] else []) + Pings(evs[1..])
  }

  function LastOr<T>(s: seq<T>, default: T): T
  {
    if |s| == 0 then default else s[|s| - 1]
  }

  /** The held position after `evs`, starting from `start`. */
  function HeldPosition(evs: seq<Event>, start: Option<Position>): Option<Position>
  {
    var ps := Positions(evs);
    if |ps| == 0 then start else Some(ps[|ps| - 1])
  }

  /** The velocity held after `evs`: derived from the last two positions
      observed (the second-last may be the starting one). */
  function HeldVelocity(evs: seq<Event>, start: Known): Option<Vec3>
  {
    var ps := Positions(evs);
    if |ps| == 0 then start.vel
    else Velocity(if |ps| >= 2 then Some(ps[|ps| - 2]) else start.pos, ps[|ps| - 1])
  }

  // ---------------------------------------------------------------------
  // Lemmas

  lemma {:induction false} ObserveAllAppend(k: Known, a: seq<Event>, b: seq<Event>, tv: bool)
    ensures ObserveAll(k, a + b, tv) == ObserveAll(ObserveAll(k, a, tv), b, tv)
    decreases |a|
  {
    if |a| == 0 {
      assert a + b == b;
    } else {
      assert (a + b)[1..] == a[1..] + b;
      ObserveAllAppend(Observe(k, a[0], tv), a[1..], b, tv);
    }
  }

  /** The held position and velocity come from the last one or two
      position events; without any, they keep what they held before. */
  lemma {:induction false} ObserveAllHoldsLastPosition(k: Known, evs: seq<Event>, tv: bool)
    ensures ObserveAll(k, evs, tv).pos == HeldPosition(evs, k.pos)
    ensures ObserveAll(k, evs, tv).vel == (if tv then HeldVelocity(evs, k) else k.vel)
    decreases |evs|
  {
    if |evs| > 0 {
      var e := evs[0];
      var k' := Observe(k, e, tv);
      ObserveAllHoldsLastPosition(k', evs[1..], tv);
      var rest := Positions(evs[1..]);
      var ps := Positions(evs);
      assert ps == (if IsPositionEvent(e) then [NewPosition(e)] else []) + rest;
      if |rest| >= 2 {
        assert ps[|ps| - 1] == rest[|rest| - 1] && ps[|ps| - 2] == rest[|rest| - 2];
      } else if |rest| == 1 {
        assert ps[|ps| - 1] == rest[0];
      }
    }
  }

  /** The held rotation is the last yaw/pitch pair seen. */
  lemma {:induction false} ObserveAllHoldsLastRotation(k: Known, evs: seq<Event>, tv: bool)
    ensures ObserveAll(k, evs, tv).rot == (if |Rotations(evs)| == 0 then k.rot else Some(LastOr(Rotations(evs), (0.0, 0.0))))
    decreases |evs|
  {
    if |evs| > 0 {
      ObserveAllHoldsLastRotation(Observe(k, evs[0], tv), evs[1..], tv);
      var rs := Rotations(evs[1..]);
      var allRs := Rotations(evs);
      assert |rs| > 0 ==> allRs[|allRs| - 1] == rs[|rs| - 1];
    }
  }

  /** The held ping is the value of the last ping event. */
  lemma {:induction false} ObserveAllHoldsLastPing(k: Known, evs: seq<Event>, tv: bool)
    ensures ObserveAll(k, evs, tv).ping == (if |Pings(evs)| == 0 then k.ping else LastOr(Pings(evs), None))
    decreases |evs|
  {
    if |evs| > 0 {
      ObserveAllHoldsLastPing(Observe(k, evs[0], tv), evs[1..], tv);
      var qs := Pings(evs[1..]);
      var allQs := Pings(evs);
      assert |qs| > 0 ==> allQs[|allQs| - 1] == qs[|qs| - 1];
    }
  }

  /** Each field holds its last observation; fields never observed keep
      what they held before. */
  lemma ObserveAllHoldsLastObservation(k: Known, evs: seq<Event>, tv: bool)
    ensures ObserveAll(k, evs, tv).pos == HeldPosition(evs, k.pos)
    ensures ObserveAll(k, evs, tv).rot == (if |Rotations(evs)| == 0 then k.rot else Some(LastOr(Rotations(evs), (0.0, 0.0))))
    ensures ObserveAll(k, evs, tv).ping == (if |Pings(evs)| == 0 then k.ping else LastOr(Pings(evs), None))
    ensures ObserveAll(k, evs, tv).vel == (if tv then HeldVelocity(evs, k) else k.vel)
  {
    ObserveAllHoldsLastPosition(k, evs, tv);
    ObserveAllHoldsLastRotation(k, evs, tv);
    ObserveAllHoldsLastPing(k, evs, tv);
  }

  /** Within a tick an entry changes only by its own player's events. */
  lemma {:induction false} ApplyTickPerPlayer(t: Table, players: seq<(PlayerKey, seq<Event>)>, k: PlayerKey, tv: bool)
    ensures Get(ApplyTick(t, players, tv), k) == ObserveAll(Get(t, k), EventsInTick(players, k), tv)
    decreases |players|
  {
    if |players| > 0 {
      var key := players[0].0;
      var t' := t[key := ObserveAll(Get(t, key), players[0].1, tv)];
      assert ApplyTick(t, players, tv) == ApplyTick(t', players[1..], tv);
      ApplyTickPerPlayer(t', players[1..], k, tv);
      if key == k {
        ObserveAllAppend(Get(t, k), players[0].1, EventsInTick(players[1..], k), tv);
      } else {
        assert Get(t', k) == Get(t, k);
        assert EventsInTick(players, k) == [] + EventsInTick(players[1..], k);
        assert [] + EventsInTick(players[1..], k) == EventsInTick(players[1..], k);
      }
    }
  }

  lemma {:induction false} ReplayPerPlayer(t: Table, ticks: seq<Tick>, k: PlayerKey, tv: bool)
    ensures Get(Replay(t, ticks, tv), k) == ObserveAll(Get(t, k), EventsOfPlayer(ticks, k), tv)
    decreases |ticks|
  {
    if |ticks| > 0 {
      var t' := ApplyTick(t, ticks[0].players, tv);
      ReplayPerPlayer(t', ticks[1..], k, tv);
      ApplyTickPerPlayer(t, ticks[0].players, k, tv);
      ObserveAllAppend(Get(t, k), EventsInTick(ticks[0].players, k), EventsOfPlayer(ticks[1..], k), tv);
    }
  }

  /** A player with no entry in a tick keeps its whole state. */
  lemma ApplyTickLeavesOthersAlone(t: Table, players: seq<(PlayerKey, seq<Event>)>, k: PlayerKey, tv: bool)
    requires forall i :: 0 <= i < |players| ==> players[i].0 != k
    ensures Get(ApplyTick(t, players, tv), k) == Get(t, k)
  {
    ApplyTickPerPlayer(t, players, k, tv);
    NotPresentMeansNoEvents(players, k);
  }

  /** Copy-forward: a field with no event in this tick keeps the previous
      tick's value; a field with events takes the last one. */
  lemma TickCarriesFieldsForward(t: Table, players: seq<(PlayerKey, seq<Event>)>, k: PlayerKey, tv: bool)
    ensures var evs := EventsInTick(players, k);
            var before := Get(t, k);
            var after := Get(ApplyTick(t, players, tv), k);
            && (|Positions(evs)| == 0 ==> after.pos == before.pos && after.vel == before.vel)
            && (|Positions(evs)| > 0 ==> after.pos == Some(LastOr(Positions(evs), Position(None, None, None))))
            && (|Rotations(evs)| == 0 ==> after.rot == before.rot)
            && (|Pings(evs)| == 0 ==> after.ping == before.ping)
  {
    ApplyTickPerPlayer(t, players, k, tv);
    ObserveAllHoldsLastObservation(Get(t, k), EventsInTick(players, k), tv);
  }

  /** The defining invariant: after any prefix of the replay every field
      of every player is its last observation (or absent if never
      observed), and the velocity comes from the last two positions. */
  lemma HeldStateIsLastObservation(ticks: seq<Tick>, k: PlayerKey, tv: bool)
    ensures var s := Get(Replay(map[], ticks, tv), k);
            var evs := EventsOfPlayer(ticks, k);
            && s.pos == HeldPosition(evs, None)
            && s.rot == (if |Rotations(evs)| == 0 then None else Some(LastOr(Rotations(evs), (0.0, 0.0))))
            && s.ping == LastOr(Pings(evs), None)
            && s.vel == (if tv then HeldVelocity(evs, Unknown) else None)
  {
    ReplayPerPlayer(map[], ticks, k, tv);
    ObserveAllHoldsLastObservation(Unknown, EventsOfPlayer(ticks, k), tv);
  }

  /** Position, rotation and ping do not depend on whether velocity is tracked. */
  lemma {:induction false} VelocityTrackingIsInvisible(k1: Known, k2: Known, evs: seq<Event>)
    requires k1.pos == k2.pos && k1.rot == k2.rot && k1.ping == k2.ping
    ensures var a := ObserveAll(k1, evs, true);
            var b := ObserveAll(k2, evs, false);
            a.pos == b.pos && a.rot == b.rot && a.ping == b.ping
  {
    ObserveAllHoldsLastObservation(k1, evs, true);
    ObserveAllHoldsLastObservation(k2, evs, false);
  }

  /** Velocity is never tracked by the in-place extractors. */
  lemma NoVelocityWithoutTracking(ticks: seq<Tick>, k: PlayerKey)
    ensures Get(Replay(map[], ticks, false), k).vel == None
  {
    HeldStateIsLastObservation(ticks, k, false);
  }

  /** Every element of `Positions(evs)` was carried by a position event of `evs`. */
  lemma {:induction false} PositionsComeFromEvents(evs: seq<Event>, p: Position)
    requires p in Positions(evs)
    ensures exists i :: 0 <= i < |evs| && IsPositionEvent(evs[i]) && NewPosition(evs[i]) == p
  {
    if |evs| > 0 {
      var head := if IsPositionEvent(evs[0]) then [NewPosition(evs[0])] else [];
      if p in head {
      } else {
        assert p in Positions(evs[1..]);
        PositionsComeFromEvents(evs[1..], p);
        var i :| 0 <= i < |evs[1..]| && IsPositionEvent(evs[1..][i]) && NewPosition(evs[1..][i]) == p;
        assert evs[i + 1] == evs[1..][i];
      }
    }
  }

  /** A position held after any prefix of the replay was reported by one of
      that player's own position events: the table starts empty, so no
      position is ever invented. */
  lemma HeldPositionWasReported(ticks: seq<Tick>, k: PlayerKey, tv: bool, p: Position)
    requires Get(Replay(map[], ticks, tv), k).pos == Some(p)
    ensures var evs := EventsOfPlayer(ticks, k);
            exists i :: 0 <= i < |evs| && IsPositionEvent(evs[i]) && NewPosition(evs[i]) == p
  {
    var evs := EventsOfPlayer(ticks, k);
    HeldStateIsLastObservation(ticks, k, tv);
    var ps := Positions(evs);
    assert ps[|ps| - 1] == p;
    PositionsComeFromEvents(evs, p);
  }
}

=== FILE: training.dfy ===
/** The training scripts (reach/training/train_reach_model.py and
    reach/training/training_reach.py, identical in the parts modelled):
    recovering a replay id from a segment file name, labelling segment
    files, and the replay-level aggregation of segment predictions. The
    feature extraction and the classifier are parameters. */
module Training {
  import opened Wrappers
  import Seqs
  import Text
  import Preprocess
  import Segments

  // ---------------------------------------------------------------------
  // parse_replay_id: re.match(r"(.*)_segment_\d+\.csv", basename)

  /** End of the run of ASCII digits that starts at `j`. */
  function DigitRunEnd(s: string, j: nat): (e: nat)
    requires j <= |s|
    ensures j <= e <= |s|
    ensures forall k :: j <= k < e ==> Text.IsDigit(s[k])
    ensures e < |s| ==> !Text.IsDigit(s[e])
    decreases |s| - j
  {
    if j < |s| && Text.IsDigit(s[j]) then DigitRunEnd(s, j + 1) else j
  }

  /** `_segment_\d+\.csv` matches at `i`. The `\d+` must be followed by
      `.`, so only the whole digit run starting after the infix can match. */
  predicate SuffixAt(s: string, i: nat)
  {
    i + 9 <= |s| && s[i..i + 9] == Preprocess.SegmentInfix &&
    var e := DigitRunEnd(s, i + 9);
    e > i + 9 && e + 4 <= |s| && s[e..e + 4] == ".csv"
  }

  /** The whole pattern matches with group 1 equal to `s[..i]`: `.` does
      not match a newline, so the group holds none. */
  predicate MatchAt(s: string, i: nat)
  {
    i <= |s| && '\n' !in s[..i] && SuffixAt(s, i)
  }

  /** Greedy `(.*)`: the largest `i <= bound` at which the pattern matches. */
  function LastMatch(s: string, bound: nat): (r: Option<nat>)
    ensures r.Some? ==> r.value <= bound && MatchAt(s, r.value)
    ensures r.Some? ==> forall j :: r.value < j <= bound ==> !MatchAt(s, j)
    ensures r.None? ==> forall j :: 0 <= j <= bound ==> !MatchAt(s, j)
  {
    if MatchAt(s, bound) then Some(bound)
    else if bound == 0 then None
    else LastMatch(s, bound - 1)
  }

  /** `i` is where the greedy match splits `s`: the pattern matches there
      and at no later position. */
  predicate IsLastMatch(s: string, i: nat)
  {
    i <= |s| && MatchAt(s, i) && forall j :: i < j <= |s| ==> !MatchAt(s, j)
  }

  lemma LastMatchIsUnique(s: string, i: nat)
    requires IsLastMatch(s, i)
    ensures forall j: nat :: IsLastMatch(s, j) ==> j == i
  {
  }

  /** `parse_replay_id`. */
  function ParseReplayId(filename: string): string
  {
    var base := Text.Basename(filename);
    match LastMatch(base, |base|)
    case Some(i) => base[..i]
    case None => base
  }

  /** The directory part is dropped; a name matching the pattern gives the
      group of its last match, any other name is returned whole. */
  lemma ParseReplayIdMeaning(filename: string)
    ensures forall i: nat :: IsLastMatch(Text.Basename(filename), i) ==>
              ParseReplayId(filename) == Text.Basename(filename)[..i]
    ensures (forall i :: 0 <= i <= |Text.Basename(filename)| ==> !MatchAt(Text.Basename(filename), i)) ==>
              ParseReplayId(filename) == Text.Basename(filename)
  {
    var base := Text.Basename(filename);
    match LastMatch(base, |base|)
    case Some(i) =>
      LastMatchIsUnique(base, i);
    case None =>
      assert forall j: nat :: !IsLastMatch(base, j);
  }

  lemma SuffixOfSegmentName(stem: string, digits: string)
    requires |digits| > 0 && forall k :: 0 <= k < |digits| ==> Text.IsDigit(digits[k])
    ensures var name := stem + Preprocess.SegmentInfix + digits + ".csv";
            SuffixAt(name, |stem|) && name[..|stem|] == stem
  {
    var name := stem + Preprocess.SegmentInfix + digits + ".csv";
    var j := |stem| + 9;
    assert forall k :: j <= k < j + |digits| ==> name[k] == digits[k - j];
    assert name[j + |digits|] == '.';
    assert DigitRunEnd(name, j) == j + |digits| by {
      DigitRunEndOf(name, j, j + |digits|);
    }
    assert name[|stem|..|stem| + 9] == Preprocess.SegmentInfix;
    assert name[j + |digits|..j + |digits| + 4] == ".csv";
  }

  lemma {:induction false} DigitRunEndOf(s: string, j: nat, e: nat)
    requires j <= e < |s|
    requires forall k :: j <= k < e ==> Text.IsDigit(s[k])
    requires !Text.IsDigit(s[e])
    ensures DigitRunEnd(s, j) == e
    decreases e - j
  {
    if j < e {
      DigitRunEndOf(s, j + 1, e);
    }
  }

  /** No later position of a segment name starts the pattern: the infix
      cannot start inside `segment_`, the digits or `.csv`. */
  lemma NoLaterSuffix(stem: string, digits: string, j: nat)
    requires |digits| > 0 && forall k :: 0 <= k < |digits| ==> Text.IsDigit(digits[k])
    requires |stem| < j
    ensures !SuffixAt(stem + Preprocess.SegmentInfix + digits + ".csv", j)
  {
    var name := stem + Preprocess.SegmentInfix + digits + ".csv";
    var n := |stem|;
    if j + 9 <= |name| {
      if j < n + 8 {
        assert name[j] == Preprocess.SegmentInfix[j - n];
      } else if j == n + 8 {
        assert name[j + 1] == digits[0];
      } else {
        assert name[j] == digits[j - n - 9];
      }
      assert name[j..j + 9][0] != '_' || name[j..j + 9][1] != 's';
    }
  }

  lemma NoSlashInSegmentName(stem: string, digits: string)
    requires '/' !in stem && '\n' !in stem
    requires forall k :: 0 <= k < |digits| ==> Text.IsDigit(digits[k])
    ensures '/' !in stem + Preprocess.SegmentInfix + digits + ".csv"
    ensures '\n' !in stem
  {
    var name := stem + Preprocess.SegmentInfix + digits + ".csv";
    forall k | 0 <= k < |name| ensures name[k] != '/' {
      if k < |stem| {
        assert name[k] == stem[k];
      } else if k < |stem| + 9 {
        assert name[k] == Preprocess.SegmentInfix[k - |stem|];
      } else if k < |stem| + 9 + |digits| {
        assert name[k] == digits[k - |stem| - 9];
      } else {
        assert name[k] == ".csv"[k - |stem| - 9 - |digits|];
      }
    }
  }

  /** `parse_replay_id` inverts the preprocessor's naming: the `i`-th
      segment file of `stem.csv`, in any directory, parses back to `stem`,
      whatever `stem` itself contains besides a `/` or a newline. */
  lemma ParseReplayIdInvertsNaming(dir: string, stem: string, i: nat)
    requires '/' !in stem && '\n' !in stem
    requires exists k :: 0 <= k < |stem| && stem[k] != '.'
    ensures ParseReplayId(dir + "/" + Preprocess.SegmentFileName(stem + ".csv", i)) == stem
  {
    var digits := Text.NatToString(i + 1);
    Text.StemOfCsv(stem);
    var name := stem + Preprocess.SegmentInfix + digits + ".csv";
    assert Preprocess.SegmentFileName(stem + ".csv", i) == name;
    NoSlashInSegmentName(stem, digits);
    Text.BasenameOfJoin(dir, name);
    SuffixOfSegmentName(stem, digits);
    assert MatchAt(name, |stem|);
    forall j | |stem| < j <= |name|
      ensures !MatchAt(name, j)
    {
      NoLaterSuffix(stem, digits, j);
    }
    assert IsLastMatch(name, |stem|);
    ParseReplayIdMeaning(dir + "/" + name);
  }

  /** Every segment the preprocessor writes for `stem.csv` is grouped
      under `stem` when the dataset is loaded. */
  lemma SegmentsOfFileShareReplayId<C>(dir: string, stem: string, rows: seq<Segments.Row<C>>, threshold: real, minTicks: int)
    requires '/' !in stem && '\n' !in stem
    requires exists k :: 0 <= k < |stem| && stem[k] != '.'
    ensures var out := Preprocess.NamedSegments(Preprocess.CsvFile(stem + ".csv", rows), threshold, minTicks);
            forall i :: 0 <= i < |out| ==> ParseReplayId(dir + "/" + out[i].name) == stem
  {
    var out := Preprocess.NamedSegments(Preprocess.CsvFile(stem + ".csv", rows), threshold, minTicks);
    forall i | 0 <= i < |out|
      ensures ParseReplayId(dir + "/" + out[i].name) == stem
    {
      ParseReplayIdInvertsNaming(dir, stem, i);
    }
  }

  /** A name without the pattern, such as a player file `name.csv`, comes
      back as its base name. */
  lemma UnmatchedNameUnchanged(filename: string)
    requires forall i :: 0 <= i <= |Text.Basename(filename)| ==> !SuffixAt(Text.Basename(filename), i)
    ensures ParseReplayId(filename) == Text.Basename(filename)
  {
  }

  // ---------------------------------------------------------------------
  // load_segment_dataset

  /** One feature row of the dataset with its label and file. */
  datatype Sample<F> = Sample(features: F, hackLabel: int, filePath: string)
  {
    /** The `replay_id` column, parsed from the file path. */
    function ReplayId(): string
    {
      ParseReplayId(filePath)
    }
  }

  /** A sample carries `hackLabel` and comes from one of `files`. */
  predicate Labelled<F>(s: Sample<F>, hackLabel: int, files: seq<string>)
  {
    s.hackLabel == hackLabel && s.filePath in files
  }

  /** How many feature rows the files yield together. */
  function RowCount<F>(files: seq<string>, extract: string -> seq<F>): nat
    decreases |files|
  {
    if |files| == 0 then 0 else |extract(files[0])| + RowCount(files[1..], extract)
  }

  /** Every feature row of every file, tagged with the label and its file. */
  ghost predicate KeepsEveryRow<F>(out: seq<Sample<F>>, files: seq<string>, hackLabel: int, extract: string -> seq<F>)
  {
    forall k, i :: 0 <= k < |files| && 0 <= i < |extract(files[k])| ==>
      Sample(extract(files[k])[i], hackLabel, files[k]) in out
  }

  /** The samples of a list of files with one label: each file's feature
      rows (`extract` gives none when features are missing or empty). */
  function LabelFiles<F>(files: seq<string>, hackLabel: int, extract: string -> seq<F>): (out: seq<Sample<F>>)
    ensures forall k :: 0 <= k < |out| ==> Labelled(out[k], hackLabel, files)
    ensures KeepsEveryRow(out, files, hackLabel, extract)
    ensures |out| == RowCount(files, extract)
    ensures |out| == 0 <==> forall k :: 0 <= k < |files| ==> |extract(files[k])| == 0
    decreases |files|
  {
    if |files| == 0 then []
    else
      var rows := extract(files[0]);
      var here := seq(|rows|, i requires 0 <= i < |rows| =>
                    Sample(rows[i], hackLabel, files[0]));
      var rest := LabelFiles(files[1..], hackLabel, extract);
      assert forall k :: 1 <= k < |files| ==> files[k] == files[1..][k - 1];
      assert forall k :: 0 <= k < |rest| ==> Labelled(rest[k], hackLabel, files) by {
        forall k | 0 <= k < |rest| ensures Labelled(rest[k], hackLabel, files) {
          assert rest[k].filePath in files[1..];
        }
      }
      KeepsEveryRowStep(here, rest, files, hackLabel, extract);
      here + rest
  }

  /** The rows of the first file, followed by every row of the others. */
  lemma KeepsEveryRowStep<F>(here: seq<Sample<F>>, rest: seq<Sample<F>>, files: seq<string>, hackLabel: int,
                             extract: string -> seq<F>)
    requires |files| > 0
    requires here == seq(|extract(files[0])|, i requires 0 <= i < |extract(files[0])| =>
                           Sample(extract(files[0])[i], hackLabel, files[0]))
    requires KeepsEveryRow(rest, files[1..], hackLabel, extract)
    ensures KeepsEveryRow(here + rest, files, hackLabel, extract)
  {
    forall k, i | 0 <= k < |files| && 0 <= i < |extract(files[k])|
      ensures Sample(extract(files[k])[i], hackLabel, files[k]) in here + rest
    {
      if k == 0 {
        assert (here + rest)[i] == here[i];
      } else {
        assert files[k] == files[1..][k - 1];
      }
    }
  }

  datatype LoadError = NoValidSegments

  /** `load_segment_dataset`: hack files labelled 1 followed by normal files
      labelled 0; a `ValueError` when neither yields a feature row. */
  function LoadSegmentDataset<F>(hackFiles: seq<string>, normalFiles: seq<string>, extract: string -> seq<F>)
    : (r: Result<seq<Sample<F>>, LoadError>)
    ensures r.Failure? <==>
              (forall k :: 0 <= k < |hackFiles| ==> |extract(hackFiles[k])| == 0) &&
              (forall k :: 0 <= k < |normalFiles| ==> |extract(normalFiles[k])| == 0)
    ensures r.Success? ==> forall k :: 0 <= k < |r.value| ==>
              Labelled(r.value[k], 1, hackFiles) || Labelled(r.value[k], 0, normalFiles)
    ensures r.Success? ==> forall i, j :: 0 <= i < j < |r.value| ==> r.value[i].hackLabel >= r.value[j].hackLabel
    ensures r.Success? ==>
              && KeepsEveryRow(r.value, hackFiles, 1, extract)
              && KeepsEveryRow(r.value, normalFiles, 0, extract)
              && |r.value| == RowCount(hackFiles, extract) + RowCount(normalFiles, extract)
  {
    var hack := LabelFiles(hackFiles, 1, extract);
    var normal := LabelFiles(normalFiles, 0, extract);
    var data := hack + normal;
    if |data| == 0 then Failure(NoValidSegments)
    else
      assert forall k :: 0 <= k < |hack| ==> data[k] == hack[k];
      assert forall k :: |hack| <= k < |data| ==> data[k] == normal[k - |hack|];
      Success(data)
  }

  // ---------------------------------------------------------------------
  // Thresholding and replay-level aggregation

  /** `(y_prob >= threshold).astype(int)`. */
  function SegmentLabel(prob: real, threshold: real): (l: int)
  {
    if prob >= threshold then 1 else 0
  }

  /** A test-set segment: its replay id, true label and predicted probability. */
  datatype SegmentResult = SegmentResult(replayId: string, trueLabel: int, prob: real)

  function MaxReal(xs: seq<real>): (m: real)
    requires |xs| > 0
    ensures exists k :: 0 <= k < |xs| && xs[k] == m
    ensures forall k :: 0 <= k < |xs| ==> xs[k] <= m
    decreases |xs|
  {
    if |xs| == 1 then xs[0]
    else
      var rest := MaxReal(xs[1..]);
      assert forall k :: 1 <= k < |xs| ==> xs[k] == xs[1..][k - 1];
      if xs[0] >= rest then xs[0] else rest
  }

  function MaxInt(xs: seq<int>): (m: int)
    requires |xs| > 0
    ensures exists k :: 0 <= k < |xs| && xs[k] == m
    ensures forall k :: 0 <= k < |xs| ==> xs[k] <= m
    decreases |xs|
  {
    if |xs| == 1 then xs[0]
    else
      var rest := MaxInt(xs[1..]);
      assert forall k :: 1 <= k < |xs| ==> xs[k] == xs[1..][k - 1];
      if xs[0] >= rest then xs[0] else rest
  }

  /** The group of one replay id, in the order of the results. */
  function ResultsOf(results: seq<SegmentResult>, id: string): (g: seq<SegmentResult>)
    ensures forall r :: r in g <==> r in results && r.replayId == id
  {
    Seqs.FilterMembers((r: SegmentResult) => r.replayId == id, results);
    Seqs.Filter((r: SegmentResult) => r.replayId == id, results)
  }

  /** The aggregated row of one replay id. */
  datatype ReplayRow = ReplayRow(replayId: string, trueLabel: int, predLabel: int, prob: real)

  /** `groupby("replay_id").agg(max, max, max)` for one group. */
  function ReplayLevel(group: seq<SegmentResult>, id: string, threshold: real): (row: ReplayRow)
    requires |group| > 0
  {
    ReplayRow(id,
      MaxInt(seq(|group|, k requires 0 <= k < |group| => group[k].trueLabel)),
      MaxInt(seq(|group|, k requires 0 <= k < |group| => SegmentLabel(group[k].prob, threshold))),
      MaxReal(seq(|group|, k requires 0 <= k < |group| => group[k].prob)))
  }

  /** The replay is predicted a hack exactly when one of its segments is:
      the maximum of the labels is an OR, it is the label of the maximum
      probability, and it is always 0 or 1. */
  lemma ReplayLevelIsOr(group: seq<SegmentResult>, id: string, threshold: real)
    requires |group| > 0
    ensures var row := ReplayLevel(group, id, threshold);
            (row.predLabel == 1 <==> exists k :: 0 <= k < |group| && group[k].prob >= threshold) &&
            (row.predLabel == 0 || row.predLabel == 1) &&
            row.predLabel == SegmentLabel(row.prob, threshold)
  {
    var labels := seq(|group|, k requires 0 <= k < |group| => SegmentLabel(group[k].prob, threshold));
    var probs := seq(|group|, k requires 0 <= k < |group| => group[k].prob);
    var l, p := MaxInt(labels), MaxReal(probs);
    assert forall k :: 0 <= k < |group| ==> labels[k] == SegmentLabel(group[k].prob, threshold);
    assert forall k :: 0 <= k < |group| ==> probs[k] == group[k].prob;
  }

  /** Over the whole test set: a replay id that occurs is predicted a hack
      exactly when one of its own segments reaches the threshold. */
  lemma ReplayPredictionOverResults(results: seq<SegmentResult>, id: string, threshold: real)
    requires exists k :: 0 <= k < |results| && results[k].replayId == id
    ensures |ResultsOf(results, id)| > 0
    ensures ReplayLevel(ResultsOf(results, id), id, threshold).predLabel == 1 <==>
              exists k :: 0 <= k < |results| && results[k].replayId == id && results[k].prob >= threshold
  {
    var g := ResultsOf(results, id);
    var k0 :| 0 <= k0 < |results| && results[k0].replayId == id;
    assert results[k0] in g;
    ReplayLevelIsOr(g, id, threshold);
    GroupReachesThreshold(results, id, threshold);
  }

  lemma GroupReachesThreshold(results: seq<SegmentResult>, id: string, threshold: real)
    ensures var g := ResultsOf(results, id);
            (exists j :: 0 <= j < |g| && g[j].prob >= threshold) <==>
            (exists k :: 0 <= k < |results| && results[k].replayId == id && results[k].prob >= threshold)
  {
    var g := ResultsOf(results, id);
    if exists k :: 0 <= k < |results| && results[k].replayId == id && results[k].prob >= threshold {
      var k :| 0 <= k < |results| && results[k].replayId == id && results[k].prob >= threshold;
      assert results[k] in g;
    }
    if exists j :: 0 <= j < |g| && g[j].prob >= threshold {
      var j :| 0 <= j < |g| && g[j].prob >= threshold;
      assert g[j] in results;
    }
  }
}

=== FILE: wrappers.dfy ===
/** Optional values and results shared by every module of the model.

    `None` stands for every value the replay tools write as an empty cell
    (the empty string in the CSV output, NaN once pandas reads it back):
    it is never confused with zero. */
module Wrappers {

  datatype Option<+T> = None | Some(value: T) {

    /** The value, or `default` when there is none. */
    function GetOr(default: T): T {
      match this
      case Some(v) => v
      case None => default
    }
  }

  /** A computation that either produced a value or stopped with the error
      the Python interpreter would have raised. */
  datatype Result<+R, +E> = Success(value: R) | Failure(error: E) {

    predicate IsFailure() {
      Failure?
    }

    function PropagateFailure<U>(): Result<U, E>
      requires Failure?
    {
      Failure(error)
    }

    function Extract(): R
      requires Success?
    {
      value
    }
  }
}
